=== FILE: README.md ===
# MELP bootstrap helpers and runtime library in Dafny

This project models the deterministic core of the MELP-LLVM repository:

- the two bootstrap scripts that pull a function name and a return value out of MELP source text (`scripts/parse_helper.py`) and substitute them into an LLVM IR template (`scripts/codegen_helper.py`);
- the C runtime library that compiled MELP programs link against:
  - byte strings (`mlp_string.c`);
  - arbitrary-precision decimal integers (`bigdecimal.c`, `runtime_sto.c`);
  - exact int64 overflow checks (`runtime_sto.c`, `sto_runtime.c`);
  - two small-string-optimisation (SSO) string representations with different inline limits (`runtime_sto.c` and `sso_string.c` inline up to 23 bytes; `sto_runtime.c` inlines below 23);
  - the growable list and the array built on it (`mlp_list.c`, `mlp_array.c`);
  - the FNV-1a chained hash map (`mlp_map.c`);
  - the key/value state manager with its save/load text format (`mlp_state.c`);
  - optional values (`mlp_optional.c`);
  - int64 min/max/abs (`mlp_math.c`).

Conventions:

- A C string is a `string` without NUL, and a pointer that may be NULL is an `Option`.
- int64 values are `int`s in range (`Machine.Int64`). C's truncating division is `Machine.CDiv`. Where the C code overflows a signed int64, which C leaves undefined, the model takes the two's-complement wrap-around that `gcc -fwrapv` guarantees, written out with `Machine.Wrap`.
- A fatal runtime error (`exit`, `mlp_runtime_error`) is a `Fatal` result.
- Allocation always succeeds.
- `state_load` accepts a key of exactly 255 characters: its key loop stops only after 255.
- Code that loops in place (the digit loops of `bigdecimal.c`, the list and map mutators, the state manager) is modelled as methods on arrays and classes with loop invariants. Pure code is modelled as functions and lemmas.

Modules:

- Shared modules: `Wrappers` (Option/Result), `Machine` (int64 range, wrap-around, truncating division), `Text` (`strstr`-style search; non-overlapping count, replace and split; `strcmp` order) and `Decimal` (digit strings, `printf("%lld")` text, the `atoll`/`sscanf` readers).
- One module per core source file: `ParseHelper`, `CodegenHelper`, `MlpString`, `BigDecimalArith`, `RuntimeSto`, `SsoStrings`, `StoRuntime`, `MlpList`, `MlpArray`, `MlpMap`, `MlpState`, `MlpOptional` and `MlpMath`.

## Model

| member | source | states |
|---|---|---|
| ParseHelper.MatchFunctionAtExact | scripts/parse_helper.py:20 | wherever `function\s+(\w+)\s*\(` matches at a position, the matcher finds it there, and group 1 is the maximal word run |
| ParseHelper.MatchFunctionAtSound | scripts/parse_helper.py:20 | a match the matcher reports is a match of the pattern, and its group 1 is not followed by a word character |
| ParseHelper.FindFunctionFrom | scripts/parse_helper.py:20 | `re.search` scans left to right: the position found matches, and no position before it does; no result means no position matches |
| ParseHelper.ExtractFunctionNameLeftmost | scripts/parse_helper.py:20-22 | the name returned is group 1 at the leftmost position where the pattern matches, however the pattern is split there |
| ParseHelper.ExtractFunctionName | scripts/parse_helper.py:20-23 | the name is "main" or a non-empty run of word characters |
| ParseHelper.ExtractFunctionNameDefault | scripts/parse_helper.py:23 | when the pattern matches nowhere the result is "main" |
| ParseHelper.ExtractedNameIsWord | scripts/parse_helper.py:20-22 | a found name is non-empty, all word characters, and maximal |
| ParseHelper.ExtractFunctionNameInsideWord | scripts/parse_helper.py:20 | the keyword is not anchored at a word boundary: "myfunction foo(" gives "foo" |
| ParseHelper.WordRunIsMaximal | scripts/parse_helper.py:20 | the greedy `\w+` run ends exactly where the word characters end |
| ParseHelper.SpaceRunIsMaximal | scripts/parse_helper.py:20 | the greedy `\s*` run ends exactly where the white space ends |
| ParseHelper.MatchReturnAt | scripts/parse_helper.py:32 | a match of `return\s+(\d+)` lies after the keyword and its group 1 is a non-empty digit run |
| ParseHelper.MatchReturnAtSound | scripts/parse_helper.py:32 | a reported match is a match of the pattern, and group 1 is not followed by a digit |
| ParseHelper.MatchReturnAtGreedy | scripts/parse_helper.py:32 | wherever the pattern matches, the matcher finds that match with the longest digit run |
| ParseHelper.FindReturnFrom | scripts/parse_helper.py:32 | the leftmost matching position, or none when no position matches |
| ParseHelper.ExtractReturnValue | scripts/parse_helper.py:32-35 | the value is 0 or the value of a digit run occurring in the source |
| ParseHelper.ExtractReturnValueSpec | scripts/parse_helper.py:32-35 | no match gives 0; otherwise the value is that of the maximal digit run at the leftmost match; the result is never negative |
| ParseHelper.ExtractReturnValueLeftmost | scripts/parse_helper.py:32-34 | the value is that of the longest digit run at the leftmost matching position |
| ParseHelper.ExtractReturnValueSkipsNegative | scripts/parse_helper.py:32-35 | a "return" followed by "-5" is passed over: "return -5 return 7" gives 7 |
| CodegenHelper.GenerateLlvmIr | scripts/codegen_helper.py:19-20 | no `__RETURN_VAL__` is left in the output, whatever the name, value and template |
| CodegenHelper.DecimalTextAvoidsPlaceholder | scripts/codegen_helper.py:20 | the decimal text of any integer shares no character with `__RETURN_VAL__` (it has no '_' and no letter) |
| CodegenHelper.GenerateWithoutPlaceholders | scripts/codegen_helper.py:19-20 | a template with neither placeholder comes back unchanged |
| CodegenHelper.FirstPassLength | scripts/codegen_helper.py:19 | after the first pass the length is the template's plus (len(name) - 13) per non-overlapping `__FUNC_NAME__` |
| CodegenHelper.GenerateRescansName | scripts/codegen_helper.py:19-20 | the second pass scans the inserted name, so a name that is `__RETURN_VAL__` is replaced by the value |
| Text.FindFrom | runtime/stdlib/mlp_string.c:231-238 | `strstr` from an offset: the index found holds an occurrence and no earlier index does; none means no occurrence at all |
| Text.FindEmpty | runtime/stdlib/mlp_string.c:231-238 | the empty needle is found at index 0 |
| Text.ReplaceAllFromLength | scripts/codegen_helper.py:19 | a full replacement changes the length by (len(new) - len(old)) per occurrence |
| Text.ReplaceAllAbsent | scripts/codegen_helper.py:19-20 | replacing a pattern that does not occur changes nothing |
| Text.ReplaceAllFromRemovesPattern | scripts/codegen_helper.py:20 | with a non-empty replacement that shares no character with the pattern, no occurrence is left |
| Text.JoinSplitFrom | runtime/stdlib/mlp_string.c:620-682 | joining the parts of a split with the delimiter gives back the text |
| Text.SplitFromShape | runtime/stdlib/mlp_string.c:620-682 | there is one more part than delimiter occurrences, and no part contains the delimiter |
| Text.LexCompare | runtime/stdlib/mlp_string.c:126-133 | the sign of `strcmp`: -1, 0 or 1, and 0 exactly for equal strings |
| Text.LexCompareAntisymmetric | runtime/stdlib/mlp_string.c:126-133 | swapping the operands flips the sign |
| Text.LexCompareFirstDifference | runtime/stdlib/mlp_string.c:126-133 | the order is decided by the first differing byte |
| Text.LexComparePrefix | runtime/stdlib/mlp_string.c:126-133 | a proper prefix comes first |
| Machine.Wrap | runtime/sto/runtime_sto.c:62-65 | the int64 that a mathematical integer wraps to is congruent to it modulo 2^64 and equals it when in range |
| Machine.CDivBounds | runtime/sto/sto_runtime.c:24-31 | C division truncates: the remainder is below the divisor in magnitude and has the dividend's sign |
| Machine.CDivShrinks | runtime/sto/bigdecimal.c:283-306 | truncating division never increases the magnitude |
| Decimal.NatToDigits | runtime/sto/runtime_sto.c:114-131 | the canonical digits of a number denote that number |
| Decimal.DigitsRoundTrip | runtime/sto/bigdecimal.c:37-45 | printing the value of canonical digits gives back those digits |
| Decimal.CanonicalInjective | runtime/sto/bigdecimal.c:37-45 | two canonical digit strings with the same value are the same string |
| Decimal.LexCompareIsNumericOrder | runtime/sto/bigdecimal.c:49-59 | among digit strings of one length `strcmp` order is numeric order |
| Decimal.CanonicalLengthOrder | runtime/sto/bigdecimal.c:49-59 | among canonical digit strings the longer denotes the larger number |
| Decimal.Int64MagnitudeDigits | runtime/sto/runtime_sto.c:278-324 | the magnitude of an int64 has at most 19 digits |
| Decimal.IntToStringShape | scripts/codegen_helper.py:20 | `str(v)` and `%lld` text is digits after at most one leading '-' |
| Decimal.ParseIntToString | runtime/sto/sso_string.c:136-150 | reading back the decimal text of an int64 with `atoll` gives the value |
| MlpString.Concat | runtime/stdlib/mlp_string.c:44-68 | the result is str1 ++ str2, with a NULL operand read as "" |
| MlpString.Concat3 | runtime/stdlib/mlp_string.c:84-106 | the result is the concatenation of the three operands, NULL read as "" |
| MlpString.Compare | runtime/stdlib/mlp_string.c:126-133 | NULL equals NULL and precedes any string; otherwise the sign of `strcmp`; 0 exactly for equal arguments |
| MlpString.CompareAntisymmetric | runtime/stdlib/mlp_string.c:126-133 | swapping the operands flips the sign |
| MlpString.Equals | runtime/stdlib/mlp_string.c:145-147 | true exactly when compare is 0, that is when the arguments are equal |
| MlpString.NotEquals | runtime/stdlib/mlp_string.c:156-158 | true exactly when the arguments differ |
| MlpString.Length | runtime/stdlib/mlp_string.c:170-172 | the byte count, 0 for NULL |
| MlpString.IsEmpty | runtime/stdlib/mlp_string.c:180-182 | true for NULL and for "" only |
| MlpString.SubstringCopyLength | runtime/stdlib/mlp_string.c:208-210 | the bytes copied: what was asked for, clipped at the end of the string |
| MlpString.SubstringCopyOverrun | runtime/stdlib/mlp_string.c:208-210 | as written, the wrapped `start + length` lets a copy run past the end: 3 bytes, start 1, length 2^64 - 1 copies more than the 2 bytes left |
| MlpString.Substring | runtime/stdlib/mlp_string.c:202-222 | NULL gives NULL; a start at or past the end gives ""; otherwise the slice from start of at most `length` bytes, shorter only at the end of the string |
| MlpString.IndexOf | runtime/stdlib/mlp_string.c:231-238 | the leftmost occurrence index, or -1 when there is none or an argument is NULL |
| MlpString.IndexOfEmpty | runtime/stdlib/mlp_string.c:231-238 | the empty needle is found at 0 |
| MlpString.CharAt | runtime/stdlib/mlp_string.c:252-269 | the one-byte string at the index, "" when out of range or NULL |
| MlpString.NumberToString | runtime/stdlib/mlp_string.c:303-313 | the "%lld" text has 1 to 20 bytes and reads back as the number |
| MlpString.ToUpperCase | runtime/stdlib/mlp_string.c:366-384 | the index loop fills the buffer with the upper-cased bytes; NULL gives NULL |
| MlpString.ToLowerCase | runtime/stdlib/mlp_string.c:395-413 | the index loop fills the buffer with the lower-cased bytes; NULL gives NULL |
| MlpString.UpperProperties | runtime/stdlib/mlp_string.c:366-384 | upper-casing lowers exactly the bytes 'a'..'z' by 32 and keeps every other byte; it is idempotent, and lower-casing after it is the same as lower-casing alone |
| MlpString.LowerProperties | runtime/stdlib/mlp_string.c:395-413 | lower-casing raises exactly the bytes 'A'..'Z' by 32 and keeps every other byte; it is idempotent, and upper-casing after it is the same as upper-casing alone |
| MlpString.TrimLeading | runtime/stdlib/mlp_string.c:464-474 | a suffix of the input that starts with a non-space; everything cut is white space |
| MlpString.TrimTrailing | runtime/stdlib/mlp_string.c:485-506 | a prefix of the input that ends with a non-space; everything cut is white space |
| MlpString.TrimStart | runtime/stdlib/mlp_string.c:464-474 | the pointer walk yields the input without its leading white space |
| MlpString.TrimEnd | runtime/stdlib/mlp_string.c:485-506 | the backward walk yields the input without its trailing white space |
| MlpString.SkipLeadingSpace | runtime/stdlib/mlp_string.c:428-431 | the forward walk of `trim` stops at the first non-space |
| MlpString.SkipTrailingSpace | runtime/stdlib/mlp_string.c:438-444 | the backward walk of `trim` stops after the last non-space |
| MlpString.Trim | runtime/stdlib/mlp_string.c:424-453 | `trim` yields the input without leading and trailing white space, "" when all of it is white space |
| MlpString.TrimmedIsSlice | runtime/stdlib/mlp_string.c:424-453 | the trimmed text is the contiguous slice between the first and last non-space, and all-space input gives "" |
| MlpString.Replace | runtime/stdlib/mlp_string.c:523-549 | NULL gives NULL; a NULL or empty old substring, or one that does not occur, gives a copy of the text |
| MlpString.ReplaceSpec | runtime/stdlib/mlp_string.c:523-549 | with no occurrence the text is copied; otherwise only the leftmost occurrence is replaced and the text around it is kept |
| MlpString.ReplaceAllOccurrences | runtime/stdlib/mlp_string.c:562-606 | NULL gives NULL; a NULL or empty old substring gives a copy; otherwise every non-overlapping occurrence, left to right, is replaced by the new substring (NULL read as "") |
| MlpString.CountOccurrences | runtime/stdlib/mlp_string.c:574-579 | the counting loop counts the non-overlapping occurrences |
| MlpString.CopyReplacing | runtime/stdlib/mlp_string.c:590-603 | the copying loop produces the full replacement |
| MlpString.ReplaceAllSpec | runtime/stdlib/mlp_string.c:562-606 | the length changes by (len(new) - len(old)) per occurrence; no occurrence gives a copy; a replacement sharing no byte with the pattern leaves no occurrence |
| MlpString.SplitParts | runtime/stdlib/mlp_string.c:620-682 | a NULL string or delimiter gives NULL and count 0; an empty delimiter gives the whole text as one part; otherwise the parts between delimiters, and count is their number |
| MlpString.SplitSpec | runtime/stdlib/mlp_string.c:620-682 | one more part than occurrences, no part contains the delimiter, and joining them with it restores the text |
| BigDecimalArith.ReverseString | runtime/sto/bigdecimal.c:24-34 | the first `length` bytes are reversed in place and the rest is untouched |
| BigDecimalArith.RemoveLeadingZeros | runtime/sto/bigdecimal.c:37-45 | only leading '0's are dropped, a non-empty input keeps one byte, and a longer result does not start with '0' |
| BigDecimalArith.StrippedDigits | runtime/sto/bigdecimal.c:37-45 | stripping keeps the value, and a non-empty stripped string is canonical |
| BigDecimalArith.CompareMagnitude | runtime/sto/bigdecimal.c:49-59 | -1, 0 or 1, and 0 exactly when the two digit strings are equal |
| BigDecimalArith.CompareMagnitudeIsNumericOrder | runtime/sto/bigdecimal.c:49-59 | on canonical digits the result is the sign of the difference of the values |
| BigDecimalArith.AddPositive | runtime/sto/bigdecimal.c:62-93 | the canonical digits of value(a) + value(b) (empty only for two empty operands) |
| BigDecimalArith.AddColumns | runtime/sto/bigdecimal.c:69-84 | the column loop writes the digits of the sum, least significant first |
| BigDecimalArith.AddStep | runtime/sto/bigdecimal.c:71-83 | one column keeps the sum invariant |
| BigDecimalArith.SubtractPositive | runtime/sto/bigdecimal.c:96-140 | for value(a) >= value(b), the canonical digits of value(a) - value(b), "0" when equal |
| BigDecimalArith.SubtractColumns | runtime/sto/bigdecimal.c:105-124 | the column loop writes the digits of the difference, least significant first |
| BigDecimalArith.SubtractStep | runtime/sto/bigdecimal.c:107-123 | one column keeps the difference invariant |
| BigDecimalArith.SubtractFinish | runtime/sto/bigdecimal.c:105-124 | no borrow is left after the last column |
| BigDecimalArith.AddAt | runtime/sto/bigdecimal.c:159-170 | adding a partial product and its carries raises the buffer's number by that amount at its place and leaves every cell a digit |
| BigDecimalArith.MultiplyRow | runtime/sto/bigdecimal.c:155-172 | the inner loop adds a[i] * b at the place of a[i] |
| BigDecimalArith.RowStep | runtime/sto/bigdecimal.c:157-170 | one partial product keeps the row invariant and stays within the buffer |
| BigDecimalArith.SuffixProductBound | runtime/sto/bigdecimal.c:147-149 | every partial result fits in the `len_a + len_b + 1` cells |
| BigDecimalArith.CellsToDigits | runtime/sto/bigdecimal.c:174-193 | the conversion writes the canonical digits of the number the cells hold |
| BigDecimalArith.MultiplyPositive | runtime/sto/bigdecimal.c:143-195 | the canonical digits of value(a) * value(b), "0" when either is zero |
| BigDecimalArith.ZeroDigits | runtime/sto/bigdecimal.c:235-238 | canonical digits spell zero exactly when they are "0" |
| BigDecimalArith.Add | runtime/sto/bigdecimal.c:201-245 | NULL gives NULL; otherwise canonical digits with a matching length and value a + b, never a negative zero when an operand is not one |
| BigDecimalArith.AddOpposite | runtime/sto/bigdecimal.c:218-240 | with opposite signs: the larger magnitude minus the smaller under its sign, a positive "0" when they are equal |
| BigDecimalArith.Sub | runtime/sto/bigdecimal.c:247-255 | `sub(a, b)` is `add(a, -b)`: value a - b |
| BigDecimalArith.Mul | runtime/sto/bigdecimal.c:257-281 | value a * b; negative exactly when one operand is, except that a zero product is positive |
| BigDecimalArith.Clamped | runtime/sto/bigdecimal.c:291-294 | `sscanf("%lld")` on the digits with the sign applied: the value when it fits, otherwise saturated at INT64_MAX in magnitude |
| BigDecimalArith.ParseDigits | runtime/sto/bigdecimal.c:291-294 | reading a plain digit string gives its value, saturated at INT64_MAX |
| BigDecimalArith.Div | runtime/sto/bigdecimal.c:283-306 | a "0" divisor gives 0; otherwise C's truncating quotient of the int64 readings, which is the true truncated quotient when both fit |
| RuntimeSto.AddWillOverflow | runtime/sto/runtime_sto.c:16-28 | true exactly when a + b leaves the int64 range |
| RuntimeSto.SubWillOverflow | runtime/sto/runtime_sto.c:31-42 | exact for b != INT64_MIN; for b == INT64_MIN it answers a > 0 |
| RuntimeSto.SubWillOverflowMissesZero | runtime/sto/runtime_sto.c:37-39 | 0 - INT64_MIN overflows but is reported as not overflowing |
| RuntimeSto.SubWillOverflowFixed | runtime/sto/runtime_sto.c:31-42 | the intended check: true exactly when a - b leaves the int64 range |
| RuntimeSto.MulWillOverflow | runtime/sto/runtime_sto.c:45-71 | under two's-complement wrap-around, the trivial-factor shortcuts and the divide-back test of the wrapped product together answer true exactly when a * b leaves the int64 range |
| RuntimeSto.MulCheckExact | runtime/sto/runtime_sto.c:62-70 | dividing the wrapped product back by a recovers b exactly when the product did not wrap |
| RuntimeSto.SafeAdd | runtime/sto/runtime_sto.c:75-83 | on overflow true and 0, otherwise false and the exact sum |
| RuntimeSto.SafeSub | runtime/sto/runtime_sto.c:86-94 | as written: exact except that 0 - INT64_MIN gives false and the difference wrapped to INT64_MIN (two's-complement wrap-around) |
| RuntimeSto.SafeSubFixed | runtime/sto/runtime_sto.c:86-94 | on the intended check: on overflow true and 0, otherwise false and the exact difference |
| RuntimeSto.SafeMul | runtime/sto/runtime_sto.c:97-105 | on overflow true and 0, otherwise false and the exact product |
| RuntimeSto.FromInt64 | runtime/sto/runtime_sto.c:114-131 | negative iff the value is; the digits are the canonical magnitude, INT64_MIN included |
| RuntimeSto.FromString | runtime/sto/runtime_sto.c:134-149 | NULL gives NULL; a leading '-' sets the sign, and the rest is the digits |
| RuntimeSto.ToString | runtime/sto/runtime_sto.c:152-167 | '-' before the digits exactly when negative |
| RuntimeSto.StringRoundTrip | runtime/sto/runtime_sto.c:134-167 | `to_string(from_string(s)) == s` |
| RuntimeSto.FromInt64Text | runtime/sto/runtime_sto.c:114-167 | a record built from an int64 prints as "%lld" does, and reading that text back gives an equal record |
| RuntimeSto.Compare | runtime/sto/runtime_sto.c:171-202 | -1, 0 or 1; a NULL operand compares equal; of two different signs the negative comes first (the full order is `CompareIsNumericOrder`) |
| RuntimeSto.CompareIsNumericOrder | runtime/sto/runtime_sto.c:171-202 | on well-formed records the result is the order of the signed values |
| RuntimeSto.BigDecimalRef.Free | runtime/sto/runtime_sto.c:205-213 | the count drops by one; the record is released once it is no longer positive |
| RuntimeSto.Data | runtime/sto/runtime_sto.c:247-257 | NULL gives NULL and every record gives a text; which text is stated by `Create` reading back its input |
| RuntimeSto.Create | runtime/sto/runtime_sto.c:217-244 | NULL gives NULL; on the heap exactly when longer than 23 bytes; inline flags are len << 1; `Data` gives the text back |
| RuntimeSto.InferNumericType | runtime/sto/runtime_sto.c:278-324 | 1 exactly when the digits, the sign ignored, are more than 19 or exceed INT64_MAX; 0 otherwise and for NULL |
| RuntimeSto.CountDigits | runtime/sto/runtime_sto.c:282-287 | the first loop counts the digit characters |
| RuntimeSto.AccumulateFits | runtime/sto/runtime_sto.c:296-320 | the accumulation loop answers 1 exactly when the digits' value exceeds INT64_MAX |
| RuntimeSto.NumericKindOfInt64Text | runtime/sto/runtime_sto.c:278-324 | the text of every int64 is classified 0, except INT64_MIN's, whose magnitude 2^63 is one too many |
| RuntimeSto.InferStringType | runtime/sto/runtime_sto.c:328-333 | 0 or 1, and 0 for NULL |
| RuntimeSto.InferStringTypeMatchesCreate | runtime/sto/runtime_sto.c:328-333 | the type inferred is 1 exactly when `sto_sso_create` would put the string on the heap |
| SsoStrings.Length | runtime/sto/sso_string.c:24-34 | 0 for NULL; on every record the constructors build, the length of the text `sto_sso_data` returns |
| SsoStrings.LengthMatchesData | runtime/sto/sso_string.c:24-34 | `sto_sso_length` (flags >> 1 inline, the stored length on the heap) is the length of the text on every record the constructors build |
| SsoStrings.Concat | runtime/sto/sso_string.c:37-75 | text a ++ b, inline iff the total is at most 23 bytes; NULL gives NULL |
| SsoStrings.Compare | runtime/sto/sso_string.c:78-87 | -1, 0 or 1, and 0 exactly for equal texts; a NULL operand gives 0 |
| SsoStrings.CompareAntisymmetric | runtime/sto/sso_string.c:78-87 | swapping the operands flips the sign |
| SsoStrings.Equals | runtime/sto/sso_string.c:90-92 | compare == 0: equal texts, or a NULL operand |
| SsoStrings.Substring | runtime/sto/sso_string.c:95-133 | NULL or a start at or past the end gives NULL; otherwise the slice of at most `length` bytes, clipped at the end |
| SsoStrings.ToInt64 | runtime/sto/sso_string.c:136-143 | `atoll` on the text, 0 for NULL |
| SsoStrings.FromInt64 | runtime/sto/sso_string.c:146-150 | the "%lld" text, always inline |
| SsoStrings.Int64RoundTrip | runtime/sto/sso_string.c:136-150 | `to_int64(from_int64(v)) == v` |
| SsoStrings.Find | runtime/sto/sso_string.c:153-163 | the leftmost index of the needle, -1 when absent or NULL |
| SsoStrings.Copy | runtime/sto/sso_string.c:166-173 | a fresh record with the same text |
| SsoStrings.ToCString | runtime/sto/sso_string.c:176-188 | the same text as a C string |
| SsoStrings.StartsWith | runtime/sto/sso_string.c:191-203 | false for NULL or a longer prefix, otherwise whether the text starts with it |
| SsoStrings.EndsWith | runtime/sto/sso_string.c:206-218 | false for NULL or a longer suffix, otherwise whether the text ends with it |
| SsoStrings.ConcatAffixes | runtime/sto/sso_string.c:37-75 | a concatenation starts with its left operand's text and ends with its right operand's |
| SsoStrings.SubstringWholeAndCopy | runtime/sto/sso_string.c:95-173 | the substring from 0 of full length is the whole text, and a copy compares equal to its source |
| StoRuntime.WouldOverflowAdd | runtime/sto/sto_runtime.c:16-18 | true exactly when a + b leaves the int64 range |
| StoRuntime.WouldOverflowSub | runtime/sto/sto_runtime.c:20-22 | true exactly when a - b leaves the int64 range, INT64_MIN included |
| StoRuntime.WouldOverflowMul | runtime/sto/sto_runtime.c:24-31 | false when a factor is 0; otherwise the sign-case division tests are true exactly when a * b leaves the range |
| StoRuntime.MulTestsExact | runtime/sto/sto_runtime.c:24-31 | each of the four tests decides overflow for its sign combination |
| StoRuntime.SafeAdd | runtime/sto/sto_runtime.c:33-40 | on overflow true and 0, otherwise false and the sum |
| StoRuntime.SafeSub | runtime/sto/sto_runtime.c:42-49 | on overflow true and 0, otherwise false and the difference |
| StoRuntime.SafeMul | runtime/sto/sto_runtime.c:51-58 | on overflow true and 0, otherwise false and the product |
| StoRuntime.BigDecimalRetain | runtime/sto/sto_runtime.c:184-186 | one more reference; NULL ignored |
| StoRuntime.BigDecimalRelease | runtime/sto/sto_runtime.c:188-192 | one reference fewer; freed exactly when the count reaches 0 |
| StoRuntime.SsoStr.constructor | runtime/sto/sto_runtime.c:198-218 | inline iff shorter than SSO_MAX_SIZE (23); the data is the text and the length its length; a heap string starts with one reference |
| StoRuntime.SsoStr.Data | runtime/sto/sto_runtime.c:220-222 | on a valid record, the text lives on the heap exactly when it is 23 bytes or longer |
| StoRuntime.SsoStr.Length | runtime/sto/sto_runtime.c:224-226 | on a valid record, the length of the text `sso_data` returns |
| StoRuntime.SsoLengthMatchesData | runtime/sto/sto_runtime.c:220-226 | `sso_length` is the length of `sso_data` |
| StoRuntime.SsoConcat | runtime/sto/sto_runtime.c:228-255 | text a ++ b, length the sum, inline iff the total is below 23 |
| StoRuntime.SsoRetain | runtime/sto/sto_runtime.c:266-270 | only a heap string gains a reference; NULL ignored |
| StoRuntime.SsoRelease | runtime/sto/sto_runtime.c:272-276 | a heap string loses a reference and is freed exactly when the count reaches 0; an inline one is never freed here |
| StoRuntime.ArrayAlloc | runtime/sto/sto_runtime.c:310-337 | NULL exactly when the count or element size is 0; otherwise the element block of the new header, `count` zeroed cells, not the header |
| StoRuntime.ArraySet | runtime/sto/sto_runtime.c:346-356 | a NULL value changes nothing; otherwise fatal at or past the count, and else only that element changes |
| StoRuntime.ArrayGet | runtime/sto/sto_runtime.c:365-374 | NULL for a NULL array, fatal past the count, otherwise the element |
| StoRuntime.StoList.constructor | runtime/sto/sto_runtime.c:392-419 | count 0, capacity the request or 4 for 0, every slot empty |
| StoRuntime.GrownCapacity | runtime/sto/sto_runtime.c:437-452 | the new capacity has room for the index, is never below the old one, and is the old one when the index fits |
| StoRuntime.ListSet | runtime/sto/sto_runtime.c:429-464 | a NULL value changes nothing; otherwise the slots grow to `GrownCapacity` with new ones empty, the slot takes the value and its type, every other slot is kept, and the count becomes max(count, index + 1) |
| StoRuntime.ListGet | runtime/sto/sto_runtime.c:469-477 | fatal for NULL or an index at or past the count, otherwise the slot |
| StoRuntime.ListAppend | runtime/sto/sto_runtime.c:482-484 | set at the count: a NULL value changes nothing; otherwise the value and its tag land after the existing elements, whose values and tags are unchanged, the capacity grows as `sto_list_set` grows it, and every later slot keeps its old contents or, when new, is empty with tag 0 |
| StoRuntime.TupleAlloc | runtime/sto/sto_runtime.c:504-530 | NULL for a count of 0, otherwise empty slots |
| StoRuntime.TupleSet | runtime/sto/sto_runtime.c:535-544 | an index past the count or a NULL value is ignored; otherwise only that slot changes |
| StoRuntime.TupleGet | runtime/sto/sto_runtime.c:549-557 | fatal for NULL or an index at or past the count, otherwise the slot |
| MlpList.MelpList.constructor | runtime/stdlib/mlp_list.c:26-47 | no elements and four slots |
| MlpList.Create | runtime/stdlib/mlp_list.c:26-47 | NULL for element size 0, otherwise an empty list of capacity 4 |
| MlpList.Length | runtime/stdlib/mlp_list.c:68-73 | the number of elements, 0 for NULL |
| MlpList.IsEmpty | runtime/stdlib/mlp_list.c:75-77 | true for NULL or no elements |
| MlpList.Capacity | runtime/stdlib/mlp_list.c:279-284 | 0 for NULL; otherwise at least 1 and never below the length |
| MlpList.MelpList.Get | runtime/stdlib/mlp_list.c:83-91 | the element at the index; fatal at or past the length |
| MlpList.MelpList.Set | runtime/stdlib/mlp_list.c:93-116 | -1 and no change for an index past the length or a NULL element; otherwise 0 and only that element changes |
| MlpList.MelpList.Grow | runtime/stdlib/mlp_list.c:122-134 | the capacity doubles and the elements are kept |
| MlpList.MelpList.Reallocate | runtime/stdlib/mlp_list.c:125-131 | the `realloc` of grow and reserve: the requested number of slots holding the same elements |
| MlpList.MelpList.Append | runtime/stdlib/mlp_list.c:140-162 | a NULL element gives -1 and no change; otherwise the capacity doubles when full and the element lands after the old ones, which are unchanged |
| MlpList.MelpList.Prepend | runtime/stdlib/mlp_list.c:164-191 | a NULL element gives -1 and no change; otherwise the capacity doubles when full and the element goes in front of the old ones |
| MlpList.ShiftRight | runtime/stdlib/mlp_list.c:178-182 | the shifting loop moves the first n slots up by one |
| MlpList.MelpList.Remove | runtime/stdlib/mlp_list.c:193-211 | -1 and no change past the length; otherwise the later elements shift left and the length drops by one |
| MlpList.MelpList.Clear | runtime/stdlib/mlp_list.c:213-227 | no elements, the capacity kept |
| MlpList.MelpList.Reserve | runtime/stdlib/mlp_list.c:286-300 | the capacity becomes max(old, requested) and the elements are untouched |
| MlpList.MelpList.Clone | runtime/stdlib/mlp_list.c:233-258 | a new list with the same element size and elements, and capacity max(length, 4) |
| MlpList.MelpList.Reverse | runtime/stdlib/mlp_list.c:260-277 | the contents become their reversal (element i moves to length - 1 - i) |
| MlpList.ReversePrefix | runtime/stdlib/mlp_list.c:265-276 | the swapping loop reverses the first n slots |
| MlpList.ReversedInvolution | runtime/stdlib/mlp_list.c:260-277 | reversing twice gives back the list |
| MlpList.ReversedPrepend | runtime/stdlib/mlp_list.c:140-191 | reversing a list with a front element gives the reversed list with it at the back |
| MlpArray.Create | runtime/stdlib/mlp_array.c:19-31 | `size` elements, all 0 |
| MlpArray.Get | runtime/stdlib/mlp_array.c:37-45 | 0 for NULL; fatal at or past the length (the list's bounds check fires first); otherwise the element |
| MlpArray.Set | runtime/stdlib/mlp_array.c:50-54 | -1 and no change for NULL or past the length; otherwise that element reads back as the value and the others are unchanged |
| MlpMap.HashFromConcat | runtime/stdlib/mlp_map.c:29-41 | the FNV-1a hash can be computed piecewise over a concatenation |
| MlpMap.Hash | runtime/stdlib/mlp_map.c:29-41 | the loop computes FNV-1a (offset basis 14695981039346656037, prime 1099511628211, mod 2^64); NULL gives 0, "" the offset basis |
| MlpMap.BucketOf | runtime/stdlib/mlp_map.c:144-145 | the bucket of a key is below the capacity |
| MlpMap.ChainFind | runtime/stdlib/mlp_map.c:199-208 | none exactly when no node has the key; a value found belongs to a node with the key |
| MlpMap.ChainFindConcat | runtime/stdlib/mlp_map.c:199-208 | a search of a concatenation finds a match in the left part first |
| MlpMap.ChainPush | runtime/stdlib/mlp_map.c:176-186 | a pushed node makes its key find its value and leaves other keys alone |
| MlpMap.ChainReplace | runtime/stdlib/mlp_map.c:147-158 | overwriting the first node with a key makes it find the new value and leaves other keys alone |
| MlpMap.ChainDelete | runtime/stdlib/mlp_map.c:226-246 | unlinking the key's node removes the key and leaves other keys alone |
| MlpMap.PutChain | runtime/stdlib/mlp_map.c:143-186 | the chain insert leaves stays placed and free of repeated keys, grows exactly for a new key, and finds the new value |
| MlpMap.DistributeCount | runtime/stdlib/mlp_map.c:103-120 | rehashing keeps every node |
| MlpMap.DistributePlaced | runtime/stdlib/mlp_map.c:103-120 | rehashing puts every node in the bucket of its hash |
| MlpMap.DistributeDistinct | runtime/stdlib/mlp_map.c:103-120 | rehashing distinct keys repeats no key within a chain |
| MlpMap.Rehash | runtime/stdlib/mlp_map.c:92-126 | rehashing a well-formed array into any number of buckets keeps every key's lookup |
| MlpMap.RehashValid | runtime/stdlib/mlp_map.c:92-126 | the array resize builds is well formed and holds as many nodes |
| MlpMap.MelpMap.constructor | runtime/stdlib/mlp_map.c:47-67 | sixteen empty buckets, length 0, no key present |
| MlpMap.Create | runtime/stdlib/mlp_map.c:47-67 | capacity 16, length 0, no key present |
| MlpMap.MelpMap.Resize | runtime/stdlib/mlp_map.c:92-126 | 0 and no change for capacity 0; otherwise the new capacity, the same length and the same lookup for every key, and 1 |
| MlpMap.MoveChain | runtime/stdlib/mlp_map.c:106-117 | pushing the nodes of an old chain, in order, onto the heads of their new buckets extends the rehash by that chain |
| MlpMap.MelpMap.Insert | runtime/stdlib/mlp_map.c:132-188 | 0 and no change for a NULL key or value; otherwise 1, the buckets double when 4 * length > 3 * capacity, the key finds the value, the length grows only for a new key, and other keys are unaffected |
| MlpMap.MelpMap.Put | runtime/stdlib/mlp_map.c:143-186 | the key finds the value, the length grows only for a new key, other keys unaffected |
| MlpMap.MelpMap.Remove | runtime/stdlib/mlp_map.c:217-251 | 1 for a present key, which is then absent, with the length one less; 0 and no change for a NULL or absent key; other keys unaffected |
| MlpMap.ScanChain | runtime/stdlib/mlp_map.c:199-208 | the walk stops at the first node with the key, or at the end |
| MlpMap.Get | runtime/stdlib/mlp_map.c:194-211 | NULL for a NULL map or key, otherwise the key's value if present |
| MlpMap.HasKey | runtime/stdlib/mlp_map.c:257-259 | true exactly when get finds a value |
| MlpMap.Length | runtime/stdlib/mlp_map.c:265-268 | the number of nodes, 0 for NULL |
| MlpState.Store | runtime/stdlib/mlp_state.c:146-154 | the value is kept, inline exactly when shorter than 24 bytes |
| MlpState.SetEntriesLookup | runtime/stdlib/mlp_state.c:124-179 | after a set the key reads its value, other keys are unaffected, keys stay unique, and the list grows exactly for a new key |
| MlpState.DeleteEntriesShrinks | runtime/stdlib/mlp_state.c:207-231 | after a delete the key is absent, keys stay unique, and the list shrinks exactly when the key was present |
| MlpState.DeleteEntriesOther | runtime/stdlib/mlp_state.c:207-231 | a delete leaves every other key as it was |
| MlpState.Serialize | runtime/stdlib/mlp_state.c:287-322 | the text starts with "{\n" and ends with "\n}\n", and is exactly "{\n\n}\n" when there are no entries |
| MlpState.ParseFrom | runtime/stdlib/mlp_state.c:346-384 | never more pairs than characters, and every pair read fits the key and value buffers: a key of at most 255 characters with no '"' or NUL, a value of at most 4095 |
| MlpState.SaveThenParse | runtime/stdlib/mlp_state.c:283-388 | load reads back exactly the entries save wrote, in list order, when every entry is loadable |
| MlpState.ApplyAllLookup | runtime/stdlib/mlp_state.c:331-388 | setting pairs with distinct keys in turn makes each key read its pair's value and leaves other keys alone |
| MlpState.SaveClearLoad | runtime/stdlib/mlp_state.c:233-388 | save, clear, then load gives every key its value back |
| MlpState.StateManager.constructor | runtime/stdlib/mlp_state.c:60-81 | the manager starts uninitialised, as before `state_init` |
| MlpState.StateManager.Init | runtime/stdlib/mlp_state.c:60-81 | 0 and no change when already initialised; otherwise an empty store, auto-persist off, the default file, and 1 |
| MlpState.StateManager.Close | runtime/stdlib/mlp_state.c:83-101 | 0 when uninitialised; otherwise every entry is dropped, the manager is gone, and 1 |
| MlpState.StateManager.FindEntry | runtime/stdlib/mlp_state.c:394-403 | the walk stops at the first entry with the key |
| MlpState.StateManager.Set | runtime/stdlib/mlp_state.c:124-179 | 0 and no change when uninitialised or for NULL; otherwise the set above, and 1 |
| MlpState.StateManager.Get | runtime/stdlib/mlp_state.c:181-200 | the stored text, or "" when uninitialised, for NULL or an absent key |
| MlpState.StateManager.Has | runtime/stdlib/mlp_state.c:202-205 | 1 exactly when initialised and the key is present |
| MlpState.StateManager.Delete | runtime/stdlib/mlp_state.c:207-231 | 0 and no change when uninitialised, for NULL or an absent key; otherwise the entry is unlinked, and 1 |
| MlpState.StateManager.Clear | runtime/stdlib/mlp_state.c:233-250 | 0 when uninitialised; otherwise the store is emptied, and 1 |
| MlpState.StateManager.ConfigSet | runtime/stdlib/mlp_state.c:256-277 | on an initialised manager with both arguments non-NULL, "auto_persist" takes `atoi(value)` and "persist_file" the value, each answering 1; anything else answers 0 and changes nothing; entries are never touched |
| MlpState.StateManager.Save | runtime/stdlib/mlp_state.c:283-329 | the saved text, none when uninitialised; it parses back to the entries when they are loadable |
| MlpState.StateManager.Load | runtime/stdlib/mlp_state.c:331-388 | 0 and no change when uninitialised or the text is missing or empty; otherwise each parsed entry is set in turn, and 1 |
| MlpOptional.OptionalSome | runtime/stdlib/mlp_optional.c:19-29 | a some record holding the given pointer and size |
| MlpOptional.OptionalNone | runtime/stdlib/mlp_optional.c:31-41 | a none record with a NULL value of size 0 |
| MlpOptional.OptionalNumeric | runtime/stdlib/mlp_optional.c:43-50 | a some record whose typed getter gives the number back |
| MlpOptional.OptionalString | runtime/stdlib/mlp_optional.c:52-62 | none for NULL; otherwise a copy of the string, of size len + 1 |
| MlpOptional.OptionalBoolean | runtime/stdlib/mlp_optional.c:64-71 | a some record whose typed getter gives the flag back |
| MlpOptional.HasValue | runtime/stdlib/mlp_optional.c:77-80 | false for NULL; for a record, true exactly when its state is some |
| MlpOptional.IsNull | runtime/stdlib/mlp_optional.c:82-84 | true exactly for NULL or a none record |
| MlpOptional.Get | runtime/stdlib/mlp_optional.c:86-94 | the value pointer of a some record; fatal for NULL or none |
| MlpOptional.GetDeref | runtime/stdlib/mlp_optional.c:96-109 | the typed getters read through `get`, with the same fatal errors |
| MlpOptional.GetOr | runtime/stdlib/mlp_optional.c:111-116 | the value pointer of a some record, the default otherwise |
| MlpOptional.GetDerefOr | runtime/stdlib/mlp_optional.c:118-137 | the pointed-at value of a some record, the default otherwise |
| MlpOptional.Coalesce | runtime/stdlib/mlp_optional.c:143-157 | `a ?? b`: the left pointer unless it is NULL |
| MlpOptional.Assert | runtime/stdlib/mlp_optional.c:163-172 | the value of a some record; otherwise fatal with the given message, or the default one for NULL |
| MlpOptional.SomeAccessors | runtime/stdlib/mlp_optional.c:77-116 | a some record has a value, is not null, and every accessor yields its pointer |
| MlpOptional.AbsentAccessors | runtime/stdlib/mlp_optional.c:77-172 | NULL and none records have no value; get fails with its own message, get_or gives the default, assert fails with the caller's message |
| MlpOptional.GetOrIsTotalGet | runtime/stdlib/mlp_optional.c:86-172 | get_or is get with the failure replaced by the default, and assert is get with the message replaced |
| MlpOptional.GetDerefOrIsTotalGetDeref | runtime/stdlib/mlp_optional.c:96-137 | each typed get_*_or is its get_* with the failure replaced by the default |
| MlpOptional.CoalesceChains | runtime/stdlib/mlp_optional.c:143-145 | `??` associates, NULL is its identity, and it is NULL only when both sides are |
| MlpOptional.StringRoundTrip | runtime/stdlib/mlp_optional.c:52-62 | a string optional gives back its string |
| MlpMath.Min | runtime/stdlib/mlp_math.c:11-13 | the smaller argument |
| MlpMath.Max | runtime/stdlib/mlp_math.c:18-20 | the larger argument |
| MlpMath.Abs | runtime/stdlib/mlp_math.c:27-29 | the magnitude, for every value but INT64_MIN |
| MlpMath.MinMaxPair | runtime/stdlib/mlp_math.c:11-20 | min + max is a + b, both are symmetric, and min is a exactly when a <= b |
| MlpMath.AbsIsMax | runtime/stdlib/mlp_math.c:27-29 | abs(x) is max(x, -x) and abs(-x) |
| MlpMath.NegateMinWraps | runtime/stdlib/mlp_math.c:27-29 | the hardware's -INT64_MIN is INT64_MIN again, which is why `Abs` excludes it |

## Left out

- File I/O, program entry points and printing are not modelled: the scripts' `main` functions, the template read and output write of `generate_llvm_ir`, the persist-file reads and writes of `mlp_state.c`, `sto_print_*` and `melp_list_print_debug`. Functions take and return the text instead.
- Python's `\s`, `\w` and `\d` on `str` also match non-ASCII white space (such as U+0085 and U+00A0), letters and digits. The model uses their ASCII classes: `\s` is the six characters of C's `isspace` plus the separators U+001C..U+001F (`IsRegexSpace`), `\w` is letters, digits and '_', `\d` is '0'..'9'; there is no Unicode classification here.
- Floating point is not modelled: `mlp_double_to_string`, `bigdec_from_double` and `bigdec_to_double` of `sto_runtime.c` (which go through `double`); `melp_optional_numeric`'s double is an opaque value.
- The other `bigdec_*` placeholders of `sto_runtime.c` (runtime/sto/sto_runtime.c:64-182) are not modelled: `bigdec_add`, `bigdec_sub`, `bigdec_mul` and `bigdec_div` only build symbolic text such as "(a+b)", `bigdec_compare` is a plain `strcmp` of the digit text, and `bigdec_from_i64`, `bigdec_from_string`, `bigdec_to_string` and `bigdec_to_i64` repeat what the `sto_bigdec_*` functions of `bigdecimal.c` and `runtime_sto.c` do; those are modelled instead. Only `bigdec_retain` and `bigdec_release` are modelled from this group (`BigDecimalRetain`, `BigDecimalRelease`).
- MlpState.Serialize: the text is unbounded, whereas `mlp_state_save` builds it in a fixed 1 MiB buffer with unchecked `strcat` and byte copies (runtime/stdlib/mlp_state.c:288-322); the overflow once the saved text passes 1,048,575 bytes is not modelled.
- Memory management is not modelled: allocation failure, `free` and `free_deep` bodies, `strdup` copies, `realloc` moves, the free loops of `state_close` and `melp_map_free`, and the byte-level copies of element payloads (list and map elements are values).
- `mlp_panic.c` and the `mlp_runtime_error` message formats are not modelled: a fatal error is a `Fatal` result carrying the message.
- MlpList.MelpList.Get: a NULL list (runtime/stdlib/mlp_list.c:84 is the fatal bounds error) is not modelled, because a method needs a receiver; `Length`, `IsEmpty` and `Capacity` take a possibly-NULL list.
- MlpList.MelpList.Set: a NULL list (runtime/stdlib/mlp_list.c:94 gives -1) is not modelled, because a method needs a receiver; `Length`, `IsEmpty` and `Capacity` take a possibly-NULL list.
- MlpList.MelpList.Append: a NULL list (runtime/stdlib/mlp_list.c:141 gives -1) is not modelled, because a method needs a receiver; `Length`, `IsEmpty` and `Capacity` take a possibly-NULL list.
- MlpList.MelpList.Prepend: a NULL list (runtime/stdlib/mlp_list.c:165 gives -1) is not modelled, because a method needs a receiver; `Length`, `IsEmpty` and `Capacity` take a possibly-NULL list.
- MlpList.MelpList.Remove: a NULL list (runtime/stdlib/mlp_list.c:194 gives -1) is not modelled, because a method needs a receiver; `Length`, `IsEmpty` and `Capacity` take a possibly-NULL list.
- MlpList.MelpList.Clear: a NULL list (runtime/stdlib/mlp_list.c:214 returns at once) is not modelled, because a method needs a receiver; `Length`, `IsEmpty` and `Capacity` take a possibly-NULL list.
- MlpList.MelpList.Clone: a NULL list (runtime/stdlib/mlp_list.c:234 gives NULL) is not modelled, because a method needs a receiver; `Length`, `IsEmpty` and `Capacity` take a possibly-NULL list.
- MlpList.MelpList.Reverse: a NULL list (runtime/stdlib/mlp_list.c:261 returns at once) is not modelled, because a method needs a receiver; `Length`, `IsEmpty` and `Capacity` take a possibly-NULL list.
- MlpList.MelpList.Reserve: a NULL list (runtime/stdlib/mlp_list.c:287 gives 0) is not modelled, because a method needs a receiver; `Length`, `IsEmpty` and `Capacity` take a possibly-NULL list.
- BigDecimalArith.Add: requires canonical digit strings (no leading zeros) in both operands. `compare_magnitude` compares lengths first, so on text such as "007" the C code misorders magnitudes ("007" + "-8" gives 999), and `sto_bigdec_from_string` stores its text unchecked; that non-canonical case is not modelled.
- BigDecimalArith.AddOpposite: requires canonical digit strings, for the same reason as `Add`: the length-first magnitude comparison of non-canonical text such as "007" against "8" is not modelled.
- BigDecimalArith.Sub: requires canonical digit strings, since it is `Add` with the second sign flipped; the non-canonical case is not modelled.
- MlpString.IndexOf: the offset is an unbounded integer; the C code narrows it to `int` (runtime/stdlib/mlp_string.c:237), which differs only for texts of 2^31 bytes or more.
- SsoStrings.Find: the offset is an unbounded integer; the C code narrows it to `int` (runtime/sto/sso_string.c:162), which differs only for texts of 2^31 bytes or more.
- MlpString.CountOccurrences: the count is an unbounded natural; the C code counts in an `int` (runtime/stdlib/mlp_string.c:572), which differs only for 2^31 occurrences or more.
- MlpString.SplitParts: the part count is an unbounded natural; the C code counts in an `int` (runtime/stdlib/mlp_string.c:639), which differs only for 2^31 parts or more.
- StoRuntime.ArrayAlloc: the block is returned as a value, so writes through it are not modelled; the header it is carved from becomes unreachable once only the element block is returned (it leaks), and `ArraySet`/`ArrayGet` take a header that only the `StoArray` constructor builds.
- MlpMap.MelpMap.Insert and MlpMap.MelpMap.Remove: a NULL map is not modelled, because a method needs a receiver; `Get`, `HasKey` and `Length` take a possibly-NULL map.
- MlpState: the statistics counters and the `auto_persist` save inside `state_set` are not modelled (that save writes a file).
- MlpState.StateManager.Load: the order of entries after a load is stated through `ApplyAll`; `SaveClearLoad` states the lookups only, since each loaded key is pushed at the front.
- MlpState.StateManager.ConfigSet: `atoi` is modelled as the saturating int64 reader `ParseInt64`; the narrowing to `int` is not modelled.
- RuntimeSto.MulWillOverflow: the divide-back test `result / a != b` (runtime/sto/runtime_sto.c:65-66) is evaluated on a product wrapped modulo 2^64. Signed overflow is undefined in C, and a compiler may fold `(a * b) / a` to `b`, so the test answers false; the model assumes wrap-around instead, and `StoRuntime.WouldOverflowMul` is a division test that never overflows.
- RuntimeSto.SafeSub: the as-written result for 0 - INT64_MIN is the wrapped INT64_MIN; C leaves that overflowing subtraction undefined.
- MlpMath.Abs: requires an argument above INT64_MIN, because negating INT64_MIN is undefined in C; `NegateMinWraps` states what the hardware does.
- MlpOptional.GetDeref: requires a non-NULL value pointer in a some record, because the C code dereferences it unchecked.
- MlpOptional.GetDerefOr: has the same requirement as `GetDeref`, a non-NULL value pointer in a some record, because the typed `get_*_or` functions dereference it unchecked too.
- BigDecimalArith.Div: requires canonical divisor digits, because the zero test compares the text with "0".
- BigDecimalArith.Div: also requires the dividend's text to be digits. `sto_bigdec_from_string` stores its text unchecked, and `sscanf("%lld")` reads only a leading digit prefix of other text, or leaves 0 (runtime/sto/bigdecimal.c:293); that case is not modelled. `Clamped` carries the same requirement.
- BigDecimalArith.Mul: requires both operands' text to be digits. `sto_bigdec_from_string` stores its text unchecked, and `multiply_positive` multiplies any byte `c` as `c - '0'`, so other text gives cell values outside 0..9; that case is not modelled.
- The `coalesce_*` functions and `get_string`/`get_string_or` of `mlp_optional.c` are `Coalesce`, `Get` and `GetOr` at other types and have no members of their own.
- `mlp_string_duplicate`, `mlp_string_free` and `mlp_string_split_free` only copy or release memory.

## Findings

| source | as written | input that shows it | evidently intended | confidence | as-written member | corrected member |
|---|---|---|---|---|---|---|
| runtime/sto/runtime_sto.c:37-39 | for `b == INT64_MIN` the check answers `a > 0` | a = 0, b = INT64_MIN: 0 - INT64_MIN = 2^63 overflows but is reported as fitting, so `safe_sub` computes the overflowing difference: undefined in C, INT64_MIN under two's-complement wrap-around | `a >= 0`: every non-negative `a` overflows | high, not executed | RuntimeSto.SubWillOverflow, RuntimeSto.SubWillOverflowMissesZero, RuntimeSto.SafeSub | RuntimeSto.SubWillOverflowFixed, RuntimeSto.SafeSubFixed |
| runtime/stdlib/mlp_string.c:208-210 | the clip test `start + length > str_len` is computed in `size_t` and wraps | str "abc", start 1, length SIZE_MAX: the sum wraps to 0, so nothing is clipped; `malloc(length + 1)` then wraps to 0 bytes and `memcpy` is asked for SIZE_MAX bytes | clip whenever the request runs past the end (`length > str_len - start`) | high, not executed | MlpString.SubstringCopyLengthAsWritten, MlpString.SubstringCopyOverrun | MlpString.SubstringCopyLength |
| runtime/sto/sso_string.c:102 | the same clip test `start + length > str_len`, in `size_t`, wraps | "abc", start 1, length SIZE_MAX: the sum wraps to 0, nothing is clipped, the heap branch asks `malloc` for `length + 1` = 0 bytes and `memcpy` copies SIZE_MAX bytes | clip whenever the request runs past the end | high, not executed | MlpString.SubstringCopyLengthAsWritten, MlpString.SubstringCopyOverrun | MlpString.SubstringCopyLength, SsoStrings.Substring |

=== FILE: bigdecimal.dfy ===
/** Arbitrary-precision integers of runtime/sto/bigdecimal.c: schoolbook
    addition, subtraction and multiplication on decimal digit strings, and
    the signed operations on `BigDecimal` records built from them. */
module BigDecimalArith {
  import opened Wrappers
  import opened Machine
  import opened Text
  import opened Decimal
  import opened RuntimeSto

  // ---------------------------------------------------------------------------
  // Digit-string facts the loops rely on
  // ---------------------------------------------------------------------------

  /** The string read back to front. */
  function Reverse(s: string): (r: string)
    ensures |r| == |s| && forall k :: 0 <= k < |s| ==> r[k] == s[|s| - 1 - k]
  {
    seq(|s|, k requires 0 <= k < |s| => s[|s| - 1 - k])
  }

  lemma ReverseSnoc(s: string, c: char)
    ensures Reverse(s + [c]) == [c] + Reverse(s)
  {
  }

  /** The last `k` characters of `s` (all of `s` when it is shorter): the
      digits a right-to-left loop has consumed after `k` steps. */
  function Suffix(s: string, k: nat): (r: string)
    ensures |r| <= k
  {
    if k >= |s| then s else s[|s| - k..]
  }

  /** A digit in front multiplies it by the place value of its position. */
  lemma ValueCons(c: char, x: string)
    requires IsDigit(c) && IsDigits(x)
    ensures IsDigits([c] + x) && ValueOf([c] + x) == DigitValue(c) * Pow10(|x|) + ValueOf(x)
  {
    ValueConcat([c], x);
    assert ValueOf([c]) == DigitValue(c) by { assert [c][..0] == []; }
  }

  /** One more step of a right-to-left loop adds the next digit at place `k`. */
  lemma SuffixStep(s: string, k: nat)
    requires IsDigits(s)
    ensures IsDigits(Suffix(s, k)) && IsDigits(Suffix(s, k + 1))
    ensures k < |s| ==> (|Suffix(s, k)| == k &&
      ValueOf(Suffix(s, k + 1)) == DigitValue(s[|s| - 1 - k]) * Pow10(k) + ValueOf(Suffix(s, k)))
    ensures k >= |s| ==> Suffix(s, k + 1) == Suffix(s, k) == s
  {
    if k < |s| {
      assert Suffix(s, k + 1) == [s[|s| - 1 - k]] + Suffix(s, k);
      ValueCons(s[|s| - 1 - k], Suffix(s, k));
    }
  }

  /** A suffix is worth at most the whole string. */
  lemma SuffixAtMost(s: string, k: nat)
    requires IsDigits(s)
    ensures ValueOf(Suffix(s, k)) <= ValueOf(s)
  {
    if k < |s| {
      var front, back := s[..|s| - k], Suffix(s, k);
      assert s == front + back;
      ValueConcat(front, back);
      MulNonnegative(ValueOf(front), Pow10(|back|));
    }
  }

  lemma MulNonnegative(x: nat, y: nat)
    ensures x * y >= 0
  {
  }

  lemma {:induction false} ZerosValue(z: string)
    requires forall k :: 0 <= k < |z| ==> z[k] == '0'
    ensures IsDigits(z) && ValueOf(z) == 0
    decreases |z|
  {
    if z != [] {
      ZerosValue(z[..|z| - 1]);
    }
  }

  // ---------------------------------------------------------------------------
  // reverse_string and remove_leading_zeros
  // ---------------------------------------------------------------------------

  /** `reverse_string`: swap inward from both ends of the first `length` bytes. */
  method ReverseString(str: array<char>, length: int)
    requires 0 <= length <= str.Length
    modifies str
    ensures str[..length] == Reverse(old(str[..length]))
    ensures str[length..] == old(str[length..])
  {
    var start := 0;
    var end := length - 1;
    while start < end
      invariant 0 <= start && end == length - 1 - start && start <= end + 2
      invariant forall k :: 0 <= k < start ==> str[k] == old(str[length - 1 - k]) && str[length - 1 - k] == old(str[k])
      invariant forall k :: start <= k <= end ==> str[k] == old(str[k])
      invariant forall k :: length <= k < str.Length ==> str[k] == old(str[k])
    {
      var temp := str[start];
      str[start] := str[end];
      str[end] := temp;
      start := start + 1;
      end := end - 1;
    }
  }

  /** `remove_leading_zeros`: drop '0's from the front while another byte
      follows, so a non-empty string keeps at least one digit. */
  method RemoveLeadingZeros(s: string) returns (r: string)
    ensures |r| <= |s| && r == s[|s| - |r|..]
    ensures forall k :: 0 <= k < |s| - |r| ==> s[k] == '0'
    ensures |s| > 0 ==> |r| > 0
    ensures |r| > 1 ==> r[0] != '0'
  {
    var i := 0;
    while i < |s| && s[i] == '0' && i + 1 < |s|
      invariant 0 <= i <= |s| && (|s| > 0 ==> i < |s|)
      invariant forall k :: 0 <= k < i ==> s[k] == '0'
    {
      i := i + 1;
    }
    r := s[i..];
  }

  /** What the zero stripping does to digits: the value is kept and a
      non-empty result is canonical. */
  lemma StrippedDigits(s: string, r: string)
    requires IsDigits(s) && |r| <= |s| && r == s[|s| - |r|..]
    requires forall k :: 0 <= k < |s| - |r| ==> s[k] == '0'
    requires |r| > 1 ==> r[0] != '0'
    ensures IsDigits(r) && ValueOf(r) == ValueOf(s)
    ensures |r| > 0 ==> r == NatToDigits(ValueOf(s))
  {
    var z := s[..|s| - |r|];
    assert s == z + r;
    ZerosValue(z);
    ValueConcat(z, r);
    if |r| > 0 {
      DigitsRoundTrip(r);
    }
  }

  // ---------------------------------------------------------------------------
  // compare_magnitude
  // ---------------------------------------------------------------------------

  /** `compare_magnitude`: the longer string is larger, equal lengths are
      ordered by `strcmp`. */
  function CompareMagnitude(a: string, b: string): (c: int)
    ensures -1 <= c <= 1
    ensures c == 0 <==> a == b
  {
    if |a| > |b| then 1
    else if |a| < |b| then -1
    else LexCompare(a, b)
  }

  /** On canonical digit strings the result is the sign of the difference of
      the values. */
  lemma CompareMagnitudeIsNumericOrder(a: string, b: string)
    requires Canonical(a) && Canonical(b)
    ensures CompareMagnitude(a, b) == Sign(ValueOf(a) - ValueOf(b))
  {
    if |a| < |b| {
      CanonicalLengthOrder(a, b);
    } else if |b| < |a| {
      CanonicalLengthOrder(b, a);
    } else {
      LexCompareIsNumericOrder(a, b);
      if ValueOf(a) == ValueOf(b) {
        CanonicalInjective(a, b);
      }
    }
  }

  // ---------------------------------------------------------------------------
  // add_positive
  // ---------------------------------------------------------------------------

  /** The digits of the sum: canonical, except that two empty operands give
      the empty string (the loop then never runs). */
  function AddDigits(a: string, b: string): string
    requires IsDigits(a) && IsDigits(b)
  {
    if a == [] && b == [] then [] else NatToDigits(ValueOf(a) + ValueOf(b))
  }

  /** `add_positive`: add digit by digit from the right with a carry into a
      buffer of `max(|a|, |b|) + 2` bytes, then reverse and strip zeros. */
  method AddPositive(a: string, b: string) returns (r: string)
    requires IsDigits(a) && IsDigits(b)
    ensures r == AddDigits(a, b)
  {
    var maxLen := (if |a| > |b| then |a| else |b|) + 2;
    var result := new char[maxLen];
    var k := AddColumns(a, b, result);
    ghost var written := result[..k];
    ReverseString(result, k);
    var s := result[..k];
    assert s == Reverse(written);
    assert IsDigits(s) by {
      forall n | 0 <= n < |s| ensures IsDigit(s[n]) {
        assert s[n] == written[k - 1 - n];
      }
    }
    r := RemoveLeadingZeros(s);
    StrippedDigits(s, r);
  }

  /** What the addition loop keeps after `k` columns: the digits written so
      far, least significant first, plus the carry at place `k`, are the sum
      of the operands' last `k` digits. */
  ghost predicate AddedColumns(a: string, b: string, written: string, carry: nat, k: nat)
    requires IsDigits(a) && IsDigits(b) && IsDigits(written)
  {
    ValueOf(Reverse(written)) + carry * Pow10(k) == ValueOf(Suffix(a, k)) + ValueOf(Suffix(b, k))
  }

  /** The loop of `add_positive`: column sums from the right, least
      significant digit first, into `result[..k]`. */
  method AddColumns(a: string, b: string, result: array<char>) returns (k: nat)
    requires IsDigits(a) && IsDigits(b)
    requires result.Length == (if |a| > |b| then |a| else |b|) + 2
    modifies result
    ensures k < result.Length && IsDigits(result[..k])
    ensures k == 0 <==> a == [] && b == []
    ensures ValueOf(Reverse(result[..k])) == ValueOf(a) + ValueOf(b)
  {
    var i, j, carry := |a| - 1, |b| - 1, 0;
    k := 0;
    while i >= 0 || j >= 0 || carry != 0
      invariant i == |a| - 1 - k && j == |b| - 1 - k && 0 <= carry <= 1
      invariant k <= result.Length - 1 && (k == result.Length - 1 ==> carry == 0)
      invariant |a| + |b| == 0 ==> k == 0 && carry == 0
      invariant IsDigits(result[..k])
      invariant AddedColumns(a, b, result[..k], carry, k)
      decreases 2 * (result.Length - 1 - k) + carry
    {
      carry := AddColumn(a, b, result, k, carry);
      k := k + 1;
      i := i - 1;
      j := j - 1;
    }
    SuffixStep(a, k);
    SuffixStep(b, k);
  }

  /** One pass of the loop body: write `sum % 10` at `result[k]` and return
      the new carry. */
  method AddColumn(a: string, b: string, result: array<char>, k: nat, carry: nat) returns (carry2: nat)
    requires IsDigits(a) && IsDigits(b) && k < result.Length && carry <= 1
    requires IsDigits(result[..k])
    requires AddedColumns(a, b, result[..k], carry, k)
    modifies result
    ensures carry2 <= 1 && (k >= |a| && k >= |b| ==> carry2 == 0)
    ensures IsDigits(result[..k + 1])
    ensures AddedColumns(a, b, result[..k + 1], carry2, k + 1)
  {
    ghost var before := result[..k];
    var i, j := |a| - 1 - k, |b| - 1 - k;
    var digitA := if i >= 0 then DigitValue(a[i]) else 0;
    var digitB := if j >= 0 then DigitValue(b[j]) else 0;
    var sum := digitA + digitB + carry;
    assert sum <= 19;
    AddStep(a, b, k, before, carry, sum);
    var c := DigitChar(sum % 10);
    result[k] := c;
    assert result[..k + 1] == before + [c];
    carry2 := sum / 10;
    if k >= |a| && k >= |b| {
      assert sum == carry;
    }
  }

  /** One iteration of the addition loop keeps its invariant. */
  lemma AddStep(a: string, b: string, k: nat, before: string, carry: nat, sum: nat)
    requires IsDigits(a) && IsDigits(b) && IsDigits(before) && |before| == k
    requires sum == (if k < |a| then DigitValue(a[|a| - 1 - k]) else 0) +
                    (if k < |b| then DigitValue(b[|b| - 1 - k]) else 0) + carry
    requires AddedColumns(a, b, before, carry, k)
    ensures IsDigits(before + [DigitChar(sum % 10)])
    ensures AddedColumns(a, b, before + [DigitChar(sum % 10)], sum / 10, k + 1)
  {
    var c := DigitChar(sum % 10);
    var rev := Reverse(before);
    var p := Pow10(k);
    assert Pow10(k + 1) == 10 * p;
    ReverseSnoc(before, c);
    ValueCons(c, rev);
    SuffixStep(a, k);
    SuffixStep(b, k);
    var da := if k < |a| then DigitValue(a[|a| - 1 - k]) else 0;
    var db := if k < |b| then DigitValue(b[|b| - 1 - k]) else 0;
    CarryStep(ValueOf(rev), carry, da, db, sum % 10, sum / 10, p, ValueOf(Suffix(a, k)), ValueOf(Suffix(b, k)));
  }

  // ---------------------------------------------------------------------------
  // subtract_positive
  // ---------------------------------------------------------------------------

  /** `subtract_positive`, for `value(a) >= value(b)`: subtract digit by
      digit from the right with a borrow into a buffer of `|a| + 1` bytes,
      reverse, strip zeros, and turn an empty result into "0". */
  method SubtractPositive(a: string, b: string) returns (r: string)
    requires IsDigits(a) && IsDigits(b) && ValueOf(a) >= ValueOf(b)
    ensures r == NatToDigits(ValueOf(a) - ValueOf(b))
  {
    var result := new char[|a| + 1];
    var k := SubtractColumns(a, b, result);
    ghost var written := result[..k];
    ReverseString(result, k);
    var s := result[..k];
    assert s == Reverse(written);
    assert IsDigits(s) by {
      forall n | 0 <= n < |s| ensures IsDigit(s[n]) {
        assert s[n] == written[k - 1 - n];
      }
    }
    r := RemoveLeadingZeros(s);
    StrippedDigits(s, r);
    if r == [] {
      r := "0";
      assert ValueOf(s) == 0 by { ZerosValue(s); }
    }
  }

  /** The loop of `subtract_positive`: column differences from the right,
      least significant digit first, into `result[..|a|]`. */
  method SubtractColumns(a: string, b: string, result: array<char>) returns (k: nat)
    requires IsDigits(a) && IsDigits(b) && ValueOf(a) >= ValueOf(b)
    requires result.Length == |a| + 1
    modifies result
    ensures k == |a| && IsDigits(result[..k])
    ensures ValueOf(Reverse(result[..k])) == ValueOf(a) - ValueOf(b)
  {
    var i, borrow: nat := |a| - 1, 0;
    k := 0;
    while i >= 0
      invariant i == |a| - 1 - k && k <= |a| && borrow <= 1
      invariant IsDigits(result[..k])
      invariant SubtractedColumns(a, b, result[..k], borrow, k)
    {
      borrow := SubtractColumn(a, b, result, k, borrow);
      k := k + 1;
      i := i - 1;
    }
    SubtractFinish(a, b, result[..k], ValueOf(Reverse(result[..k])), borrow);
  }

  /** What the subtraction loop keeps after `k` columns: the digits written
      so far, least significant first, minus the borrow at place `k`, are
      the difference of the operands' last `k` digits. */
  ghost predicate SubtractedColumns(a: string, b: string, written: string, borrow: nat, k: nat)
    requires IsDigits(a) && IsDigits(b) && IsDigits(written)
  {
    ValueOf(Reverse(written)) - borrow * Pow10(k) == ValueOf(Suffix(a, k)) - ValueOf(Suffix(b, k))
  }

  /** One pass of the loop body: write the digit of `a[i] - b[j] - borrow`
      (plus ten when negative) at `result[k]` and return the new borrow. */
  method SubtractColumn(a: string, b: string, result: array<char>, k: nat, borrow: nat) returns (borrow2: nat)
    requires IsDigits(a) && IsDigits(b) && k < |a| && k < result.Length && borrow <= 1
    requires IsDigits(result[..k])
    requires SubtractedColumns(a, b, result[..k], borrow, k)
    modifies result
    ensures borrow2 <= 1 && IsDigits(result[..k + 1])
    ensures SubtractedColumns(a, b, result[..k + 1], borrow2, k + 1)
  {
    ghost var before := result[..k];
    var i, j := |a| - 1 - k, |b| - 1 - k;
    var digitA := DigitValue(a[i]);
    var digitB := if j >= 0 then DigitValue(b[j]) else 0;
    var diff := digitA - digitB - borrow;
    if diff < 0 {
      diff := diff + 10;
      borrow2 := 1;
    } else {
      borrow2 := 0;
    }
    SubtractStep(a, b, k, before, borrow, diff, borrow2);
    var c := DigitChar(diff);
    result[k] := c;
    assert result[..k + 1] == before + [c];
  }

  /** One iteration of the subtraction loop keeps its invariant. */
  lemma SubtractStep(a: string, b: string, k: nat, before: string, borrow: nat, d: nat, borrow2: nat)
    requires IsDigits(a) && IsDigits(b) && IsDigits(before) && |before| == k && k < |a| && d < 10
    requires d - 10 * borrow2 == DigitValue(a[|a| - 1 - k]) - (if k < |b| then DigitValue(b[|b| - 1 - k]) else 0) - borrow
    requires SubtractedColumns(a, b, before, borrow, k)
    ensures IsDigits(before + [DigitChar(d)])
    ensures SubtractedColumns(a, b, before + [DigitChar(d)], borrow2, k + 1)
  {
    var c := DigitChar(d);
    var rev := Reverse(before);
    var p := Pow10(k);
    assert Pow10(k + 1) == 10 * p;
    ReverseSnoc(before, c);
    ValueCons(c, rev);
    SuffixStep(a, k);
    SuffixStep(b, k);
    var da := DigitValue(a[|a| - 1 - k]);
    var db := if k < |b| then DigitValue(b[|b| - 1 - k]) else 0;
    BorrowStep(ValueOf(rev), borrow, da, db, d, borrow2, p, ValueOf(Suffix(a, k)), ValueOf(Suffix(b, k)));
  }

  /** Writing the adjusted digit at place `p` and borrowing keeps the difference. */
  lemma BorrowStep(v: int, borrow: int, da: int, db: int, d: int, borrow2: int, p: int, sa: int, sb: int)
    requires v - borrow * p == sa - sb
    requires d - 10 * borrow2 == da - db - borrow
    ensures d * p + v - borrow2 * (10 * p) == (da * p + sa) - (db * p + sb)
  {
    assert d * p - borrow2 * (10 * p) == (d - 10 * borrow2) * p;
    assert (da - db - borrow) * p == da * p - db * p - borrow * p;
  }

  /** After the last column no borrow is left: the digits of `b` beyond the
      length of `a`, which the loop never reads, are all zero. */
  lemma SubtractFinish(a: string, b: string, written: string, v: nat, borrow: nat)
    requires IsDigits(a) && IsDigits(b) && ValueOf(a) >= ValueOf(b) && borrow <= 1
    requires v < Pow10(|a|)
    requires IsDigits(written) && v == ValueOf(Reverse(written))
    requires SubtractedColumns(a, b, written, borrow, |a|)
    ensures v == ValueOf(a) - ValueOf(b)
  {
    assert Suffix(a, |a|) == a;
    SuffixOfSmaller(b, |a|);
    NoBorrow(v, borrow, Pow10(|a|), ValueOf(a) - ValueOf(b));
  }

  lemma NoBorrow(v: int, borrow: int, p: int, d: int)
    requires 0 <= v < p && 0 <= borrow <= 1 && d >= 0 && v - borrow * p == d
    ensures v == d
  {
  }

  /** A number below 10^n keeps its value in its last n digits. */
  lemma SuffixOfSmaller(s: string, n: nat)
    requires IsDigits(s) && ValueOf(s) < Pow10(n)
    ensures ValueOf(Suffix(s, n)) == ValueOf(s)
  {
    if n < |s| {
      var front, back := s[..|s| - n], Suffix(s, n);
      assert s == front + back;
      ValueConcat(front, back);
      HighPartZero(ValueOf(front), Pow10(n), ValueOf(back), ValueOf(s));
    }
  }

  lemma HighPartZero(f: nat, p: nat, b: nat, v: nat)
    requires v == f * p + b && v < p
    ensures v == b
  {
    if f > 0 {
      MulAtLeast(p, f);
    }
  }

  lemma CarryStep(v: int, carry: int, da: int, db: int, d: int, carry2: int, p: int, sa: int, sb: int)
    requires v + carry * p == sa + sb
    requires d + 10 * carry2 == da + db + carry
    ensures d * p + v + carry2 * (10 * p) == (da * p + sa) + (db * p + sb)
  {
    assert d * p + carry2 * (10 * p) == (d + 10 * carry2) * p;
    assert (da + db + carry) * p == da * p + db * p + carry * p;
  }

  // ---------------------------------------------------------------------------
  // multiply_positive
  // ---------------------------------------------------------------------------

  /** The number an `int` buffer of decimal cells holds, least significant
      cell first; a cell may temporarily exceed 9 while a carry is pending. */
  function LeSum(s: seq<nat>): nat {
    if s == [] then 0 else LeSum(s[..|s| - 1]) + s[|s| - 1] * Pow10(|s| - 1)
  }

  predicate DigitCells(s: seq<nat>) {
    forall i :: 0 <= i < |s| ==> s[i] < 10
  }

  /** Changing one cell changes the number by the difference at its place. */
  lemma {:induction false} LeSumUpdate(s: seq<nat>, i: nat, x: nat)
    requires i < |s|
    ensures LeSum(s[i := x]) == LeSum(s) + (x - s[i]) * Pow10(i)
    decreases |s|
  {
    var n := |s| - 1;
    var t := s[i := x];
    if i == n {
      assert t[..n] == s[..n];
      MulDifference(x, s[i], Pow10(i));
    } else {
      assert t[..n] == s[..n][i := x];
      LeSumUpdate(s[..n], i, x);
    }
  }

  lemma MulDifference(x: int, y: int, p: int)
    ensures x * p - y * p == (x - y) * p
  {
  }

  /** The number is at least what any one cell contributes. */
  lemma {:induction false} LeSumAtLeast(s: seq<nat>, i: nat)
    requires i < |s|
    ensures LeSum(s) >= s[i] * Pow10(i)
    decreases |s|
  {
    var n := |s| - 1;
    var top := s[n] * Pow10(n);
    assert LeSum(s) == LeSum(s[..n]) + top;
    if i < n {
      LeSumAtLeast(s[..n], i);
      assert s[..n][i] == s[i];
      MulNonnegative(s[n], Pow10(n));
    }
  }

  /** Cells above `i` that are zero add nothing. */
  lemma {:induction false} LeSumZeroTail(s: seq<nat>, i: nat)
    requires i < |s| && forall k :: i < k < |s| ==> s[k] == 0
    ensures LeSum(s[..i + 1]) == LeSum(s)
    decreases |s|
  {
    var n := |s| - 1;
    if i < n {
      assert s[..n][..i + 1] == s[..i + 1];
      LeSumZeroTail(s[..n], i);
    } else {
      assert s[..i + 1] == s;
    }
  }

  /** A buffer of zero cells, as `calloc` returns it, holds zero. */
  lemma {:induction false} LeSumZeros(s: seq<nat>)
    requires forall k :: 0 <= k < |s| ==> s[k] == 0
    ensures LeSum(s) == 0
    decreases |s|
  {
    if s != [] {
      LeSumZeros(s[..|s| - 1]);
    }
  }

  lemma {:induction false} Pow10Add(m: nat, n: nat)
    ensures Pow10(m + n) == Pow10(m) * Pow10(n)
    decreases m
  {
    if m > 0 {
      Pow10Add(m - 1, n);
      assert Pow10(m + n) == 10 * Pow10(m - 1 + n);
    }
  }

  /** A cell of 10 or more is never the top cell while the number fits in
      the buffer, so the carry loop stays inside it. */
  lemma CarryFits(s: seq<nat>, pos: nat)
    requires pos < |s| && s[pos] >= 10 && LeSum(s) < Pow10(|s|)
    ensures pos + 1 < |s|
  {
    LeSumAtLeast(s, pos);
    MulAtLeast(Pow10(pos), s[pos] / 10);
    MulMonotone(10 * (s[pos] / 10), s[pos], Pow10(pos));
  }

  lemma MulMonotone(x: int, y: int, p: int)
    requires x <= y && p >= 0
    ensures x * p <= y * p
  {
    MulNonnegative(y - x, p);
    MulDifference(y, x, p);
  }

  /** Moving the tens of cell `pos` into cell `pos + 1` keeps the number. */
  lemma CarryKeepsSum(s: seq<nat>, pos: nat)
    requires pos + 1 < |s|
    ensures LeSum(s[pos + 1 := s[pos + 1] + s[pos] / 10][pos := s[pos] % 10]) == LeSum(s)
  {
    var q, r := s[pos] / 10, s[pos] % 10;
    var s1 := s[pos + 1 := s[pos + 1] + q];
    LeSumUpdate(s, pos + 1, s[pos + 1] + q);
    LeSumUpdate(s1, pos, r);
    CarryArith(q, r, s[pos], Pow10(pos));
  }

  lemma CarryArith(q: int, r: int, c: int, p: int)
    requires c == 10 * q + r
    ensures q * (10 * p) + (r - c) * p == 0
  {
    MulDifference(r, c, p);
  }

  /** `result[pos] += product` and the carry loop after it: the buffer's
      number grows by `amount * 10^pos` and every cell is a digit again. */
  method AddAt(result: array<nat>, pos0: nat, amount: nat)
    requires pos0 < result.Length && DigitCells(result[..]) && amount <= 81
    requires LeSum(result[..]) + amount * Pow10(pos0) < Pow10(result.Length)
    modifies result
    ensures DigitCells(result[..])
    ensures LeSum(result[..]) == old(LeSum(result[..])) + amount * Pow10(pos0)
  {
    ghost var target := LeSum(result[..]) + amount * Pow10(pos0);
    LeSumUpdate(result[..], pos0, result[pos0] + amount);
    result[pos0] := result[pos0] + amount;
    var pos := pos0;
    while result[pos] >= 10
      invariant pos < result.Length && result[pos] < 100
      invariant forall k :: 0 <= k < result.Length && k != pos ==> result[k] < 10
      invariant LeSum(result[..]) == target
      decreases result.Length - pos
    {
      CarryFits(result[..], pos);
      CarryKeepsSum(result[..], pos);
      result[pos + 1] := result[pos + 1] + result[pos] / 10;
      result[pos] := result[pos] % 10;
      pos := pos + 1;
    }
  }

  /** The digits of the product of two digit strings, canonical. */
  function MultiplyDigits(a: string, b: string): string
    requires IsDigits(a) && IsDigits(b)
  {
    NatToDigits(ValueOf(a) * ValueOf(b))
  }

  /** `multiply_positive`: schoolbook multiplication into `|a| + |b| + 1`
      zeroed int cells, then the cells from the highest non-zero one down. */
  method MultiplyPositive(a: string, b: string) returns (r: string)
    requires IsDigits(a) && IsDigits(b)
    ensures r == MultiplyDigits(a, b)
  {
    var result := new nat[|a| + |b| + 1](_ => 0);
    LeSumZeros(result[..]);
    var i := |a| - 1;
    while i >= 0
      invariant -1 <= i < |a| && DigitCells(result[..])
      invariant LeSum(result[..]) == ValueOf(Suffix(a, |a| - 1 - i)) * ValueOf(b)
    {
      MultiplyRow(a, b, result, i);
      i := i - 1;
    }
    assert Suffix(a, |a|) == a;
    r := CellsToDigits(result);
  }

  /** The inner loop of `multiply_positive` for the digit `a[i]`: add
      `a[i] * b[j]` at place `(|a| - 1 - i) + (|b| - 1 - j)` for every `j`. */
  method MultiplyRow(a: string, b: string, result: array<nat>, i: nat)
    requires IsDigits(a) && IsDigits(b) && i < |a|
    requires result.Length == |a| + |b| + 1 && DigitCells(result[..])
    requires LeSum(result[..]) == ValueOf(Suffix(a, |a| - 1 - i)) * ValueOf(b)
    modifies result
    ensures DigitCells(result[..])
    ensures LeSum(result[..]) == ValueOf(Suffix(a, |a| - i)) * ValueOf(b)
  {
    var t := |a| - 1 - i;
    var digitA := DigitValue(a[i]);
    ghost var base, place := ValueOf(Suffix(a, t)) * ValueOf(b), Pow10(t);
    assert Suffix(b, 0) == [];
    RowCap(a, b, t, digitA, base, place, result.Length);
    var j := |b| - 1;
    while j >= 0
      invariant -1 <= j < |b| && DigitCells(result[..])
      invariant RowProgress(b, LeSum(result[..]), base, digitA, place, |b| - 1 - j)
    {
      MultiplyCell(a, b, result, t, j, digitA, base, place);
      j := j - 1;
    }
    RowFinish(a, b, t, digitA, base, place, LeSum(result[..]));
  }

  /** One step of the inner loop: `result[t + (|b| - 1 - j)] += a[i] * b[j]`
      and its carries. */
  method MultiplyCell(a: string, b: string, result: array<nat>, t: nat, j: nat, digitA: nat,
    ghost base: nat, ghost place: nat)
    requires IsDigits(b) && t < |a| && j < |b| && digitA < 10 && place == Pow10(t)
    requires result.Length == |a| + |b| + 1 && DigitCells(result[..])
    requires RowProgress(b, LeSum(result[..]), base, digitA, place, |b| - 1 - j)
    requires base + digitA * ValueOf(b) * place < Pow10(result.Length)
    modifies result
    ensures DigitCells(result[..]) && RowProgress(b, LeSum(result[..]), base, digitA, place, |b| - j)
  {
    var digitB := DigitValue(b[j]);
    var product := DigitProduct(digitA, digitB);
    var pos := t + (|b| - 1 - j);
    RowStep(a, b, t, |b| - 1 - j, digitA, digitB, base, place, LeSum(result[..]), product, pos, result.Length);
    AddAt(result, pos, product);
  }

  /** What the row loop keeps after `u` digits of `b`: `sum` is `base` plus
      `da` times those digits' value at place `place`. */
  ghost predicate RowProgress(b: string, sum: int, base: int, da: nat, place: nat, u: nat)
    requires IsDigits(b) && u <= |b|
  {
    sum == base + da * ValueOf(Suffix(b, u)) * place
  }

  /** After the last digit of `b` the row has added `a[i] * b` at place `t`. */
  lemma RowFinish(a: string, b: string, t: nat, da: nat, base: nat, place: nat, sum: int)
    requires IsDigits(a) && IsDigits(b) && t < |a| && da == DigitValue(a[|a| - 1 - t])
    requires base == ValueOf(Suffix(a, t)) * ValueOf(b) && place == Pow10(t)
    requires RowProgress(b, sum, base, da, place, |b|)
    ensures sum == ValueOf(Suffix(a, t + 1)) * ValueOf(b)
  {
    assert Suffix(b, |b|) == b;
    SuffixStep(a, t);
    RowEnd(ValueOf(Suffix(a, t)), ValueOf(b), da, place);
  }

  function DigitProduct(x: nat, y: nat): (p: nat)
    requires x < 10 && y < 10
    ensures p == x * y && p <= 81
  {
    MulMonotone(x, 9, y);
    MulMonotone(y, 9, 9);
    x * y
  }

  /** Adding the next partial product keeps the row invariant and stays
      below the buffer's capacity. */
  lemma RowStep(a: string, b: string, t: nat, u: nat, da: nat, db: nat, base: nat, place: nat, sum: nat,
    product: nat, pos: nat, len: nat)
    requires IsDigits(b) && t < |a| && u < |b|
    requires db == DigitValue(b[|b| - 1 - u]) && product == da * db && place == Pow10(t)
    requires RowProgress(b, sum, base, da, place, u)
    requires pos == t + u && len == |a| + |b| + 1
    requires base + da * ValueOf(b) * place < Pow10(len)
    ensures RowProgress(b, sum + product * Pow10(pos), base, da, place, u + 1)
    ensures sum + product * Pow10(pos) < Pow10(len) && pos < len
  {
    PlaceOfPosition(u, t, pos);
    RowStepValue(b, u, da, db, base, place, sum, product, Pow10(pos), Pow10(u));
    RowStepBound(b, u, da, base, place, sum + product * Pow10(pos), Pow10(len));
  }

  /** The value half of `RowStep`, with the place values as plain numbers. */
  lemma RowStepValue(b: string, u: nat, da: nat, db: nat, base: nat, place: nat, sum: nat, product: nat,
    ppos: nat, pu: nat)
    requires IsDigits(b) && u < |b| && db == DigitValue(b[|b| - 1 - u]) && product == da * db
    requires pu == Pow10(u) && ppos == pu * place
    requires RowProgress(b, sum, base, da, place, u)
    ensures RowProgress(b, sum + product * ppos, base, da, place, u + 1)
  {
    var su, su1 := ValueOf(Suffix(b, u)), ValueOf(Suffix(b, u + 1));
    SuffixStep(b, u);
    RowSum(sum, base, da, db, su, su1, pu, place, product, ppos);
  }

  /** The place value of column `pos = t + u`. */
  lemma PlaceOfPosition(u: nat, t: nat, pos: nat)
    requires pos == t + u
    ensures Pow10(pos) == Pow10(u) * Pow10(t)
  {
    Pow10Add(u, t);
  }

  /** The whole row stays below the buffer's capacity: adding `da * b` at
      place `t` gives the value of the next suffix of `a` times `b`, which is
      below `10^|a| * 10^|b|`. */
  lemma RowCap(a: string, b: string, t: nat, da: nat, base: nat, place: nat, len: nat)
    requires IsDigits(a) && IsDigits(b) && t < |a| && da == DigitValue(a[|a| - 1 - t])
    requires base == ValueOf(Suffix(a, t)) * ValueOf(b) && place == Pow10(t)
    requires len == |a| + |b| + 1
    ensures base + da * ValueOf(b) * place < Pow10(len)
  {
    SuffixStep(a, t);
    SuffixProductBound(a, b, t + 1, len);
    RowCapArith(ValueOf(Suffix(a, t)), ValueOf(Suffix(a, t + 1)), ValueOf(b), da, place, base, Pow10(len));
  }

  lemma RowCapArith(sa: nat, sa1: nat, vb: nat, da: nat, place: nat, base: int, plen: nat)
    requires base == sa * vb && sa1 == da * place + sa && sa1 * vb < plen
    ensures base + da * vb * place < plen
  {
    RowEnd(sa, vb, da, place);
  }

  /** Any suffix of `a` times `b` fits in `|a| + |b| + 1` digits. */
  lemma SuffixProductBound(a: string, b: string, k: nat, len: nat)
    requires IsDigits(a) && IsDigits(b) && len == |a| + |b| + 1
    ensures IsDigits(Suffix(a, k)) && ValueOf(Suffix(a, k)) * ValueOf(b) < Pow10(len)
  {
    SuffixStep(a, k);
    SuffixAtMost(a, k);
    Pow10Add(|a|, |b|);
    Pow10Monotone(|a| + |b|, len);
    CapArith(ValueOf(Suffix(a, k)), ValueOf(b), ValueOf(a), Pow10(|a|), Pow10(|b|), Pow10(|a| + |b|), Pow10(len));
  }

  /** The arithmetic of `SuffixProductBound` on plain numbers. */
  lemma CapArith(sa: nat, vb: nat, va: nat, pa: nat, pb: nat, pab: nat, plen: nat)
    requires sa <= va < pa && vb < pb && pab == pa * pb && pab <= plen
    ensures sa * vb < plen
  {
    MulMonotone(sa, va, vb);
    ProductBelow(va, vb, pa, pb);
  }

  /** A partial row is worth at most the whole row, so it fits as well. */
  lemma RowStepBound(b: string, u: nat, da: nat, base: nat, place: nat, next: int, plen: nat)
    requires IsDigits(b) && u < |b|
    requires RowProgress(b, next, base, da, place, u + 1)
    requires base + da * ValueOf(b) * place < plen
    ensures next < plen
  {
    SuffixStep(b, u);
    SuffixAtMost(b, u + 1);
    StepArith(ValueOf(Suffix(b, u + 1)), ValueOf(b), da, place, base, next);
  }

  lemma StepArith(su1: nat, vb: nat, da: nat, place: nat, base: int, next: int)
    requires next == base + da * su1 * place && su1 <= vb
    ensures next <= base + da * vb * place
  {
    var dp := da * place;
    MulMonotone(su1, vb, dp);
    assert da * su1 * place == su1 * dp;
    assert da * vb * place == vb * dp;
  }

  lemma RowSum(sum: int, base: int, da: int, db: int, su: int, su1: int, pu: int, p: int, product: int, ppos: int)
    requires sum == base + da * su * p && su1 == db * pu + su && product == da * db && ppos == pu * p
    ensures sum + product * ppos == base + da * su1 * p
  {
    assert da * su1 == da * db * pu + da * su;
    assert (da * db * pu + da * su) * p == da * db * pu * p + da * su * p;
  }

  lemma ProductBelow(x: nat, y: nat, px: nat, py: nat)
    requires x < px && y < py
    ensures x * y < px * py
  {
    MulMonotone(y, py, x);
    MulMonotone(x + 1, px, py);
    assert (x + 1) * py == x * py + py;
  }

  lemma RowEnd(sa: int, vb: int, da: int, p: int)
    ensures sa * vb + da * vb * p == (da * p + sa) * vb
  {
  }

  /** The conversion at the end of `multiply_positive`: skip zero cells from
      the top, keeping the lowest, then write the rest as characters, highest
      first. */
  method CellsToDigits(result: array<nat>) returns (r: string)
    requires result.Length >= 1 && DigitCells(result[..])
    ensures r == NatToDigits(LeSum(result[..]))
  {
    var i := result.Length - 1;
    while i > 0 && result[i] == 0
      invariant 0 <= i < result.Length
      invariant forall k :: i < k < result.Length ==> result[k] == 0
    {
      i := i - 1;
    }
    LeSumZeroTail(result[..], i);
    var top := i;
    r := [];
    while i >= 0
      invariant -1 <= i <= top && |r| == top - i && IsDigits(r)
      invariant |r| > 0 ==> r[0] == DigitChar(result[top])
      invariant CopiedCells(result[..], r, i + 1, LeSum(result[..top + 1]))
    {
      var c := DigitChar(result[i]);
      CopyStep(result[..], r, i, LeSum(result[..top + 1]));
      r := r + [c];
      i := i - 1;
    }
    assert result[..0] == [] && Pow10(0) == 1;
    assert ValueOf(r) == LeSum(result[..]);
    if r[0] == '0' {
      assert result[top] == DigitValue(r[0]) == 0;
    }
    DigitsRoundTrip(r);
  }

  /** What the copy loop keeps: the characters written so far, shifted past
      the `n` cells still to copy, plus those cells, make `total`. */
  ghost predicate CopiedCells(s: seq<nat>, r: string, n: nat, total: nat)
    requires n <= |s| && IsDigits(r)
  {
    ValueOf(r) * Pow10(n) + LeSum(s[..n]) == total
  }

  /** Writing cell `i` as the next character moves its contribution from the
      buffer to the string. */
  lemma CopyStep(s: seq<nat>, r: string, i: nat, total: nat)
    requires i < |s| && s[i] < 10 && IsDigits(r)
    requires CopiedCells(s, r, i + 1, total)
    ensures IsDigits(r + [DigitChar(s[i])])
    ensures CopiedCells(s, r + [DigitChar(s[i])], i, total)
  {
    ValueSnoc(r, DigitChar(s[i]));
    assert s[..i + 1][..i] == s[..i];
    ShiftPlace(ValueOf(r), s[i], Pow10(i));
  }

  lemma ShiftPlace(v: int, d: int, p: int)
    ensures (10 * v + d) * p == v * (10 * p) + d * p
  {
  }

  // ---------------------------------------------------------------------------
  // sto_bigdec_add, sto_bigdec_sub, sto_bigdec_mul, sto_bigdec_div
  // ---------------------------------------------------------------------------

  /** The record is not a negative zero. */
  predicate NoNegativeZero(bd: BigDecimal) {
    !(bd.negative && bd.digits == "0")
  }

  /** Canonical digits spell zero exactly when they are "0". */
  lemma ZeroDigits(s: string)
    requires IsDigits(s)
    ensures Canonical(s) ==> (s == "0" <==> ValueOf(s) == 0)
  {
    if !Canonical(s) {
    } else if s[0] != '0' {
      LeadingDigitBound(s);
    } else {
      assert s == "0";
      assert ValueOf(s) == 10 * ValueOf(s[..0]) + 0;
    }
  }

  /** `sto_bigdec_add`: equal signs add the magnitudes under that sign;
      otherwise the smaller magnitude is subtracted from the larger one, whose
      sign the result takes, and equal magnitudes give a positive "0". A NULL
      operand gives NULL. */
  method Add(a: Option<BigDecimal>, b: Option<BigDecimal>) returns (r: Option<BigDecimal>)
    requires a.Some? && b.Some? ==> Canonical(a.value.digits) && Canonical(b.value.digits)
    ensures r.Some? <==> a.Some? && b.Some?
    ensures r.Some? ==> Canonical(r.value.digits) && r.value.length == |r.value.digits| && r.value.refcount == 1
    ensures r.Some? ==> Value(r.value) == Value(a.value) + Value(b.value)
    ensures r.Some? && (NoNegativeZero(a.value) || NoNegativeZero(b.value)) ==> NoNegativeZero(r.value)
  {
    if a.None? || b.None? {
      return None;
    }
    var x, y := a.value, b.value;
    ZeroDigits(x.digits);
    ZeroDigits(y.digits);
    var digits: string, negative: bool;
    if x.negative == y.negative {
      digits := AddPositive(x.digits, y.digits);
      negative := x.negative;
      ZeroDigits(digits);
    } else {
      digits, negative := AddOpposite(x, y);
    }
    r := Some(BigDecimal(digits, |digits|, negative, 1));
  }

  /** The unequal-signs branch of `sto_bigdec_add`: the larger magnitude
      minus the smaller, under the larger one's sign; a positive "0" when
      the magnitudes are equal. */
  method AddOpposite(x: BigDecimal, y: BigDecimal) returns (digits: string, negative: bool)
    requires Canonical(x.digits) && Canonical(y.digits) && x.negative != y.negative
    ensures Canonical(digits) && digits != "" && !(negative && digits == "0")
    ensures Value(BigDecimal(digits, |digits|, negative, 1)) == Value(x) + Value(y)
  {
    var cmp := CompareMagnitude(x.digits, y.digits);
    CompareMagnitudeIsNumericOrder(x.digits, y.digits);
    if cmp == 0 {
      digits, negative := "0", false;
      assert ValueOf(digits) == 0 by { ZeroDigits(digits); }
    } else if cmp > 0 {
      digits := SubtractPositive(x.digits, y.digits);
      negative := x.negative;
      ZeroDigits(digits);
    } else {
      digits := SubtractPositive(y.digits, x.digits);
      negative := y.negative;
      ZeroDigits(digits);
    }
  }

  /** `sto_bigdec_sub`: add a copy of `b` with the sign flipped. */
  method Sub(a: Option<BigDecimal>, b: Option<BigDecimal>) returns (r: Option<BigDecimal>)
    requires a.Some? && b.Some? ==> Canonical(a.value.digits) && Canonical(b.value.digits)
    ensures r.Some? <==> a.Some? && b.Some?
    ensures r.Some? ==> Canonical(r.value.digits) && r.value.length == |r.value.digits| && r.value.refcount == 1
    ensures r.Some? ==> Value(r.value) == Value(a.value) - Value(b.value)
    ensures r.Some? && WellFormed(a.value) ==> WellFormed(r.value)
  {
    if a.None? || b.None? {
      return None;
    }
    var negated := b.value.(negative := !b.value.negative);
    r := Add(a, Some(negated));
  }

  /** `sto_bigdec_mul`: multiply the magnitudes; the result is negative when
      exactly one operand is, except that a zero product is positive. */
  method Mul(a: Option<BigDecimal>, b: Option<BigDecimal>) returns (r: Option<BigDecimal>)
    requires a.Some? && b.Some? ==> IsDigits(a.value.digits) && IsDigits(b.value.digits)
    ensures r.Some? <==> a.Some? && b.Some?
    ensures r.Some? ==> WellFormed(r.value) && r.value.refcount == 1
    ensures r.Some? ==> Value(r.value) == Value(a.value) * Value(b.value)
  {
    if a.None? || b.None? {
      return None;
    }
    var x, y := a.value, b.value;
    var digits := MultiplyPositive(x.digits, y.digits);
    var negative := x.negative != y.negative;
    if digits == "0" {
      negative := false;
    }
    ZeroDigits(digits);
    SignedProduct(ValueOf(x.digits), ValueOf(y.digits), x.negative, y.negative);
    r := Some(BigDecimal(digits, |digits|, negative, 1));
  }

  lemma SignedProduct(m: int, n: int, p: bool, q: bool)
    ensures (if p then -m else m) * (if q then -n else n) == if p != q then -(m * n) else m * n
  {
  }

  /** What `sscanf("%lld")` reads from a record's digits, with the record's
      sign applied: the magnitude saturates at `INT64_MAX`. */
  function Clamped(bd: BigDecimal): (v: Int64)
    requires IsDigits(bd.digits)
    ensures Abs(v) == if ValueOf(bd.digits) > INT64_MAX then INT64_MAX else ValueOf(bd.digits)
    ensures v != 0 ==> (v < 0 <==> bd.negative)
    ensures Abs(Value(bd)) <= INT64_MAX ==> v == Value(bd)
    ensures Canonical(bd.digits) ==> (v == 0 <==> bd.digits == "0")
  {
    var m := ParseInt64(bd.digits);
    ParseDigits(bd.digits);
    ZeroDigits(bd.digits);
    if bd.negative then -m else m
  }

  /** Reading a plain digit string with `sscanf("%lld")` gives its value,
      saturated at `INT64_MAX`. */
  lemma ParseDigits(s: string)
    requires IsDigits(s)
    ensures ParseInt64(s) == if ValueOf(s) > INT64_MAX then INT64_MAX else ValueOf(s)
  {
    assert SkipSpaces(s, 0) == 0 by {
      if |s| > 0 { assert !IsSpace(s[0]); }
    }
    assert DigitRunEnd(s, 0) == |s| by {
      DigitRunEndOfDigits(s, 0);
    }
    assert s[0..|s|] == s;
  }

  lemma {:induction false} DigitRunEndOfDigits(s: string, i: nat)
    requires IsDigits(s) && i <= |s|
    ensures DigitRunEnd(s, i) == |s|
    decreases |s| - i
  {
    if i < |s| {
      DigitRunEndOfDigits(s, i + 1);
    }
  }

  /** `sto_bigdec_div`: a "0" divisor reports division by zero and gives
      zero; otherwise both operands are read as int64_t values and divided
      with C's truncating division, so magnitudes beyond `INT64_MAX` lose
      precision. */
  function Div(a: Option<BigDecimal>, b: Option<BigDecimal>): (r: Option<BigDecimal>)
    requires a.Some? && b.Some? ==> IsDigits(a.value.digits) && Canonical(b.value.digits)
    ensures r.Some? <==> a.Some? && b.Some?
    ensures r.Some? ==> WellFormed(r.value) && r.value.refcount == 1
    ensures r.Some? && b.value.digits == "0" ==> Value(r.value) == 0
    ensures r.Some? && b.value.digits != "0" ==>
      Value(r.value) == CDiv(Clamped(a.value), Clamped(b.value))
    ensures r.Some? && b.value.digits != "0" && Abs(Value(a.value)) <= INT64_MAX && Abs(Value(b.value)) <= INT64_MAX ==>
      Value(r.value) == CDiv(Value(a.value), Value(b.value))
  {
    if a.None? || b.None? then None
    else if b.value.digits == "0" then Some(FromInt64(0))
    else
      var x, y := Clamped(a.value), Clamped(b.value);
      CDivShrinks(x, y);
      Some(FromInt64(CDiv(x, y)))
  }
}

=== FILE: codegen_helper.dfy ===
/** The bootstrap code generator (scripts/codegen_helper.py): an LLVM IR
    template rendered by two whole-text replacements. */
module CodegenHelper {
  import opened Wrappers
  import opened Text
  import opened Decimal

  const FuncNamePlaceholder: string := "__FUNC_NAME__"
  const ReturnValPlaceholder: string := "__RETURN_VAL__"

  /** `generate_llvm_ir` without the file reads and writes: every
      `__FUNC_NAME__` is replaced by the name, then every `__RETURN_VAL__` in
      that result (including any inside the inserted name) by `str(return_val)`.
      No `__RETURN_VAL__` is left in the output. */
  function GenerateLlvmIr(funcName: string, returnVal: int, template: string): (ir: string)
    ensures !Contains(ir, ReturnValPlaceholder)
  {
    var named := ReplaceAll(template, FuncNamePlaceholder, funcName);
    DecimalTextAvoidsPlaceholder(returnVal);
    ReplaceAllFromRemovesPattern(named, ReturnValPlaceholder, IntToString(returnVal), 0);
    ReplaceAll(named, ReturnValPlaceholder, IntToString(returnVal))
  }

  /** The decimal text of a value shares no character with `__RETURN_VAL__`:
      it holds only digits and '-', the placeholder only '_' and capitals. */
  lemma DecimalTextAvoidsPlaceholder(v: int)
    ensures forall i, j :: 0 <= i < |IntToString(v)| && 0 <= j < |ReturnValPlaceholder| ==>
      IntToString(v)[i] != ReturnValPlaceholder[j]
  {
    var r := IntToString(v);
    IntToStringShape(v);
    var p := ReturnValPlaceholder;
    forall i, j | 0 <= i < |r| && 0 <= j < |p| ensures r[i] != p[j] {
      assert p[j] == '_' || 'A' <= p[j] <= 'Z';
    }
  }

  /** A template with neither placeholder is returned unchanged. */
  lemma GenerateWithoutPlaceholders(funcName: string, returnVal: int, template: string)
    requires !Contains(template, FuncNamePlaceholder) && !Contains(template, ReturnValPlaceholder)
    ensures GenerateLlvmIr(funcName, returnVal, template) == template
  {
    ReplaceAllAbsent(template, FuncNamePlaceholder, funcName);
    ReplaceAllAbsent(template, ReturnValPlaceholder, IntToString(returnVal));
  }

  /** The first pass changes the length by |name| - 13 per placeholder occurrence. */
  lemma FirstPassLength(funcName: string, template: string)
    ensures |ReplaceAll(template, FuncNamePlaceholder, funcName)| ==
      |template| + Count(template, FuncNamePlaceholder) * (|funcName| - 13)
  {
    ReplaceAllFromLength(template, FuncNamePlaceholder, funcName, 0);
  }

  /** The second pass scans the inserted name: a name that is itself the
      return placeholder is replaced by the value. */
  lemma GenerateRescansName()
    ensures GenerateLlvmIr(ReturnValPlaceholder, 7, FuncNamePlaceholder) == "7"
  {
    var fn, rv := FuncNamePlaceholder, ReturnValPlaceholder;
    assert fn[0..13] == fn;
    assert FindFrom(fn, fn, 0) == Some(0);
    assert fn[0..0] == [] && fn[13..] == [];
    assert ReplaceAll(fn, fn, rv) == rv;
    assert rv[0..14] == rv;
    assert FindFrom(rv, rv, 0) == Some(0);
    assert rv[0..0] == [] && rv[14..] == [];
    assert IntToString(7) == "7";
  }
}

=== FILE: decimal.dfy ===
/** Decimal digit strings: the text form of integers shared by the runtime's
    big-decimal magnitudes, `printf("%lld")`, Python's `str(int)` and the
    `atoll`/`sscanf` parsers. */
module Decimal {
  import opened Machine
  import opened Text

  predicate IsDigit(c: char) {
    '0' <= c <= '9'
  }

  predicate IsDigits(s: string) {
    forall i :: 0 <= i < |s| ==> IsDigit(s[i])
  }

  function DigitValue(c: char): (d: nat)
    requires IsDigit(c)
    ensures d < 10
  {
    c as int - '0' as int
  }

  function DigitChar(d: nat): (c: char)
    requires d < 10
    ensures IsDigit(c) && DigitValue(c) == d
  {
    (d + '0' as int) as char
  }

  function Pow10(n: nat): (r: nat)
    ensures r >= 1
  {
    if n == 0 then 1 else 10 * Pow10(n - 1)
  }

  /** The number a digit string denotes; the last character is the units digit.
      It always fits in as many digits as the string has. */
  function ValueOf(s: string): (v: nat)
    requires IsDigits(s)
    ensures v < Pow10(|s|)
  {
    if s == [] then 0 else 10 * ValueOf(s[..|s| - 1]) + DigitValue(s[|s| - 1])
  }

  /** At least one digit and no leading zero, except the number zero itself, "0". */
  predicate Canonical(s: string) {
    |s| > 0 && IsDigits(s) && (s[0] == '0' ==> |s| == 1)
  }

  /** The canonical decimal digits of `n`. */
  function NatToDigits(n: nat): (s: string)
    ensures Canonical(s) && ValueOf(s) == n
  {
    if n < 10 then [DigitChar(n)]
    else
      var s := NatToDigits(n / 10) + [DigitChar(n % 10)];
      assert s[..|s| - 1] == NatToDigits(n / 10);
      s
  }

  /** Appending a digit multiplies by ten and adds it. */
  lemma ValueSnoc(s: string, c: char)
    requires IsDigits(s) && IsDigit(c)
    ensures IsDigits(s + [c]) && ValueOf(s + [c]) == 10 * ValueOf(s) + DigitValue(c)
  {
    assert (s + [c])[..|s + [c]| - 1] == s;
  }

  /** Digit strings with a non-zero first digit are at least 10^(n-1). */
  lemma {:induction false} LeadingDigitBound(s: string)
    requires IsDigits(s) && |s| > 0 && s[0] != '0'
    ensures ValueOf(s) >= Pow10(|s| - 1)
    decreases |s|
  {
    if |s| > 1 {
      var init := s[..|s| - 1];
      assert init[0] == s[0];
      LeadingDigitBound(init);
    }
  }

  lemma {:induction false} Pow10Monotone(m: nat, n: nat)
    requires m <= n
    ensures Pow10(m) <= Pow10(n)
    decreases n
  {
    if m < n {
      Pow10Monotone(m, n - 1);
    }
  }

  /** A number below 10^k has at most k canonical digits. */
  lemma DigitsLengthBound(n: nat, k: nat)
    requires k >= 1 && n < Pow10(k)
    ensures |NatToDigits(n)| <= k
  {
    var s := NatToDigits(n);
    if |s| > k {
      LeadingDigitBound(s);
    }
  }

  /** The magnitude of an int64_t has at most 19 digits. */
  lemma Int64MagnitudeDigits(v: Int64)
    ensures |NatToDigits(Abs(v))| <= 19
  {
    assert Pow10(6) == 1_000_000;
    assert Pow10(12) == 1_000_000_000_000;
    assert Pow10(18) == 1_000_000_000_000_000_000;
    DigitsLengthBound(Abs(v), 19);
  }

  /** Printing the value of canonical digits gives back those digits: the
      canonical form is unique. */
  lemma {:induction false} DigitsRoundTrip(s: string)
    requires Canonical(s)
    ensures NatToDigits(ValueOf(s)) == s
    decreases |s|
  {
    if |s| > 1 {
      var init, last := s[..|s| - 1], s[|s| - 1];
      assert init[0] == s[0];
      LeadingDigitBound(init);
      DigitsRoundTrip(init);
      var n := ValueOf(s);
      SplitUnits(ValueOf(init), DigitValue(last), n);
      assert DigitChar(n % 10) == last;
      assert s == init + [last];
    }
  }

  lemma SplitUnits(v: nat, d: nat, n: nat)
    requires v >= 1 && d < 10 && n == 10 * v + d
    ensures n >= 10 && n / 10 == v && n % 10 == d
  {
  }

  /** Two canonical digit strings with the same value are the same string. */
  lemma CanonicalInjective(a: string, b: string)
    requires Canonical(a) && Canonical(b) && ValueOf(a) == ValueOf(b)
    ensures a == b
  {
    DigitsRoundTrip(a);
    DigitsRoundTrip(b);
  }

  /** The value of a concatenation: the left part is shifted by the right part's length. */
  lemma {:induction false} ValueConcat(a: string, b: string)
    requires IsDigits(a) && IsDigits(b)
    ensures IsDigits(a + b) && ValueOf(a + b) == ValueOf(a) * Pow10(|b|) + ValueOf(b)
    decreases |b|
  {
    if b != [] {
      var init, last := b[..|b| - 1], b[|b| - 1];
      ValueConcat(a, init);
      assert a + b == (a + init) + [last];
      ValueSnoc(a + init, last);
      assert ValueOf(b) == 10 * ValueOf(init) + DigitValue(last);
      ShiftStep(ValueOf(a), Pow10(|init|), ValueOf(init), DigitValue(last));
    } else {
      assert a + b == a;
    }
  }

  lemma ShiftStep(va: int, p: int, vi: int, d: int)
    ensures 10 * (va * p + vi) + d == va * (10 * p) + (10 * vi + d)
  {
  }

  /** A leading zero does not change the value. */
  lemma LeadingZero(s: string)
    requires IsDigits(s)
    ensures IsDigits("0" + s) && ValueOf("0" + s) == ValueOf(s)
  {
    ValueConcat("0", s);
    assert ValueOf("0") == 0 by { assert "0"[..0] == []; }
  }

  /** Among digit strings of one length, strcmp's order is the numeric order. */
  lemma {:induction false} LexCompareIsNumericOrder(a: string, b: string)
    requires IsDigits(a) && IsDigits(b) && |a| == |b|
    ensures LexCompare(a, b) < 0 <==> ValueOf(a) < ValueOf(b)
    ensures LexCompare(a, b) > 0 <==> ValueOf(a) > ValueOf(b)
    decreases |a|
  {
    if a != [] {
      var n := |a| - 1;
      var a', b' := a[1..], b[1..];
      assert a == [a[0]] + a' && b == [b[0]] + b';
      ValueConcat([a[0]], a');
      ValueConcat([b[0]], b');
      assert ValueOf([a[0]]) == DigitValue(a[0]) by { assert [a[0]][..0] == []; }
      assert ValueOf([b[0]]) == DigitValue(b[0]) by { assert [b[0]][..0] == []; }
      var p := Pow10(n);
      if a[0] == b[0] {
        LexCompareIsNumericOrder(a', b');
      } else if a[0] < b[0] {
        HeadDominates(DigitValue(a[0]), DigitValue(b[0]), ValueOf(a'), ValueOf(b'), p);
      } else {
        HeadDominates(DigitValue(b[0]), DigitValue(a[0]), ValueOf(b'), ValueOf(a'), p);
      }
    }
  }

  /** Among canonical digit strings a longer one denotes a larger number. */
  lemma CanonicalLengthOrder(a: string, b: string)
    requires Canonical(a) && Canonical(b) && |a| < |b|
    ensures ValueOf(a) < ValueOf(b)
  {
    LeadingDigitBound(b);
    Pow10Monotone(|a|, |b| - 1);
  }

  /** A smaller leading digit outweighs any tail. */
  lemma HeadDominates(da: nat, db: nat, x: nat, y: nat, p: nat)
    requires da < db && x < p
    ensures da * p + x < db * p + y
  {
    var k: int := db - da - 1;
    assert db * p == da * p + p + k * p;
    assert k * p >= 0;
  }

  // ---------------------------------------------------------------------------
  // Signed decimal text
  // ---------------------------------------------------------------------------

  /** `printf("%lld", v)` and Python's `str(v)`: an optional '-' and the
      canonical digits of the magnitude. */
  function IntToString(v: int): (s: string)
    ensures |s| > 0
  {
    (if v < 0 then "-" else "") + NatToDigits(Abs(v))
  }

  /** The rendering consists of digits after at most one leading '-'. */
  lemma IntToStringShape(v: int)
    ensures var s := IntToString(v);
      (v < 0 <==> s[0] == '-') &&
      (forall i :: 0 <= i < |s| ==> IsDigit(s[i]) || (i == 0 && s[i] == '-'))
  {
  }

  /** The characters C's `isspace` accepts. */
  predicate IsSpace(c: char) {
    c == ' ' || c == '\t' || c == '\n' || c as int == 11 || c as int == 12 || c == '\r'
  }

  /** The first index at or after `i` that is not white space. */
  function SkipSpaces(s: string, i: nat): (j: nat)
    requires i <= |s|
    ensures i <= j <= |s| && (j < |s| ==> !IsSpace(s[j]))
    ensures forall k :: i <= k < j ==> IsSpace(s[k])
    decreases |s| - i
  {
    if i < |s| && IsSpace(s[i]) then SkipSpaces(s, i + 1) else i
  }

  /** The end of the maximal run of digits starting at `i`. */
  function DigitRunEnd(s: string, i: nat): (j: nat)
    requires i <= |s|
    ensures i <= j <= |s| && IsDigits(s[i..j]) && (j < |s| ==> !IsDigit(s[j]))
    decreases |s| - i
  {
    if i < |s| && IsDigit(s[i]) then
      var j := DigitRunEnd(s, i + 1);
      assert s[i..j] == [s[i]] + s[i + 1..j];
      j
    else i
  }

  /** The value that the C library's `atoll`, `atoi` and `sscanf("%lld")`
      read from the front of `s`: white space, an optional sign, the longest
      digit run; no digits gives 0; a value beyond the int64_t range saturates
      at the nearest bound, as glibc's `strtoll` does. */
  function ParseInt64(s: string): (v: Int64) {
    var i := SkipSpaces(s, 0);
    var neg := i < |s| && s[i] == '-';
    var start := if i < |s| && (s[i] == '-' || s[i] == '+') then i + 1 else i;
    var end := DigitRunEnd(s, start);
    var m: int := ValueOf(s[start..end]);
    if neg then (if -m < INT64_MIN then INT64_MIN else -m)
    else (if m > INT64_MAX then INT64_MAX else m)
  }

  /** Reading back the decimal rendering of an int64_t gives the same value. */
  lemma ParseIntToString(v: Int64)
    ensures ParseInt64(IntToString(v)) == v
  {
    var s := IntToString(v);
    var digits := NatToDigits(Abs(v));
    assert !IsSpace(s[0]);
    assert SkipSpaces(s, 0) == 0;
    var start := if v < 0 then 1 else 0;
    assert s[start..] == digits;
    assert DigitRunEnd(s, start) == |s|;
    assert s[start..|s|] == digits;
  }
}

=== FILE: machine.dfy ===
/** Machine integers of the C runtime: the int64_t range, two's-complement
    wrap-around, and C's division, which truncates toward zero. */
module Machine {

  const INT64_MIN: int := -0x8000_0000_0000_0000
  const INT64_MAX: int := 0x7FFF_FFFF_FFFF_FFFF
  const TWO_64: int := 0x1_0000_0000_0000_0000

  predicate InRange(x: int) {
    INT64_MIN <= x <= INT64_MAX
  }

  type Int64 = x: int | INT64_MIN <= x <= INT64_MAX

  /** The int64_t that a mathematical integer wraps to (what the hardware computes). */
  function Wrap(x: int): (r: Int64)
    ensures (r - x) % TWO_64 == 0
    ensures InRange(x) ==> r == x
  {
    var m := x % TWO_64;
    if m > INT64_MAX then m - TWO_64 else m
  }

  function Abs(x: int): nat {
    if x < 0 then -x else x
  }

  /** C's `a / b`: the quotient truncated toward zero. */
  function CDiv(a: int, b: int): (q: int)
    requires b != 0
  {
    var m := Abs(a) / Abs(b);
    if (a < 0) != (b < 0) then -m else m
  }

  /** The defining property of truncating division: |a - q*b| < |b|, with the
      remainder taking the sign of the dividend. */
  lemma CDivBounds(a: int, b: int)
    requires b != 0
    ensures var r := a - CDiv(a, b) * b;
      Abs(r) < Abs(b) && (r == 0 || (r < 0) == (a < 0))
  {
    var aa: int, bb: int := Abs(a), Abs(b);
    var m, rem := aa / bb, aa % bb;
    var p := m * bb;
    assert aa == p + rem && 0 <= rem < bb;
    var q := CDiv(a, b);
    NegatedFactors(m, bb);
    assert q * b == (if a < 0 then -p else p) by {
      if b < 0 { assert b == -bb; } else { assert b == bb; }
    }
  }

  /** Sign rules for a product, kept apart so the proofs using them stay linear. */
  lemma NegatedFactors(x: int, y: int)
    ensures (-x) * y == -(x * y) && x * (-y) == -(x * y) && (-x) * (-y) == x * y
  {
  }

  /** Truncating division never increases the magnitude. */
  lemma CDivShrinks(a: int, b: int)
    requires b != 0
    ensures Abs(CDiv(a, b)) <= Abs(a)
  {
    var aa: int, bb: int := Abs(a), Abs(b);
    var m := aa / bb;
    assert m * bb <= aa by {
      assert aa == m * bb + aa % bb;
    }
    NonnegativeFactor(m, bb - 1);
    assert m * bb == m + m * (bb - 1);
  }

  lemma NonnegativeFactor(x: nat, y: nat)
    ensures x * y >= 0
  {
  }
}

=== FILE: mlp_array.dfy ===
/** The fixed-size numeric arrays of runtime/stdlib/mlp_array.c: a
    `MelpList` of `int64_t` elements (element size 8) filled with zeros at
    creation, with NULL-tolerant get and set. */
module MlpArray {
  import opened Wrappers
  import opened Machine
  import opened MlpList

  /** `sizeof(int64_t)`. */
  const Int64Size: nat := 8

  /** `mlp_array_create`: a list of `size` zeros, built by appending one
      zero at a time. */
  method Create(size: nat) returns (arr: MelpList)
    ensures fresh(arr) && arr.Valid() && arr.elementSize == Int64Size
    ensures arr.Contents() == seq(size, _ => 0)
  {
    arr := new MelpList(Int64Size);
    for i := 0 to size
      invariant fresh(arr) && fresh(arr.elements) && arr.Valid() && arr.elementSize == Int64Size
      invariant arr.Contents() == seq(i, _ => 0)
    {
      var _ := arr.Append(Some(0));
    }
  }

  /** `mlp_array_get`: 0 for a NULL array; otherwise `melp_list_get`, whose
      bounds failure ends the process before the "out of bounds gives 0"
      branch is reached. */
  function Get(arr: MelpList?, index: nat): (r: Result<int>)
    reads arr, if arr != null then {arr.elements} else {}
    requires arr != null ==> arr.Valid()
    ensures arr == null ==> r == Ok(0)
    ensures arr != null ==> (r.Fatal? <==> index >= |arr.Contents()|)
    ensures arr != null && r.Ok? ==> r.value == arr.Contents()[index]
  {
    if arr == null then Ok(0) else arr.Get(index)
  }

  /** `mlp_array_set`: -1 for a NULL array or an index at or past the end,
      with nothing changed; otherwise element `index` reads back as `value`
      and every other element is as before. */
  method Set(arr: MelpList?, index: nat, value: Int64) returns (status: int)
    requires arr != null ==> arr.Valid()
    modifies if arr != null then {arr.elements} else {}
    ensures arr != null ==> arr.Valid() && |arr.Contents()| == old(|arr.Contents()|)
    ensures status == 0 <==> arr != null && index < old(|arr.Contents()|)
    ensures status == 0 || status == -1
    ensures status == 0 ==> Get(arr, index) == Ok(value as int)
    ensures arr != null ==>
      forall j :: 0 <= j < |arr.Contents()| && (status != 0 || j != index) ==>
        Get(arr, j) == Ok(old(arr.Contents())[j])
  {
    if arr == null {
      return -1;
    }
    status := arr.Set(index, Some(value as int));
  }
}

=== FILE: mlp_list.dfy ===
/** The growable list of runtime/stdlib/mlp_list.c.  A `MelpList` owns an
    array of element slots of which the first `length` are in use; the
    array is reallocated (doubled, or enlarged by `reserve`) when it runs
    out of room.  Each slot of the C list points at a private copy of the
    element's bytes; the model stores the element value itself. */
module MlpList {
  import opened Wrappers

  const InitialCapacity: nat := 4
  const GrowthFactor: nat := 2

  /** The sequence read back to front. */
  function Reversed(s: seq<int>): (r: seq<int>)
    ensures |r| == |s|
    ensures forall i :: 0 <= i < |s| ==> r[i] == s[|s| - 1 - i]
  {
    if s == [] then [] else Reversed(s[1..]) + [s[0]]
  }

  /** Reversing twice gives back the original order. */
  lemma ReversedInvolution(s: seq<int>)
    ensures Reversed(Reversed(s)) == s
  {
    var r := Reversed(Reversed(s));
    assert forall i :: 0 <= i < |s| ==> r[i] == s[i];
  }

  /** Reversing a list with an element in front gives the reversed list
      with that element at the back: prepend and append mirror each other. */
  lemma ReversedPrepend(v: int, s: seq<int>)
    ensures Reversed([v] + s) == Reversed(s) + [v]
  {
    var a, b := Reversed([v] + s), Reversed(s) + [v];
    assert forall i :: 0 <= i < |a| ==> a[i] == b[i];
  }

  class MelpList {
    var elements: array<int>
    var length: nat
    var capacity: nat
    const elementSize: nat

    /** The slot array has `capacity` slots, at least one, and the used
        prefix fits in it. */
    predicate Valid()
      reads this
    {
      elements.Length == capacity && 1 <= capacity && length <= capacity && elementSize > 0
    }

    /** The elements in list order. */
    function Contents(): seq<int>
      reads this, elements
      requires Valid()
    {
      elements[..length]
    }

    /** `melp_list_create` for a non-zero element size: no elements, four slots. */
    constructor (elementSize: nat)
      requires elementSize > 0
      ensures Valid() && fresh(elements)
      ensures Contents() == [] && capacity == InitialCapacity && this.elementSize == elementSize
    {
      elements := new int[InitialCapacity];
      length := 0;
      capacity := InitialCapacity;
      this.elementSize := elementSize;
    }

    /** `melp_list_get`: the element at `index`; an index at or past the end
        is the fatal "List index out of bounds" runtime error. */
    function Get(index: nat): (r: Result<int>)
      reads this, elements
      requires Valid()
      ensures r.Fatal? <==> index >= |Contents()|
      ensures r.Ok? ==> r.value == Contents()[index]
    {
      if index >= length then Fatal("List index out of bounds") else Ok(elements[index])
    }

    /** `melp_list_set`: an index at or past the end, or a NULL element,
        gives -1 and no change; otherwise only slot `index` changes. */
    method Set(index: nat, element: Option<int>) returns (status: int)
      requires Valid()
      modifies elements
      ensures Valid()
      ensures status == 0 <==> index < old(length) && element.Some?
      ensures status == 0 || status == -1
      ensures status == 0 ==> Contents() == old(Contents())[index := element.value]
      ensures status == -1 ==> Contents() == old(Contents())
    {
      if index >= length || element.None? {
        return -1;
      }
      elements[index] := element.value;
      return 0;
    }

    /** The `realloc` behind `melp_list_grow` and `melp_list_reserve`: a
        larger slot array holding the same elements. */
    method Reallocate(newCapacity: nat)
      requires Valid() && newCapacity >= capacity
      modifies this
      ensures Valid() && fresh(elements)
      ensures capacity == newCapacity && length == old(length)
      ensures Contents() == old(Contents())
    {
      var slots := new int[newCapacity];
      for i := 0 to capacity
        modifies slots
        invariant forall k :: 0 <= k < i ==> slots[k] == elements[k]
      {
        slots[i] := elements[i];
      }
      assert slots[..length] == elements[..length];
      elements := slots;
      capacity := newCapacity;
    }

    /** `melp_list_grow`: doubles the capacity and keeps the elements. */
    method Grow()
      requires Valid()
      modifies this
      ensures Valid() && fresh(elements)
      ensures capacity == GrowthFactor * old(capacity) && capacity > old(length)
      ensures length == old(length) && Contents() == old(Contents())
    {
      Reallocate(GrowthFactor * capacity);
    }

    /** `melp_list_append`: a NULL element gives -1 and no change; otherwise
        the capacity doubles first when every slot is in use, and the element
        lands after the existing ones. */
    method Append(element: Option<int>) returns (status: int)
      requires Valid()
      modifies this, elements
      ensures Valid()
      ensures status == (if element.Some? then 0 else -1)
      ensures element.Some? ==> Contents() == old(Contents()) + [element.value]
      ensures element.None? ==> Contents() == old(Contents())
      ensures capacity ==
        if element.Some? && old(length) >= old(capacity) then GrowthFactor * old(capacity) else old(capacity)
      ensures elements == old(elements) || fresh(elements)
    {
      if element.None? {
        return -1;
      }
      if length >= capacity {
        Grow();
      }
      elements[length] := element.value;
      length := length + 1;
      return 0;
    }

    /** `melp_list_prepend`: a NULL element gives -1 and no change;
        otherwise, after growing when full, every element moves one slot to
        the right and the new one takes slot 0. */
    method Prepend(element: Option<int>) returns (status: int)
      requires Valid()
      modifies this, elements
      ensures Valid()
      ensures status == (if element.Some? then 0 else -1)
      ensures element.Some? ==> Contents() == [element.value] + old(Contents())
      ensures element.None? ==> Contents() == old(Contents())
      ensures capacity ==
        if element.Some? && old(length) >= old(capacity) then GrowthFactor * old(capacity) else old(capacity)
      ensures elements == old(elements) || fresh(elements)
    {
      if element.None? {
        return -1;
      }
      if length >= capacity {
        Grow();
      }
      ghost var s := Contents();
      ShiftRight(elements, length);
      elements[0] := element.value;
      length := length + 1;
      assert Contents() == [element.value] + s;
      return 0;
    }

    /** `melp_list_remove`: an index at or past the end gives -1 and no
        change; otherwise the later elements move one slot to the left. */
    method Remove(index: nat) returns (status: int)
      requires Valid()
      modifies this, elements
      ensures Valid() && capacity == old(capacity) && elements == old(elements)
      ensures status == (if index < old(length) then 0 else -1)
      ensures status == 0 ==> Contents() == old(Contents())[..index] + old(Contents())[index + 1..]
      ensures status == -1 ==> Contents() == old(Contents())
    {
      if index >= length {
        return -1;
      }
      ghost var s := Contents();
      var i := index;
      while i < length - 1
        modifies elements
        invariant index <= i <= length - 1
        invariant forall k :: 0 <= k < index ==> elements[k] == s[k]
        invariant forall k :: index <= k < i ==> elements[k] == s[k + 1]
        invariant forall k :: i <= k < length ==> elements[k] == s[k]
      {
        elements[i] := elements[i + 1];
        i := i + 1;
      }
      length := length - 1;
      assert Contents() == s[..index] + s[index + 1..];
      return 0;
    }

    /** `melp_list_clear`: no elements left; the slots stay allocated. */
    method Clear()
      requires Valid()
      modifies this
      ensures Valid() && Contents() == []
      ensures capacity == old(capacity) && elements == old(elements)
    {
      length := 0;
    }

    /** `melp_list_reserve`: the capacity becomes the larger of the old one
        and the requested one; the elements are untouched. */
    method Reserve(newCapacity: nat) returns (status: int)
      requires Valid()
      modifies this
      ensures Valid() && status == 0
      ensures capacity == if newCapacity > old(capacity) then newCapacity else old(capacity)
      ensures length == old(length) && Contents() == old(Contents())
      ensures newCapacity <= old(capacity) ==> elements == old(elements)
      ensures newCapacity > old(capacity) ==> fresh(elements)
    {
      if newCapacity <= capacity {
        return 0;
      }
      Reallocate(newCapacity);
      return 0;
    }

    /** `melp_list_clone`: a new list with the same element size, enough
        slots reserved up front, and the same elements appended one by one. */
    method Clone() returns (r: MelpList)
      requires Valid()
      ensures fresh(r) && fresh(r.elements) && r.Valid()
      ensures r.Contents() == Contents() && r.elementSize == elementSize
      ensures r.capacity == if length > InitialCapacity then length else InitialCapacity
    {
      r := new MelpList(elementSize);
      var _ := r.Reserve(length);
      for i := 0 to length
        invariant fresh(r) && fresh(r.elements) && r.Valid()
        invariant r.capacity == if length > InitialCapacity then length else InitialCapacity
        invariant r.Contents() == elements[..i]
      {
        assert elements[..i + 1] == elements[..i] + [elements[i]];
        var _ := r.Append(Some(elements[i]));
      }
      assert elements[..length] == Contents();
    }

    /** `melp_list_reverse`: swaps from both ends inwards, so element i ends
        up at length-1-i. */
    method Reverse()
      requires Valid()
      modifies elements
      ensures Valid() && Contents() == Reversed(old(Contents()))
    {
      ReversePrefix(elements, length);
    }
  }

  /** The loop of `melp_list_prepend`: the first `n` slots move one slot up,
      from the back. */
  method ShiftRight(a: array<int>, n: nat)
    requires n < a.Length
    modifies a
    ensures a[1..n + 1] == old(a[..n])
  {
    ghost var s := a[..n];
    var i := n;
    while i > 0
      invariant 0 <= i <= n
      invariant forall k :: 0 <= k < i ==> a[k] == s[k]
      invariant forall k :: i < k <= n ==> a[k] == s[k - 1]
      decreases i
    {
      a[i] := a[i - 1];
      i := i - 1;
    }
    assert forall k :: 0 <= k < n ==> a[1..n + 1][k] == s[k];
  }

  /** The loop of `melp_list_reverse`: slots swapped pairwise from both
      ends of the first `n` until the indices meet. */
  method ReversePrefix(a: array<int>, n: nat)
    requires n <= a.Length
    modifies a
    ensures a[..n] == Reversed(old(a[..n]))
  {
    if n <= 1 {
      assert a[..n] == Reversed(a[..n]);
      return;
    }
    ghost var s := a[..n];
    var left, right := 0, n - 1;
    while left < right
      invariant left + right == n - 1 && left <= right + 1
      invariant forall k :: 0 <= k < left ==> a[k] == s[n - 1 - k]
      invariant forall k :: right < k < n ==> a[k] == s[n - 1 - k]
      invariant forall k :: left <= k <= right ==> a[k] == s[k]
    {
      a[left], a[right] := a[right], a[left];
      left, right := left + 1, right - 1;
    }
    assert forall k :: 0 <= k < n ==> a[k] == Reversed(s)[k];
  }

  /** `melp_list_create`: NULL for a zero element size, otherwise an empty
      list with four slots. */
  method Create(elementSize: nat) returns (l: MelpList?)
    ensures l == null <==> elementSize == 0
    ensures l != null ==> fresh(l) && l.Valid() && l.Contents() == [] && l.capacity == InitialCapacity
  {
    if elementSize == 0 {
      return null;
    }
    l := new MelpList(elementSize);
  }

  /** `melp_list_length`: the number of elements; 0 for NULL. */
  function Length(l: MelpList?): (n: nat)
    reads l, if l != null then {l.elements} else {}
    requires l != null ==> l.Valid()
    ensures n == if l == null then 0 else |l.Contents()|
  {
    if l == null then 0 else l.length
  }

  /** `melp_list_is_empty`: true for NULL or a list without elements. */
  function IsEmpty(l: MelpList?): (r: bool)
    reads l, if l != null then {l.elements} else {}
    requires l != null ==> l.Valid()
    ensures r <==> l == null || l.Contents() == []
  {
    l == null || l.length == 0
  }

  /** `melp_list_capacity`: the number of slots; 0 for NULL.  Never fewer
      than the elements. */
  function Capacity(l: MelpList?): (c: nat)
    reads l
    requires l != null ==> l.Valid()
    ensures l != null ==> c >= 1 && c >= l.length
    ensures l == null ==> c == 0
  {
    if l == null then 0 else l.capacity
  }
}

=== FILE: mlp_map.dfy ===
/** The chained hash map of runtime/stdlib/mlp_map.c: string keys hashed
    with 64-bit FNV-1a (Fowler-Noll-Vo, IETF draft-eastlake-fnv, section 2)
    into an array of buckets, each bucket a chain of key/value nodes with
    the most recently inserted node first.  A chain is modelled as the
    sequence of its nodes from the head. */
module MlpMap {
  import opened Wrappers

  const InitialCapacity: nat := 16
  const FnvOffsetBasis: bv64 := 14695981039346656037
  const FnvPrime: bv64 := 1099511628211

  // ---------------------------------------------------------------------------
  // FNV-1a
  // ---------------------------------------------------------------------------

  /** `(uint64_t)(unsigned char)c`: the low byte of the character. */
  function Byte(c: char): bv64 {
    ((c as int) % 256) as bv64
  }

  /** One FNV-1a round: xor the byte in, then multiply by the prime modulo 2^64. */
  function FnvStep(h: bv64, c: char): bv64 {
    (h ^ Byte(c)) * FnvPrime
  }

  /** The rounds applied to `s` from the front, starting at `h`. */
  function HashFrom(h: bv64, s: string): bv64
    decreases |s|
  {
    if s == [] then h else HashFrom(FnvStep(h, s[0]), s[1..])
  }

  /** The FNV-1a hash of a key. */
  function HashOf(key: string): bv64 {
    HashFrom(FnvOffsetBasis, key)
  }

  /** Hashing one more character is one more round on the hash so far. */
  lemma {:induction false} HashFromSnoc(h: bv64, s: string, c: char)
    ensures HashFrom(h, s + [c]) == FnvStep(HashFrom(h, s), c)
    decreases |s|
  {
    if s == [] {
      assert [c][1..] == [];
    } else {
      assert (s + [c])[1..] == s[1..] + [c];
      HashFromSnoc(FnvStep(h, s[0]), s[1..], c);
    }
  }

  /** The hash can be computed piecewise: hashing `a + b` continues from the
      state reached after `a`. */
  lemma {:induction false} HashFromConcat(h: bv64, a: string, b: string)
    ensures HashFrom(h, a + b) == HashFrom(HashFrom(h, a), b)
    decreases |a|
  {
    if a != [] {
      assert (a + b)[1..] == a[1..] + b;
      HashFromConcat(FnvStep(h, a[0]), a[1..], b);
    } else {
      assert a + b == b;
    }
  }

  /** `melp_map_hash`: 0 for NULL, otherwise the FNV-1a loop over the bytes;
      the empty key hashes to the offset basis. */
  method Hash(key: Option<string>) returns (h: bv64)
    ensures key.None? ==> h == 0
    ensures key.Some? ==> h == HashOf(key.value)
    ensures key == Some("") ==> h == FnvOffsetBasis
  {
    if key.None? {
      return 0;
    }
    var s := key.value;
    h := FnvOffsetBasis;
    for i := 0 to |s|
      invariant h == HashFrom(FnvOffsetBasis, s[..i])
    {
      HashFromSnoc(FnvOffsetBasis, s[..i], s[i]);
      assert s[..i + 1] == s[..i] + [s[i]];
      h := FnvStep(h, s[i]);
    }
    assert s[..|s|] == s;
  }

  // ---------------------------------------------------------------------------
  // Chains and bucket arrays as values
  // ---------------------------------------------------------------------------

  /** A node's key and value (the node owns copies of both). */
  datatype Entry = Entry(key: string, value: int)

  /** The nodes of one bucket, head first. */
  type Chain = seq<Entry>

  /** `hash % capacity`: the bucket a key belongs in. */
  function BucketOf(key: string, capacity: nat): (b: nat)
    requires capacity > 0
    ensures b < capacity
  {
    BucketIndex(HashOf(key), capacity)
  }

  /** The bucket index of a hash value. */
  function BucketIndex(hash: bv64, capacity: nat): (b: nat)
    requires capacity > 0
    ensures b < capacity
  {
    (hash as int) % capacity
  }

  /** The position of the first node with `key`, or the chain's length when
      there is none: where the `strcmp` walk stops. */
  function KeyIndex(c: Chain, key: string): (i: nat)
    ensures i <= |c|
    ensures forall k :: 0 <= k < i ==> c[k].key != key
    ensures i < |c| ==> c[i].key == key
  {
    if c == [] then 0
    else if c[0].key == key then 0
    else 1 + KeyIndex(c[1..], key)
  }

  /** Any position with the two properties of `KeyIndex` is `KeyIndex`. */
  lemma KeyIndexUnique(c: Chain, key: string, i: nat)
    requires i <= |c| && (forall k :: 0 <= k < i ==> c[k].key != key)
    requires i < |c| ==> c[i].key == key
    ensures i == KeyIndex(c, key)
  {
  }

  /** The value of the first node with `key` in the chain, if any. */
  function ChainFind(c: Chain, key: string): (r: Option<int>)
    ensures r.None? <==> forall k :: 0 <= k < |c| ==> c[k].key != key
    ensures r.Some? ==> Entry(key, r.value) in c
  {
    var i := KeyIndex(c, key);
    if i < |c| then Some(c[i].value) else None
  }

  /** Searching a concatenation finds the match in the left part first. */
  lemma ChainFindConcat(x: Chain, y: Chain, key: string)
    ensures ChainFind(x + y, key) ==
      if ChainFind(x, key).Some? then ChainFind(x, key) else ChainFind(y, key)
  {
    var i, j := KeyIndex(x, key), KeyIndex(y, key);
    if i < |x| {
      KeyIndexUnique(x + y, key, i);
    } else {
      KeyIndexUnique(x + y, key, |x| + j);
    }
  }

  /** No two nodes of the chain share a key. */
  predicate DistinctKeys(c: Chain) {
    forall i, j :: 0 <= i < j < |c| ==> c[i].key != c[j].key
  }

  /** Every node of the chain belongs in bucket `b`. */
  predicate InBucket(c: Chain, capacity: nat, b: nat)
    requires capacity > 0
  {
    forall k :: 0 <= k < |c| ==> BucketOf(c[k].key, capacity) == b
  }

  /** Every node sits in the bucket its key hashes to. */
  predicate Placed(bs: seq<Chain>, capacity: nat)
    requires capacity > 0
  {
    forall b :: 0 <= b < |bs| ==> InBucket(bs[b], capacity, b)
  }

  predicate ChainsDistinct(bs: seq<Chain>) {
    forall b :: 0 <= b < |bs| ==> DistinctKeys(bs[b])
  }

  /** All nodes, bucket by bucket, each chain from its head. */
  function Flatten(bs: seq<Chain>): Chain {
    if bs == [] then [] else Flatten(bs[..|bs| - 1]) + bs[|bs| - 1]
  }

  /** What `melp_map_get` finds in the bucket array `bs` of `capacity` buckets. */
  function LookupIn(bs: seq<Chain>, capacity: nat, key: string): Option<int>
    requires capacity > 0 && |bs| == capacity
  {
    ChainFind(bs[BucketOf(key, capacity)], key)
  }

  /** Replacing one chain changes the node count by the difference in length. */
  lemma {:induction false} FlattenUpdateLength(bs: seq<Chain>, b: nat, c: Chain)
    requires b < |bs|
    ensures |Flatten(bs[b := c])| == |Flatten(bs)| - |bs[b]| + |c|
    decreases |bs|
  {
    var n := |bs| - 1;
    var bs' := bs[b := c];
    assert bs'[..n] == if b < n then bs[..n][b := c] else bs[..n];
    if b < n {
      FlattenUpdateLength(bs[..n], b, c);
    }
  }

  /** In a placed array every node's bucket is one of its chains. */
  lemma {:induction false} FlattenBuckets(bs: seq<Chain>, capacity: nat)
    requires capacity > 0 && Placed(bs, capacity)
    ensures forall i :: 0 <= i < |Flatten(bs)| ==> BucketOf(Flatten(bs)[i].key, capacity) < |bs|
    decreases |bs|
  {
    if bs != [] {
      var n := |bs| - 1;
      FlattenBuckets(bs[..n], capacity);
      var f, last := Flatten(bs[..n]), bs[n];
      forall i | 0 <= i < |Flatten(bs)|
        ensures BucketOf(Flatten(bs)[i].key, capacity) < |bs|
      {
        if i >= |f| {
          assert Flatten(bs)[i] == last[i - |f|];
        }
      }
    }
  }

  /** Keys distinct within each chain and placed by hash are distinct across
      the whole array. */
  lemma {:induction false} FlattenDistinct(bs: seq<Chain>, capacity: nat)
    requires capacity > 0 && Placed(bs, capacity) && ChainsDistinct(bs)
    ensures DistinctKeys(Flatten(bs))
    decreases |bs|
  {
    if bs != [] {
      var n := |bs| - 1;
      FlattenDistinct(bs[..n], capacity);
      FlattenBuckets(bs[..n], capacity);
      var f, last := Flatten(bs[..n]), bs[n];
      assert DistinctKeys(last);
      forall i, j | 0 <= i < j < |f + last|
        ensures (f + last)[i].key != (f + last)[j].key
      {
        if i < |f| && j >= |f| {
          assert BucketOf(last[j - |f|].key, capacity) == n;
        }
      }
    }
  }

  /** Searching all nodes in bucket order finds what the key's own bucket holds. */
  lemma {:induction false} FlattenFind(bs: seq<Chain>, capacity: nat, key: string)
    requires capacity > 0 && |bs| <= capacity && Placed(bs, capacity)
    ensures ChainFind(Flatten(bs), key) ==
      if BucketOf(key, capacity) < |bs| then ChainFind(bs[BucketOf(key, capacity)], key) else None
    decreases |bs|
  {
    if bs != [] {
      var n := |bs| - 1;
      var b := BucketOf(key, capacity);
      FlattenFind(bs[..n], capacity, key);
      ChainFindConcat(Flatten(bs[..n]), bs[n], key);
      if b != n {
        assert forall k :: 0 <= k < |bs[n]| ==> BucketOf(bs[n][k].key, capacity) == n;
        assert ChainFind(bs[n], key).None?;
      }
    }
  }

  /** The bucket array built by pushing the nodes of `es`, in order, onto the
      heads of `capacity` initially empty chains: the rehash of `resize`. */
  function Distribute(es: Chain, capacity: nat): (d: seq<Chain>)
    requires capacity > 0
    ensures |d| == capacity
  {
    if es == [] then seq(capacity, _ => [])
    else
      var d := Distribute(es[..|es| - 1], capacity);
      var e := es[|es| - 1];
      var b := BucketOf(e.key, capacity);
      d[b := [e] + d[b]]
  }

  /** Every chain of a rehashed array holds nodes of `es` only. */
  lemma {:induction false} DistributeMembers(es: Chain, capacity: nat)
    requires capacity > 0
    ensures forall b, k :: 0 <= b < capacity && 0 <= k < |Distribute(es, capacity)[b]| ==>
      Distribute(es, capacity)[b][k] in es
    decreases |es|
  {
    if es != [] {
      var init := es[..|es| - 1];
      DistributeMembers(init, capacity);
      assert forall x :: x in init ==> x in es;
    }
  }

  /** Rehashing puts every node in the bucket of its hash. */
  lemma {:induction false} DistributePlaced(es: Chain, capacity: nat)
    requires capacity > 0
    ensures Placed(Distribute(es, capacity), capacity)
    decreases |es|
  {
    if es != [] {
      DistributePlaced(es[..|es| - 1], capacity);
    }
  }

  /** Rehashing keeps every node: the new array holds as many as `es`. */
  lemma {:induction false} DistributeCount(es: Chain, capacity: nat)
    requires capacity > 0
    ensures |Flatten(Distribute(es, capacity))| == |es|
    decreases |es|
  {
    if es == [] {
      EmptyFlatten(capacity);
    } else {
      var init, e := es[..|es| - 1], es[|es| - 1];
      var d': seq<Chain> := Distribute(init, capacity);
      var b := BucketOf(e.key, capacity);
      DistributeCount(init, capacity);
      FlattenUpdateLength(d', b, [e] + d'[b]);
    }
  }

  /** Rehashing distinct keys leaves no chain with a repeated key. */
  lemma {:induction false} DistributeDistinct(es: Chain, capacity: nat)
    requires capacity > 0 && DistinctKeys(es)
    ensures ChainsDistinct(Distribute(es, capacity))
    decreases |es|
  {
    if es != [] {
      var init, e := es[..|es| - 1], es[|es| - 1];
      var d': seq<Chain> := Distribute(init, capacity);
      var b := BucketOf(e.key, capacity);
      DistributeDistinct(init, capacity);
      DistributeMembers(init, capacity);
      forall k | 0 <= k < |d'[b]|
        ensures d'[b][k].key != e.key
      {
        var x := d'[b][k];
        var i :| 0 <= i < |init| && init[i] == x;
        assert es[i] == x;
      }
      assert DistinctKeys([e] + d'[b]);
    }
  }

  /** An array of empty chains holds no nodes. */
  lemma {:induction false} EmptyFlatten(capacity: nat)
    ensures Flatten(seq(capacity, _ => [])) == []
    decreases capacity
  {
    if capacity > 0 {
      var bs: seq<Chain> := seq(capacity, _ => []);
      assert bs[..capacity - 1] == seq(capacity - 1, _ => []);
      EmptyFlatten(capacity - 1);
    }
  }

  /** After rehashing distinct keys, a key's new bucket yields what a search
      of the node sequence yields. */
  lemma {:induction false} DistributeFind(es: Chain, capacity: nat, key: string)
    requires capacity > 0 && DistinctKeys(es)
    ensures LookupIn(Distribute(es, capacity), capacity, key) == ChainFind(es, key)
    decreases |es|
  {
    if es != [] {
      var init, e := es[..|es| - 1], es[|es| - 1];
      assert es == init + [e];
      assert DistinctKeys(init) by {
        forall i, j | 0 <= i < j < |init| ensures init[i].key != init[j].key {
          assert init[i] == es[i] && init[j] == es[j];
        }
      }
      DistributeFind(init, capacity, key);
      DistributeFindStep(init, e, capacity, key);
    }
  }

  /** The step of `DistributeFind`: one more node, pushed onto its bucket. */
  lemma DistributeFindStep(init: Chain, e: Entry, capacity: nat, key: string)
    requires capacity > 0 && DistinctKeys(init + [e])
    requires LookupIn(Distribute(init, capacity), capacity, key) == ChainFind(init, key)
    ensures LookupIn(Distribute(init + [e], capacity), capacity, key) == ChainFind(init + [e], key)
  {
    ChainFindConcat(init, [e], key);
    DistributeSnoc(init, e, capacity);
    var d' := Distribute(init, capacity);
    var b := BucketOf(key, capacity);
    if BucketOf(e.key, capacity) != b {
      assert ChainFind([e], key).None?;
    } else {
      ChainFindConcat([e], d'[b], key);
      if e.key == key {
        NewKeyAbsent(init, e);
      } else {
        assert ChainFind([e], key).None?;
      }
    }
  }

  /** With distinct keys, the last node's key is not found before it. */
  lemma NewKeyAbsent(init: Chain, e: Entry)
    requires DistinctKeys(init + [e])
    ensures ChainFind(init, e.key).None?
  {
    var es := init + [e];
    forall k | 0 <= k < |init| ensures init[k].key != e.key {
      assert es[k] == init[k] && es[|init|] == e;
    }
  }

  /** Rehashing every node of a well-formed array into any number of buckets
      keeps every key's lookup. */
  lemma Rehash(bs: seq<Chain>, capacity: nat, newCapacity: nat, key: string)
    requires capacity > 0 && |bs| == capacity && Placed(bs, capacity) && ChainsDistinct(bs)
    requires newCapacity > 0
    ensures LookupIn(Distribute(Flatten(bs), newCapacity), newCapacity, key) == LookupIn(bs, capacity, key)
  {
    FlattenDistinct(bs, capacity);
    DistributeFind(Flatten(bs), newCapacity, key);
    FlattenFind(bs, capacity, key);
  }

  /** Pushing a node onto a chain: its key now finds its value, other keys
      find what they found before. */
  lemma ChainPush(e: Entry, c: Chain, key: string)
    ensures ChainFind([e] + c, key) == if key == e.key then Some(e.value) else ChainFind(c, key)
  {
    ChainFindConcat([e], c, key);
  }

  /** Overwriting the value of the first node with a key: that key finds the
      new value, other keys are unaffected. */
  lemma ChainReplace(c: Chain, j: nat, v: int, key: string)
    requires j < |c| && j == KeyIndex(c, c[j].key)
    ensures ChainFind(c[j := Entry(c[j].key, v)], key) == if key == c[j].key then Some(v) else ChainFind(c, key)
  {
    var c' := c[j := Entry(c[j].key, v)];
    KeyIndexUnique(c', key, KeyIndex(c, key));
  }

  /** Unlinking a node from a chain without repeated keys: its key is no
      longer found, other keys are unaffected. */
  lemma ChainDelete(c: Chain, j: nat, key: string)
    requires j < |c| && DistinctKeys(c)
    ensures ChainFind(c[..j] + c[j + 1..], key) == if key == c[j].key then None else ChainFind(c, key)
  {
    assert c == c[..j] + [c[j]] + c[j + 1..];
    ChainFindConcat(c[..j], c[j + 1..], key);
    ChainFindConcat(c[..j] + [c[j]], c[j + 1..], key);
    ChainFindConcat(c[..j], [c[j]], key);
    if key == c[j].key {
      assert forall i :: j < i < |c| ==> c[i].key != key;
    }
  }

  /** Unlinking a node keeps a chain placed and free of repeated keys. */
  lemma ChainDeleteKeeps(c: Chain, capacity: nat, b: nat, j: nat)
    requires capacity > 0 && j < |c| && InBucket(c, capacity, b) && DistinctKeys(c)
    ensures InBucket(c[..j] + c[j + 1..], capacity, b) && DistinctKeys(c[..j] + c[j + 1..])
  {
    var rest := c[..j] + c[j + 1..];
    assert forall k :: 0 <= k < |rest| ==> rest[k] == if k < j then c[k] else c[k + 1];
  }

  /** Pushing a node for a key of this bucket that the chain lacks keeps it
      placed and free of repeated keys. */
  lemma ChainPushKeeps(e: Entry, c: Chain, capacity: nat, b: nat)
    requires capacity > 0 && InBucket(c, capacity, b) && DistinctKeys(c)
    requires BucketOf(e.key, capacity) == b && ChainFind(c, e.key).None?
    ensures InBucket([e] + c, capacity, b) && DistinctKeys([e] + c)
  {
    PushInBucket(e, c, capacity, b);
    PushDistinct(e, c);
  }

  lemma PushInBucket(e: Entry, c: Chain, capacity: nat, b: nat)
    requires capacity > 0 && InBucket(c, capacity, b) && BucketOf(e.key, capacity) == b
    ensures InBucket([e] + c, capacity, b)
  {
    var pushed := [e] + c;
    forall k | 0 <= k < |pushed| ensures BucketOf(pushed[k].key, capacity) == b {
      if k > 0 {
        assert pushed[k] == c[k - 1];
      }
    }
  }

  lemma PushDistinct(e: Entry, c: Chain)
    requires DistinctKeys(c) && forall k :: 0 <= k < |c| ==> c[k].key != e.key
    ensures DistinctKeys([e] + c)
  {
    var pushed := [e] + c;
    forall i, j | 0 <= i < j < |pushed| ensures pushed[i].key != pushed[j].key {
      assert pushed[j] == c[j - 1];
      if i > 0 {
        assert pushed[i] == c[i - 1];
      }
    }
  }

  /** The chain `insert` leaves in the key's bucket: the first node with the
      key overwritten when there is one, a new head node otherwise.  It stays
      placed and free of repeated keys, grows by one exactly for a new key,
      and finds the new value for the key and the old ones for other keys. */
  lemma PutChain(chain: Chain, capacity: nat, index: nat, key: string, value: int, j: nat, updated: Chain)
    requires capacity > 0 && InBucket(chain, capacity, index) && DistinctKeys(chain)
    requires BucketOf(key, capacity) == index && j == KeyIndex(chain, key)
    requires updated == if j < |chain| then chain[j := Entry(key, value)] else [Entry(key, value)] + chain
    ensures InBucket(updated, capacity, index) && DistinctKeys(updated)
    ensures |updated| == |chain| + (if ChainFind(chain, key).None? then 1 else 0)
    ensures forall k :: ChainFind(updated, k) == if k == key then Some(value) else ChainFind(chain, k)
  {
    if j < |chain| {
      ChainReplaceKeeps(chain, capacity, index, j, value);
      forall k ensures ChainFind(updated, k) == if k == key then Some(value) else ChainFind(chain, k) {
        ChainReplace(chain, j, value, k);
      }
    } else {
      ChainPushKeeps(Entry(key, value), chain, capacity, index);
      forall k ensures ChainFind(updated, k) == if k == key then Some(value) else ChainFind(chain, k) {
        ChainPush(Entry(key, value), chain, k);
      }
    }
  }

  /** Overwriting a node's value keeps a chain placed and free of repeated keys. */
  lemma ChainReplaceKeeps(c: Chain, capacity: nat, b: nat, j: nat, v: int)
    requires capacity > 0 && j < |c| && InBucket(c, capacity, b) && DistinctKeys(c)
    ensures InBucket(c[j := Entry(c[j].key, v)], capacity, b) && DistinctKeys(c[j := Entry(c[j].key, v)])
  {
  }

  /** Replacing the chain at `index` by one whose nodes all belong there and
      repeat no key keeps the array well formed, changes the node count by
      the difference in length, and leaves every key of another bucket alone. */
  lemma UpdateChain(bs: seq<Chain>, capacity: nat, index: nat, c: Chain)
    requires capacity > 0 && |bs| == capacity && index < capacity
    requires Placed(bs, capacity) && ChainsDistinct(bs)
    requires InBucket(c, capacity, index) && DistinctKeys(c)
    ensures Placed(bs[index := c], capacity) && ChainsDistinct(bs[index := c])
    ensures |Flatten(bs[index := c])| == |Flatten(bs)| - |bs[index]| + |c|
    ensures forall key :: BucketOf(key, capacity) != index ==>
      LookupIn(bs[index := c], capacity, key) == LookupIn(bs, capacity, key)
  {
    FlattenUpdateLength(bs, index, c);
  }

  // ---------------------------------------------------------------------------
  // The map
  // ---------------------------------------------------------------------------

  class MelpMap {
    var buckets: array<Chain>
    var length: nat
    var capacity: nat
    const valueSize: nat

    /** Each node in the bucket of its hash, keys unique, `length` the node count. */
    predicate Valid()
      reads this, buckets
    {
      buckets.Length == capacity && capacity > 0 &&
      Placed(buckets[..], capacity) && ChainsDistinct(buckets[..]) &&
      length == |Flatten(buckets[..])|
    }

    /** The value stored under `key`, if any. */
    function Lookup(key: string): Option<int>
      reads this, buckets
      requires Valid()
    {
      LookupIn(buckets[..], capacity, key)
    }

    /** `melp_map_create`: sixteen empty buckets. */
    constructor (valueSize: nat)
      ensures Valid() && fresh(buckets)
      ensures capacity == InitialCapacity && length == 0 && this.valueSize == valueSize
      ensures forall key :: Lookup(key).None?
    {
      buckets := new Chain[InitialCapacity](_ => []);
      capacity := InitialCapacity;
      length := 0;
      this.valueSize := valueSize;
      new;
      assert buckets[..] == seq(InitialCapacity, _ => []);
      EmptyFlatten(InitialCapacity);
    }

    /** `melp_map_resize`: 0 and no change for a zero capacity; otherwise a
        fresh array of `newCapacity` buckets into which every node is moved,
        chain by chain, onto the head of its new bucket, and 1.  Every key
        keeps its value. */
    method Resize(newCapacity: nat) returns (status: int)
      requires Valid()
      modifies this
      ensures Valid() && length == old(length)
      ensures status == (if newCapacity == 0 then 0 else 1)
      ensures capacity == (if newCapacity == 0 then old(capacity) else newCapacity)
      ensures newCapacity == 0 ==> buckets == old(buckets)
      ensures newCapacity > 0 ==> fresh(buckets)
      ensures forall key :: Lookup(key) == old(Lookup(key))
    {
      if newCapacity == 0 {
        return 0;
      }
      ghost var old_ := buckets[..];
      var newBuckets := new Chain[newCapacity](_ => []);
      assert newBuckets[..] == Distribute(Flatten(old_[..0]), newCapacity);
      for i := 0 to capacity
        modifies newBuckets
        invariant newBuckets[..] == Distribute(Flatten(old_[..i]), newCapacity)
      {
        MoveChain(buckets[i], newBuckets, Flatten(old_[..i]));
        assert old_[..i + 1][..i] == old_[..i];
      }
      assert old_[..capacity] == old_;
      RehashValid(old_, capacity, newCapacity);
      buckets := newBuckets;
      capacity := newCapacity;
      return 1;
    }

    /** `melp_map_insert`: 0 and no change for a NULL key or value.
        Otherwise the buckets double first when the load exceeds 0.75
        (4 * length > 3 * capacity); an existing key has its value replaced
        in place, a new key becomes the head of its bucket; then 1. */
    method Insert(key: Option<string>, value: Option<int>) returns (status: int)
      requires Valid()
      modifies this, buckets
      ensures Valid()
      ensures status == (if key.Some? && value.Some? then 1 else 0)
      ensures capacity ==
        if status == 1 && 4 * old(length) > 3 * old(capacity) then 2 * old(capacity) else old(capacity)
      ensures status == 1 ==> Lookup(key.value) == Some(value.value)
      ensures status == 1 ==> length == old(length) + (if old(Lookup(key.value)).None? then 1 else 0)
      ensures status == 0 ==> length == old(length)
      ensures forall k :: (status == 0 || k != key.value) ==> Lookup(k) == old(Lookup(k))
    {
      if key.None? || value.None? {
        return 0;
      }
      if 4 * length > 3 * capacity {
        var _ := Resize(2 * capacity);
      }
      Put(key.value, value.value);
      return 1;
    }

    /** The second half of `melp_map_insert`, once the bucket array has room:
        overwrite the key's value in place, or push a new node onto the head
        of its bucket. */
    method Put(key: string, value: int)
      requires Valid()
      modifies this, buckets
      ensures Valid() && capacity == old(capacity)
      ensures Lookup(key) == Some(value)
      ensures length == old(length) + (if old(Lookup(key)).None? then 1 else 0)
      ensures forall k :: k != key ==> Lookup(k) == old(Lookup(k))
    {
      var hash := Hash(Some(key));
      var index := BucketIndex(hash, capacity);
      var chain := buckets[index];
      ghost var bs := buckets[..];
      var j := ScanChain(chain, key);
      assert InBucket(bs[index], capacity, index) && DistinctKeys(bs[index]);
      var updated: Chain;
      if j < |chain| {
        updated := chain[j := Entry(key, value)];
      } else {
        updated := [Entry(key, value)] + chain;
        length := length + 1;
      }
      PutChain(chain, capacity, index, key, value, j, updated);
      buckets[index] := updated;
      assert buckets[..] == bs[index := updated];
      UpdateChain(bs, capacity, index, updated);
    }

    /** `melp_map_remove`: for a NULL key or an absent key 0 and no change;
        otherwise the key's node is unlinked from its chain, the length drops
        by one, and 1.  Afterwards the key is absent and every other key
        keeps its value. */
    method Remove(key: Option<string>) returns (status: int)
      requires Valid()
      modifies this, buckets
      ensures Valid() && capacity == old(capacity)
      ensures status == (if key.Some? && old(Lookup(key.value)).Some? then 1 else 0)
      ensures length == old(length) - status
      ensures key.Some? ==> Lookup(key.value).None?
      ensures forall k :: (key.None? || k != key.value) ==> Lookup(k) == old(Lookup(k))
    {
      if key.None? {
        return 0;
      }
      var hash := Hash(key);
      var index := BucketIndex(hash, capacity);
      var chain := buckets[index];
      var j := ScanChain(chain, key.value);
      if j == |chain| {
        return 0;
      }
      ghost var bs := buckets[..];
      var rest := chain[..j] + chain[j + 1..];
      forall k ensures ChainFind(rest, k) == if k == key.value then None else ChainFind(chain, k) {
        ChainDelete(chain, j, k);
      }
      assert InBucket(bs[index], capacity, index) && DistinctKeys(bs[index]);
      ChainDeleteKeeps(chain, capacity, index, j);
      UpdateChain(bs, capacity, index, rest);
      buckets[index] := rest;
      length := length - 1;
      assert buckets[..] == bs[index := rest];
      return 1;
    }
  }

  /** The walk along a chain shared by `get`, `insert` and `remove`: it
      stops at the first node whose key compares equal, or at the end. */
  method ScanChain(chain: Chain, key: string) returns (j: nat)
    ensures j == KeyIndex(chain, key)
  {
    j := 0;
    while j < |chain| && chain[j].key != key
      invariant j <= |chain|
      invariant forall k :: 0 <= k < j ==> chain[k].key != key
    {
      j := j + 1;
    }
    KeyIndexUnique(chain, key, j);
  }

  /** The inner loop of `melp_map_resize`: each node of one old chain, from
      its head, is pushed onto the head of its bucket in the new array. */
  method MoveChain(chain: Chain, newBuckets: array<Chain>, ghost done: Chain)
    requires newBuckets.Length > 0 && newBuckets[..] == Distribute(done, newBuckets.Length)
    modifies newBuckets
    ensures newBuckets[..] == Distribute(done + chain, newBuckets.Length)
  {
    var j := 0;
    assert done + chain[..0] == done;
    while j < |chain|
      invariant j <= |chain|
      invariant newBuckets[..] == Distribute(done + chain[..j], newBuckets.Length)
    {
      var node := chain[j];
      var hash := Hash(Some(node.key));
      var index := BucketIndex(hash, newBuckets.Length);
      ghost var moved := done + chain[..j];
      ghost var before := newBuckets[..];
      DistributeSnoc(moved, node, newBuckets.Length);
      ExtendPrefix(done, chain, j);
      newBuckets[index] := [node] + newBuckets[index];
      assert newBuckets[..] == before[index := [node] + before[index]];
      j := j + 1;
    }
    assert chain[..j] == chain;
  }

  lemma ExtendPrefix<T>(a: seq<T>, c: seq<T>, j: nat)
    requires j < |c|
    ensures a + c[..j + 1] == (a + c[..j]) + [c[j]]
  {
    assert c[..j + 1] == c[..j] + [c[j]];
  }

  /** One more node pushed by the rehash lands on the head of its bucket. */
  lemma DistributeSnoc(moved: Chain, node: Entry, capacity: nat)
    requires capacity > 0
    ensures var d, b := Distribute(moved, capacity), BucketOf(node.key, capacity);
      Distribute(moved + [node], capacity) == d[b := [node] + d[b]]
  {
    var es := moved + [node];
    assert es[..|es| - 1] == moved && es[|es| - 1] == node;
  }

  /** The array `resize` builds from a well-formed one is well formed, holds
      as many nodes, and gives every key the same lookup. */
  lemma RehashValid(bs: seq<Chain>, capacity: nat, newCapacity: nat)
    requires capacity > 0 && |bs| == capacity && Placed(bs, capacity) && ChainsDistinct(bs)
    requires newCapacity > 0
    ensures var d := Distribute(Flatten(bs), newCapacity);
      Placed(d, newCapacity) && ChainsDistinct(d) && |Flatten(d)| == |Flatten(bs)| &&
      forall key :: LookupIn(d, newCapacity, key) == LookupIn(bs, capacity, key)
  {
    FlattenDistinct(bs, capacity);
    DistributePlaced(Flatten(bs), newCapacity);
    DistributeDistinct(Flatten(bs), newCapacity);
    DistributeCount(Flatten(bs), newCapacity);
    forall key
      ensures LookupIn(Distribute(Flatten(bs), newCapacity), newCapacity, key) == LookupIn(bs, capacity, key)
    {
      Rehash(bs, capacity, newCapacity, key);
    }
  }

  /** `melp_map_create`. */
  method Create(valueSize: nat) returns (m: MelpMap)
    ensures fresh(m) && m.Valid() && m.capacity == InitialCapacity && m.length == 0
    ensures forall key :: m.Lookup(key).None?
  {
    m := new MelpMap(valueSize);
  }

  /** `melp_map_get`: NULL for a NULL map or key; otherwise the walk along
      the key's bucket stops at the first node whose key matches. */
  method Get(m: MelpMap?, key: Option<string>) returns (r: Option<int>)
    requires m != null ==> m.Valid()
    ensures r == if m == null || key.None? then None else m.Lookup(key.value)
  {
    if m == null || key.None? {
      return None;
    }
    var hash := Hash(key);
    var index := BucketIndex(hash, m.capacity);
    var chain := m.buckets[index];
    var j := ScanChain(chain, key.value);
    return if j < |chain| then Some(chain[j].value) else None;
  }

  /** `melp_map_has_key`: whether `get` finds a value. */
  method HasKey(m: MelpMap?, key: Option<string>) returns (r: bool)
    requires m != null ==> m.Valid()
    ensures r <==> m != null && key.Some? && m.Lookup(key.value).Some?
  {
    var v := Get(m, key);
    return v.Some?;
  }

  /** `melp_map_length`: the number of keys; 0 for NULL. */
  function Length(m: MelpMap?): (n: nat)
    reads m, if m != null then {m.buckets} else {}
    requires m != null ==> m.Valid()
    ensures m != null ==> n == |Flatten(m.buckets[..])|
    ensures m == null ==> n == 0
  {
    if m == null then 0 else m.length
  }
}

=== FILE: mlp_math.dfy ===
/** The int64_t helpers of runtime/stdlib/mlp_math.c. */
module MlpMath {
  import Machine

  /** `min`: the smaller argument. */
  function Min(a: Machine.Int64, b: Machine.Int64): (r: Machine.Int64)
    ensures r <= a && r <= b
    ensures r == a || r == b
  {
    if a < b then a else b
  }

  /** `max`: the larger argument. */
  function Max(a: Machine.Int64, b: Machine.Int64): (r: Machine.Int64)
    ensures r >= a && r >= b
    ensures r == a || r == b
  {
    if a > b then a else b
  }

  /** `mlp_abs`: negating INT64_MIN overflows, which C leaves undefined, so
      callers must not pass it; every other value gets its magnitude. */
  function Abs(x: Machine.Int64): (r: Machine.Int64)
    requires x > Machine.INT64_MIN
    ensures r >= 0 && (r == x || r == -x)
    ensures r == Machine.Abs(x)
  {
    if x < 0 then -x else x
  }

  /** Min and max split a pair: together they are the two arguments. */
  lemma MinMaxPair(a: Machine.Int64, b: Machine.Int64)
    ensures Min(a, b) + Max(a, b) == a + b
    ensures Min(a, b) == Min(b, a) && Max(a, b) == Max(b, a)
    ensures Min(a, b) == a <==> a <= b
  {
  }

  /** The magnitude is the larger of a value and its negation. */
  lemma AbsIsMax(x: Machine.Int64)
    requires x > Machine.INT64_MIN
    ensures Abs(x) == Max(x, -x)
    ensures Abs(x) == Abs(-x)
  {
  }

  /** What the hardware produces for `-x` at INT64_MIN: INT64_MIN itself, a
      negative "absolute value", which is why `Abs` excludes it. */
  lemma NegateMinWraps()
    ensures Machine.Wrap(-Machine.INT64_MIN) == Machine.INT64_MIN
  {
  }
}

=== FILE: mlp_optional.dfy ===
/** The optional values of runtime/stdlib/mlp_optional.c.  A `MelpOptional`
    record carries a state (some or none), a value pointer and the size of
    what it points to; the runtime passes records by pointer, and every
    accessor accepts a NULL record.  Pointers that may be NULL are `Option`s;
    the type of the pointed-to value is a type parameter, so a numeric
    optional's double is carried as an opaque value. */
module MlpOptional {
  import opened Wrappers

  datatype OptionalState = OptSome | OptNone

  datatype MelpOptional<T> = MelpOptional(state: OptionalState, value: Option<T>, valueSize: nat)

  /** `sizeof(double)` and `sizeof(bool)`. */
  const DoubleSize: nat := 8
  const BoolSize: nat := 1

  /** `melp_optional_some`: the given pointer, whatever it is, in a some record. */
  function OptionalSome<T>(value: Option<T>, valueSize: nat): (o: MelpOptional<T>)
    ensures HasValue(Some(o)) && o.value == value && o.valueSize == valueSize
  {
    MelpOptional(OptSome, value, valueSize)
  }

  /** `melp_optional_none`: a none record with a NULL value of size 0. */
  function OptionalNone<T>(): (o: MelpOptional<T>)
    ensures !HasValue(Some(o)) && o.value.None? && o.valueSize == 0
  {
    MelpOptional(OptNone, None, 0)
  }

  /** `melp_optional_numeric`: the double copied to the heap, in a some record. */
  function OptionalNumeric<D>(value: D): (o: MelpOptional<D>)
    ensures Dereferenceable(Some(o))
    ensures GetDeref(Some(o)) == Ok(value) && o.valueSize == DoubleSize
  {
    OptionalSome(Some(value), DoubleSize)
  }

  /** `melp_optional_boolean`: the flag copied to the heap, in a some record. */
  function OptionalBoolean(value: bool): (o: MelpOptional<bool>)
    ensures Dereferenceable(Some(o))
    ensures GetDeref(Some(o)) == Ok(value) && o.valueSize == BoolSize
  {
    OptionalSome(Some(value), BoolSize)
  }

  /** `melp_optional_string`: none for a NULL string; otherwise a copy of
      the string, its size counting the terminating NUL. */
  function OptionalString(s: Option<string>): (o: MelpOptional<string>)
    ensures HasValue(Some(o)) <==> s.Some?
    ensures s.Some? ==> Get(Some(o)) == Ok(s) && o.valueSize == |s.value| + 1
  {
    match s
    case None => OptionalNone()
    case Some(text) => OptionalSome(Some(text), |text| + 1)
  }

  /** `melp_optional_has_value`: a non-NULL record in the some state. */
  function HasValue<T>(opt: Option<MelpOptional<T>>): (b: bool)
    ensures b ==> opt.Some?
    ensures opt.Some? ==> (b <==> opt.value.state != OptNone)
  {
    opt.Some? && opt.value.state == OptSome
  }

  /** `melp_optional_is_null`: the negation of `HasValue`, so true for a
      NULL record and for a none record. */
  function IsNull<T>(opt: Option<MelpOptional<T>>): (b: bool)
    ensures b <==> opt.None? || opt.value.state == OptNone
  {
    !HasValue(opt)
  }

  /** `melp_optional_get` (and `melp_optional_get_string`, which returns the
      same pointer): the value pointer of a some record; a NULL record or a
      none record is a fatal runtime error. */
  function Get<T>(opt: Option<MelpOptional<T>>): (r: Result<Option<T>>)
    ensures r.Ok? <==> HasValue(opt)
    ensures r.Ok? ==> r.value == opt.value.value
  {
    match opt
    case None => Fatal("optional_get() called on NULL pointer")
    case Some(o) =>
      if o.state == OptNone then Fatal("optional_get() called on None value") else Ok(o.value)
  }

  /** The typed getters read through the value pointer, which C allows only
      when a some record's pointer is not NULL. */
  predicate Dereferenceable<T>(opt: Option<MelpOptional<T>>) {
    HasValue(opt) ==> opt.value.value.Some?
  }

  /** `melp_optional_get_numeric` and `melp_optional_get_boolean`: the value
      `Get` points at, with the same fatal errors. */
  function GetDeref<T>(opt: Option<MelpOptional<T>>): (r: Result<T>)
    requires Dereferenceable(opt)
    ensures r.Ok? <==> Get(opt).Ok?
    ensures r.Ok? ==> Get(opt) == Ok(Some(r.value))
    ensures r.Fatal? ==> r.message == Get(opt).message
  {
    match Get(opt)
    case Fatal(m) => Fatal(m)
    case Ok(p) => Ok(p.value)
  }

  /** `melp_optional_get_or` (and `melp_optional_get_string_or`): the value
      pointer of a some record, the default for a NULL or none record. */
  function GetOr<T>(opt: Option<MelpOptional<T>>, default: Option<T>): (r: Option<T>)
    ensures HasValue(opt) ==> r == opt.value.value
    ensures !HasValue(opt) ==> r == default
  {
    if opt.None? || opt.value.state == OptNone then default else opt.value.value
  }

  /** `melp_optional_get_numeric_or` and `melp_optional_get_boolean_or`: the
      pointed-at value of a some record, the default otherwise. */
  function GetDerefOr<T>(opt: Option<MelpOptional<T>>, default: T): (r: T)
    requires Dereferenceable(opt)
    ensures HasValue(opt) ==> Some(r) == opt.value.value
    ensures !HasValue(opt) ==> r == default
  {
    if opt.None? || opt.value.state == OptNone then default else opt.value.value.value
  }

  /** `melp_optional_coalesce`, the `a ?? b` operator on raw pointers. */
  function Coalesce<T>(left: Option<T>, right: Option<T>): (r: Option<T>)
    ensures left.Some? ==> r == left
    ensures left.None? ==> r == right
  {
    if left.Some? then left else right
  }

  const DefaultAssertMessage: string := "Null assertion failed: value is None"

  /** `melp_optional_assert`, the `value!` operator: the value pointer of a
      some record; otherwise a fatal error with the given message, or a
      default one when the message is NULL. */
  function Assert<T>(opt: Option<MelpOptional<T>>, message: Option<string>): (r: Result<Option<T>>)
    ensures r.Ok? <==> HasValue(opt)
    ensures r.Ok? ==> r == Get(opt)
    ensures r.Fatal? ==> r.message == message.GetOr(DefaultAssertMessage)
  {
    if opt.None? || opt.value.state == OptNone then
      (if message.Some? then Fatal(message.value) else Fatal(DefaultAssertMessage))
    else Ok(opt.value.value)
  }

  /** A some record reports a value and every accessor yields its pointer. */
  lemma SomeAccessors<T>(value: Option<T>, size: nat, default: Option<T>, message: Option<string>)
    ensures var opt := Some(OptionalSome(value, size));
      HasValue(opt) && !IsNull(opt) && Get(opt) == Ok(value) &&
      GetOr(opt, default) == value && Assert(opt, message) == Ok(value)
  {
  }

  /** A NULL record and a none record behave alike: no value, `get` fails
      with its own message, `get_or` yields the default, `assert` fails with
      the caller's message. */
  lemma AbsentAccessors<T>(opt: Option<MelpOptional<T>>, default: Option<T>, message: Option<string>)
    requires opt == None || opt == Some(OptionalNone())
    ensures !HasValue(opt) && IsNull(opt)
    ensures Get(opt) == Fatal(if opt.None? then "optional_get() called on NULL pointer"
                              else "optional_get() called on None value")
    ensures GetOr(opt, default) == default
    ensures Assert(opt, message) == Fatal(message.GetOr(DefaultAssertMessage))
  {
  }

  /** `get_or` is `get` with the fatal error replaced by the default, and
      `assert` is `get` with the fatal message replaced by the caller's. */
  lemma GetOrIsTotalGet<T>(opt: Option<MelpOptional<T>>, default: Option<T>, message: Option<string>)
    ensures GetOr(opt, default) == if Get(opt).Ok? then Get(opt).value else default
    ensures Assert(opt, message).Ok? == Get(opt).Ok?
    ensures Get(opt).Ok? ==> Assert(opt, message) == Get(opt)
  {
  }

  /** The typed `get_*_or` agree with `get_*` wherever the latter succeeds. */
  lemma GetDerefOrIsTotalGetDeref<T>(opt: Option<MelpOptional<T>>, default: T)
    requires Dereferenceable(opt)
    ensures GetDerefOr(opt, default) == if GetDeref(opt).Ok? then GetDeref(opt).value else default
  {
  }

  /** `??` chains associate, and NULL is its identity on both sides. */
  lemma CoalesceChains<T>(a: Option<T>, b: Option<T>, c: Option<T>)
    ensures Coalesce(Coalesce(a, b), c) == Coalesce(a, Coalesce(b, c))
    ensures Coalesce(None, a) == a && Coalesce(a, None) == a
    ensures Coalesce(a, b).None? <==> a.None? && b.None?
  {
  }

  /** A string optional hands back the string it was made from. */
  lemma StringRoundTrip(s: string, default: Option<string>)
    ensures GetOr(Some(OptionalString(Some(s))), default) == Some(s)
    ensures GetOr(Some(OptionalString(None)), default) == default
  {
  }
}

=== FILE: mlp_state.dfy ===
/** The key/value state manager of runtime/stdlib/mlp_state.c: one global
    manager (absent until `state_init`) holding a linked list of entries,
    newest first, each a key and a text value stored inline when shorter
    than 24 bytes and on the heap otherwise; plus the simple JSON-like text
    that `state_save` writes and `state_load` reads back. */
module MlpState {
  import opened Wrappers
  import opened Decimal

  /** STATE_SSO_SIZE: values shorter than this are stored inline. */
  const StateSsoSize: nat := 24
  const DefaultPersistFile: string := ".melp_state.json"
  /** Longest key and value `state_load` accepts (its buffers hold 256 and 4096 bytes). */
  const MaxLoadKey: nat := 255
  const MaxLoadValue: nat := 4095

  // ---------------------------------------------------------------------------
  // Entries as values
  // ---------------------------------------------------------------------------

  /** The union of an entry's value: the inline bytes or the heap copy. */
  datatype StoredValue = Inline(text: string) | Heap(text: string)

  datatype StateEntry = StateEntry(key: string, value: StoredValue)

  /** The representation `state_set` picks for a value. */
  function Store(v: string): (s: StoredValue)
    ensures s.text == v
    ensures s.Inline? <==> |v| < StateSsoSize
  {
    if |v| < StateSsoSize then Inline(v) else Heap(v)
  }

  predicate UniqueKeys(es: seq<StateEntry>) {
    forall i, j :: 0 <= i < j < |es| ==> es[i].key != es[j].key
  }

  /** Where the `strcmp` walk of `find_entry` stops: the first entry with
      the key, or the length of the list. */
  function EntryIndex(es: seq<StateEntry>, key: string): (i: nat)
    ensures i <= |es|
    ensures forall k :: 0 <= k < i ==> es[k].key != key
    ensures i < |es| ==> es[i].key == key
  {
    if es == [] then 0 else if es[0].key == key then 0 else 1 + EntryIndex(es[1..], key)
  }

  /** The value text stored under `key`, if any. */
  function Lookup(es: seq<StateEntry>, key: string): (r: Option<string>)
    ensures r.None? <==> forall k :: 0 <= k < |es| ==> es[k].key != key
  {
    var i := EntryIndex(es, key);
    if i < |es| then Some(es[i].value.text) else None
  }

  /** The list after `state_set(key, value)`: an existing entry gets the new
      value in place, a new key is pushed at the front. */
  function SetEntries(es: seq<StateEntry>, key: string, value: string): seq<StateEntry> {
    var i := EntryIndex(es, key);
    if i < |es| then es[i := StateEntry(key, Store(value))]
    else [StateEntry(key, Store(value))] + es
  }

  /** After a set the key reads back its value, every other key is
      unaffected, keys stay unique, and the list grows by one exactly when
      the key was new. */
  lemma SetEntriesLookup(es: seq<StateEntry>, key: string, value: string, other: string)
    requires UniqueKeys(es)
    ensures Lookup(SetEntries(es, key, value), key) == Some(value)
    ensures other != key ==> Lookup(SetEntries(es, key, value), other) == Lookup(es, other)
    ensures UniqueKeys(SetEntries(es, key, value))
    ensures |SetEntries(es, key, value)| == |es| + (if Lookup(es, key).None? then 1 else 0)
  {
    var i := EntryIndex(es, key);
    var s := SetEntries(es, key, value);
    if i < |es| {
      SameKeysIndex(es, s, key);
      SameKeysIndex(es, s, other);
    } else {
      assert s[1..] == es;
      if other != key {
        assert EntryIndex(s, other) == 1 + EntryIndex(es, other);
      }
    }
  }

  /** Two lists with the same keys in the same order stop the walk at the
      same place. */
  lemma {:induction false} SameKeysIndex(a: seq<StateEntry>, b: seq<StateEntry>, key: string)
    requires |a| == |b| && forall k :: 0 <= k < |a| ==> a[k].key == b[k].key
    ensures EntryIndex(a, key) == EntryIndex(b, key)
    decreases |a|
  {
    if a != [] && a[0].key != key {
      SameKeysIndex(a[1..], b[1..], key);
    }
  }

  /** The list after `state_delete(key)`: the key's entry unlinked. */
  function DeleteEntries(es: seq<StateEntry>, key: string): seq<StateEntry> {
    var i := EntryIndex(es, key);
    if i < |es| then es[..i] + es[i + 1..] else es
  }

  /** The list after unlinking entry `i`: the entries before it, then the
      ones after it moved up by one. */
  lemma UnlinkAt(es: seq<StateEntry>, i: nat, d: seq<StateEntry>)
    requires i < |es| && d == es[..i] + es[i + 1..]
    ensures |d| == |es| - 1
    ensures forall k :: 0 <= k < i ==> d[k] == es[k]
    ensures forall k :: i <= k < |d| ==> d[k] == es[k + 1]
  {
  }

  /** After a delete the key is absent, keys stay unique, and the list
      shrinks by one exactly when the key was present. */
  lemma DeleteEntriesShrinks(es: seq<StateEntry>, key: string)
    requires UniqueKeys(es)
    ensures Lookup(DeleteEntries(es, key), key).None?
    ensures UniqueKeys(DeleteEntries(es, key))
    ensures |DeleteEntries(es, key)| == |es| - (if Lookup(es, key).Some? then 1 else 0)
  {
    var i := EntryIndex(es, key);
    if i < |es| {
      UnlinkAt(es, i, DeleteEntries(es, key));
    }
  }

  /** A delete leaves every other key reading what it read before. */
  lemma DeleteEntriesOther(es: seq<StateEntry>, key: string, other: string)
    requires UniqueKeys(es) && other != key
    ensures Lookup(DeleteEntries(es, key), other) == Lookup(es, other)
  {
    var i := EntryIndex(es, key);
    if i < |es| {
      var d := es[..i] + es[i + 1..];
      UnlinkAt(es, i, d);
      var j := EntryIndex(es, other);
      assert j != i;
      if j < i {
        EntryIndexAt(d, other, j);
        assert Lookup(d, other) == Some(es[j].value.text);
      } else if j < |es| {
        EntryIndexAt(d, other, j - 1);
        assert Lookup(d, other) == Some(es[j].value.text);
      } else {
        assert forall k :: 0 <= k < |d| ==> d[k].key != other;
      }
    }
  }

  /** A position with the two properties of `EntryIndex` is `EntryIndex`. */
  lemma EntryIndexAt(es: seq<StateEntry>, key: string, i: nat)
    requires i <= |es| && (forall k :: 0 <= k < i ==> es[k].key != key)
    requires i < |es| ==> es[i].key == key
    ensures EntryIndex(es, key) == i
  {
  }

  // ---------------------------------------------------------------------------
  // The saved text
  // ---------------------------------------------------------------------------

  /** A value as `state_save` writes it: '"' and '\\' get a backslash in front. */
  function Escape(v: string): (r: string)
    ensures |r| >= |v|
  {
    if v == [] then []
    else (if v[0] == '"' || v[0] == '\\' then ['\\', v[0]] else [v[0]]) + Escape(v[1..])
  }

  const Indent: string := "  "
  const Separator: string := ",\n"
  const Opening: string := "{\n"
  const Closing: string := "\n}\n"

  /** One entry, `  "key": "value"`, followed by `tail`; the key is
      written as it is. */
  function Render(e: StateEntry, tail: string): string {
    Indent + ("\"" + (e.key + ("\"" + (": " + ("\"" + (Escape(e.value.text) + ("\"" + tail)))))))
  }

  /** The entries in list order, separated by ",\n", followed by `tail`. */
  function Body(es: seq<StateEntry>, tail: string): (r: string)
    ensures |tail| <= |r| && r[|r| - |tail|..] == tail
    ensures es == [] <==> r == tail
  {
    if es == [] then tail
    else Render(es[0], if |es| == 1 then tail else Separator + Body(es[1..], tail))
  }

  /** The text `state_save` writes: "{\n", the entries, "\n}\n". */
  function Serialize(es: seq<StateEntry>): (r: string)
    ensures |Opening| + |Closing| <= |r|
    ensures r[..|Opening|] == Opening && r[|r| - |Closing|..] == Closing
    ensures es == [] <==> r == Opening + Closing
  {
    Opening + Body(es, Closing)
  }

  /** A key and value read back by `state_load`. */
  datatype Pair = Pair(key: string, value: string)

  function Pairs(es: seq<StateEntry>): (ps: seq<Pair>)
    ensures |ps| == |es|
    ensures forall i :: 0 <= i < |es| ==> ps[i] == Pair(es[i].key, es[i].value.text)
  {
    if es == [] then [] else [Pair(es[0].key, es[0].value.text)] + Pairs(es[1..])
  }

  /** The character under the parser's pointer: NUL at the end of the text. */
  function Head(t: string): char {
    if t == [] then '\0' else t[0]
  }

  predicate IsLead(c: char) {
    c == ' ' || c == '\n' || c == '\t' || c == '{' || c == ','
  }

  predicate IsColon(c: char) {
    c == ':' || c == ' ' || c == '\t' || c == '\n'
  }

  /** The text after the white space, '{' and ',' before an entry. */
  function SkipLead(t: string): (r: string)
    ensures |r| <= |t| && !IsLead(Head(r))
  {
    if t != [] && IsLead(t[0]) then SkipLead(t[1..]) else t
  }

  /** The text after the ':' and white space between a key and its value. */
  function SkipColon(t: string): (r: string)
    ensures |r| <= |t| && !IsColon(Head(r))
  {
    if t != [] && IsColon(t[0]) then SkipColon(t[1..]) else t
  }

  /** The key loop of `state_load`: characters up to a '"' or the end, at
      most 255 in all (`n` already read); returns the key and the rest. */
  function ReadKey(t: string, n: nat): (r: (string, string))
    ensures |r.1| <= |t|
    ensures n <= MaxLoadKey ==> n + |r.0| <= MaxLoadKey
    ensures '"' !in r.0 && '\0' !in r.0
    decreases |t|
  {
    if Head(t) != '\0' && Head(t) != '"' && n < MaxLoadKey then
      var (k, rest) := ReadKey(t[1..], n + 1);
      ([t[0]] + k, rest)
    else ([], t)
  }

  /** The value loop of `state_load`: like the key loop with a 4095
      character limit, but a backslash followed by a character stands for
      that character. */
  function ReadValue(t: string, n: nat): (r: (string, string))
    ensures |r.1| <= |t|
    ensures n <= MaxLoadValue ==> n + |r.0| <= MaxLoadValue
    decreases |t|
  {
    if Head(t) != '\0' && Head(t) != '"' && n < MaxLoadValue then
      var escaped := t[0] == '\\' && Head(t[1..]) != '\0';
      var c := if escaped then t[1] else t[0];
      var after := if escaped then t[2..] else t[1..];
      var (v, rest) := ReadValue(after, n + 1);
      ([c] + v, rest)
    else ([], t)
  }

  /** What the fixed buffers of `state_load` can hold: a key of at most 255
      characters without '"' or NUL, a value of at most 4095. */
  predicate ReadablePair(p: Pair) {
    |p.key| <= MaxLoadKey && '"' !in p.key && '\0' !in p.key && |p.value| <= MaxLoadValue
  }

  /** A quoted value from its opening quote: the value and the text after
      its closing quote. */
  function QuotedValue(t: string): (r: Option<(string, string)>)
    ensures r.Some? ==> |r.value.1| < |t|
  {
    if Head(t) != '"' then None
    else
      var (value, t2) := ReadValue(t[1..], 0);
      if Head(t2) != '"' then None else Some((value, t2[1..]))
  }

  /** One `"key": "value"` from the key's opening quote: the pair and the
      text after the value's closing quote. */
  function ReadEntry(t: string): (r: Option<(Pair, string)>)
    ensures r.Some? ==> |r.value.1| < |t|
    ensures r.Some? ==> ReadablePair(r.value.0)
  {
    if Head(t) != '"' then None
    else
      var (key, t2) := ReadKey(t[1..], 0);
      if Head(t2) != '"' then None
      else
        match QuotedValue(SkipColon(t2[1..]))
        case None => None
        case Some((value, rest)) => Some((Pair(key, value), rest))
  }

  /** The parse loop of `state_load`: entries are read until the end, a '}',
      or the first thing that is not a well-formed `"key": "value"`. */
  function ParseFrom(t: string): (ps: seq<Pair>)
    ensures |ps| <= |t|
    ensures forall i :: 0 <= i < |ps| ==> ReadablePair(ps[i])
    decreases |t|
  {
    if Head(t) == '\0' then []
    else
      match ReadEntry(SkipLead(t))
      case None => []
      case Some((p, rest)) => [p] + ParseFrom(rest)
  }

  /** What `state_load` can read back: a key without '"' or NUL of at most
      255 characters, a value without NUL of at most 4095. */
  predicate Loadable(e: StateEntry) {
    |e.key| <= MaxLoadKey && |e.value.text| <= MaxLoadValue &&
    (forall i :: 0 <= i < |e.key| ==> e.key[i] != '"' && e.key[i] != '\0') &&
    (forall i :: 0 <= i < |e.value.text| ==> e.value.text[i] != '\0')
  }

  /** Leading white space, '{' and ',' are skipped whatever follows them. */
  lemma {:induction false} SkipLeadPrefix(w: string, t: string)
    requires forall i :: 0 <= i < |w| ==> IsLead(w[i])
    ensures SkipLead(w + t) == SkipLead(t)
    decreases |w|
  {
    if w != [] {
      assert (w + t)[1..] == w[1..] + t;
      SkipLeadPrefix(w[1..], t);
    } else {
      assert w + t == t;
    }
  }

  lemma {:induction false} SkipColonPrefix(w: string, t: string)
    requires forall i :: 0 <= i < |w| ==> IsColon(w[i])
    requires t != [] && !IsColon(t[0])
    ensures SkipColon(w + t) == t
    decreases |w|
  {
    if w != [] {
      assert (w + t)[1..] == w[1..] + t;
      SkipColonPrefix(w[1..], t);
    } else {
      assert w + t == t;
    }
  }

  /** A quote-free key followed by '"' reads back whole. */
  lemma {:induction false} ReadKeyPlain(k: string, rest: string, n: nat)
    requires n + |k| <= MaxLoadKey && Head(rest) == '"'
    requires forall i :: 0 <= i < |k| ==> k[i] != '"' && k[i] != '\0'
    ensures ReadKey(k + rest, n) == (k, rest)
    decreases |k|
  {
    if k != [] {
      assert (k + rest)[1..] == k[1..] + rest;
      ReadKeyPlain(k[1..], rest, n + 1);
      assert [k[0]] + k[1..] == k;
    } else {
      assert k + rest == rest;
    }
  }

  /** The value loop reads one escaped character back as itself. */
  lemma ReadValueStep(c: char, tail: string, n: nat)
    requires c != '\0' && n < MaxLoadValue
    ensures ReadValue(Escape([c]) + tail, n) ==
      ([c] + ReadValue(tail, n + 1).0, ReadValue(tail, n + 1).1)
  {
    var t := Escape([c]) + tail;
    if c == '"' || c == '\\' {
      assert Escape([c]) == ['\\', c];
      assert t[1..] == [c] + tail && t[2..] == tail;
    } else {
      assert Escape([c]) == [c];
      assert t[1..] == tail;
    }
  }

  /** An escaped value followed by '"' reads back as the original value. */
  lemma {:induction false} ReadValueEscaped(v: string, rest: string, n: nat)
    requires n + |v| <= MaxLoadValue && Head(rest) == '"'
    requires forall i :: 0 <= i < |v| ==> v[i] != '\0'
    ensures ReadValue(Escape(v) + rest, n) == (v, rest)
    decreases |v|
  {
    if v == [] {
      assert Escape(v) + rest == rest;
    } else {
      var e := Escape(v[1..]) + rest;
      assert Escape(v) + rest == Escape([v[0]]) + e by {
        assert Escape(v) == Escape([v[0]]) + Escape(v[1..]);
      }
      ReadValueStep(v[0], e, n);
      ReadValueEscaped(v[1..], rest, n + 1);
      assert [v[0]] + v[1..] == v;
    }
  }

  /** A written value, quotes included, reads back as itself. */
  lemma QuotedValueEscaped(v: string, rest: string)
    requires |v| <= MaxLoadValue && forall i :: 0 <= i < |v| ==> v[i] != '\0'
    ensures QuotedValue("\"" + (Escape(v) + ("\"" + rest))) == Some((v, rest))
  {
    var close := "\"" + rest;
    var t := "\"" + (Escape(v) + close);
    assert t[1..] == Escape(v) + close;
    ReadValueEscaped(v, close, 0);
    assert close[1..] == rest;
  }

  /** A written entry from its key's opening quote reads back as its pair. */
  lemma ReadEntryRender(e: StateEntry, rest: string)
    requires Loadable(e)
    ensures ReadEntry(Render(e, rest)[2..]) == Some((Pair(e.key, e.value.text), rest))
  {
    var value := "\"" + (Escape(e.value.text) + ("\"" + rest));
    var afterKey := "\"" + (": " + value);
    var t := "\"" + (e.key + afterKey);
    assert Render(e, rest)[2..] == t;
    assert t[1..] == e.key + afterKey;
    ReadKeyPlain(e.key, afterKey, 0);
    assert afterKey[1..] == ": " + value;
    var colon := ": ";
    assert IsColon(colon[0]) && IsColon(colon[1]);
    SkipColonPrefix(colon, value);
    QuotedValueEscaped(e.value.text, rest);
  }

  /** The two-character lead strings of the saved text are skipped whole. */
  lemma SkipLeadText(w: string, t: string)
    requires w == Opening || w == Separator || w == Indent
    ensures SkipLead(w + t) == SkipLead(t)
  {
    assert IsLead(w[0]) && IsLead(w[1]);
    SkipLeadPrefix(w, t);
  }

  /** One rendered entry after the opening or a separator reads back as
      that entry's key and value, leaving the text after its closing quote. */
  lemma ParseRender(e: StateEntry, w: string, rest: string)
    requires Loadable(e) && (w == Opening || w == Separator)
    ensures ParseFrom(w + Render(e, rest)) == [Pair(e.key, e.value.text)] + ParseFrom(rest)
  {
    var r := Render(e, rest);
    SkipLeadText(w, r);
    SkipLeadText(Indent, r[2..]);
    assert Indent + r[2..] == r;
    ReadEntryRender(e, rest);
  }

  /** The closing brace parses to nothing, alone or after the opening. */
  lemma ParseClose(w: string)
    requires w == [] || w == Opening
    ensures ParseFrom(w + Closing) == []
  {
    assert SkipLead(Closing) == Closing[1..];
    if w == Opening {
      SkipLeadText(w, Closing);
    } else {
      assert w + Closing == Closing;
    }
  }

  /** The entries of the saved text read back in list order. */
  lemma {:induction false} ParseBody(w: string, es: seq<StateEntry>)
    requires w == Opening || (w == Separator && es != [])
    requires forall i :: 0 <= i < |es| ==> Loadable(es[i])
    ensures ParseFrom(w + Body(es, Closing)) == Pairs(es)
    decreases |es|
  {
    if es == [] {
      ParseClose(w);
    } else if |es| == 1 {
      ParseRender(es[0], w, Closing);
      ParseClose([]);
    } else {
      ParseRender(es[0], w, Separator + Body(es[1..], Closing));
      ParseBody(Separator, es[1..]);
      assert Pairs(es) == [Pair(es[0].key, es[0].value.text)] + Pairs(es[1..]);
    }
  }

  /** `state_load` reads back exactly the entries `state_save` wrote, in
      list order, whenever every entry is loadable. */
  lemma SaveThenParse(es: seq<StateEntry>)
    requires forall i :: 0 <= i < |es| ==> Loadable(es[i])
    ensures ParseFrom(Serialize(es)) == Pairs(es)
  {
    ParseBody(Opening, es);
  }

  /** The list after `state_set` has been called on each pair in turn. */
  function ApplyAll(es: seq<StateEntry>, ps: seq<Pair>): seq<StateEntry>
    decreases |ps|
  {
    if ps == [] then es else ApplyAll(SetEntries(es, ps[0].key, ps[0].value), ps[1..])
  }

  function FindPair(ps: seq<Pair>, key: string): Option<string> {
    if ps == [] then None else if ps[0].key == key then Some(ps[0].value) else FindPair(ps[1..], key)
  }

  predicate UniquePairKeys(ps: seq<Pair>) {
    forall i, j :: 0 <= i < j < |ps| ==> ps[i].key != ps[j].key
  }

  /** Setting pairs with distinct keys one after another: each of their
      keys reads its pair's value, every other key what it read before. */
  lemma {:induction false} ApplyAllLookup(es: seq<StateEntry>, ps: seq<Pair>, key: string)
    requires UniqueKeys(es) && UniquePairKeys(ps)
    ensures UniqueKeys(ApplyAll(es, ps))
    ensures Lookup(ApplyAll(es, ps), key) ==
      if FindPair(ps, key).Some? then FindPair(ps, key) else Lookup(es, key)
    decreases |ps|
  {
    if ps != [] {
      var p := ps[0];
      var es' := SetEntries(es, p.key, p.value);
      SetEntriesLookup(es, p.key, p.value, key);
      ApplyAllLookup(es', ps[1..], key);
      if p.key == key {
        assert FindPair(ps[1..], key).None? by { FindPairAbsent(ps[1..], key); }
      }
    }
  }

  lemma {:induction false} FindPairAbsent(ps: seq<Pair>, key: string)
    requires forall i :: 0 <= i < |ps| ==> ps[i].key != key
    ensures FindPair(ps, key).None?
    decreases |ps|
  {
    if ps != [] {
      FindPairAbsent(ps[1..], key);
    }
  }

  lemma {:induction false} FindPairOfEntries(es: seq<StateEntry>, key: string)
    ensures FindPair(Pairs(es), key) == Lookup(es, key)
    decreases |es|
  {
    if es != [] {
      FindPairOfEntries(es[1..], key);
      assert Pairs(es)[1..] == Pairs(es[1..]);
      if es[0].key != key {
        EntryIndexAt(es, key, 1 + EntryIndex(es[1..], key));
      }
    }
  }

  /** Saving, clearing and loading gives every key back its value (the list
      order is reversed, since each loaded key is pushed at the front). */
  lemma SaveClearLoad(es: seq<StateEntry>, key: string)
    requires UniqueKeys(es) && forall i :: 0 <= i < |es| ==> Loadable(es[i])
    ensures Lookup(ApplyAll([], ParseFrom(Serialize(es))), key) == Lookup(es, key)
  {
    SaveThenParse(es);
    ApplyAllLookup([], Pairs(es), key);
    FindPairOfEntries(es, key);
  }

  // ---------------------------------------------------------------------------
  // The manager
  // ---------------------------------------------------------------------------

  /** The global `g_state_manager` and what it points to; `initialized` is
      false while the pointer is NULL. */
  class StateManager {
    var initialized: bool
    var entries: seq<StateEntry>
    var count: int
    var autoPersist: int
    var persistFile: string

    /** `count` is the number of entries, no key appears twice, each value is
        stored inline exactly when it is short, and there is nothing while
        uninitialised. */
    predicate Valid()
      reads this
    {
      count == |entries| && UniqueKeys(entries) &&
      (forall i :: 0 <= i < |entries| ==> entries[i].value == Store(entries[i].value.text)) &&
      (!initialized ==> entries == [])
    }

    /** The program's start: no manager yet. */
    constructor ()
      ensures Valid() && !initialized
    {
      initialized := false;
      entries := [];
      count := 0;
      autoPersist := 0;
      persistFile := [];
    }

    /** `state_init`: 0 when already initialised (nothing changes); otherwise
        an empty store, auto-persist off, the default file, and 1. */
    method Init() returns (r: int)
      requires Valid()
      modifies this
      ensures Valid() && initialized
      ensures r == (if old(initialized) then 0 else 1)
      ensures old(initialized) ==> entries == old(entries) && persistFile == old(persistFile) &&
                                   autoPersist == old(autoPersist)
      ensures !old(initialized) ==> entries == [] && autoPersist == 0 && persistFile == DefaultPersistFile
    {
      if initialized {
        return 0;
      }
      initialized := true;
      entries := [];
      count := 0;
      autoPersist := 0;
      persistFile := DefaultPersistFile;
      return 1;
    }

    /** `state_close`: 0 when uninitialised; otherwise every entry is dropped,
        the manager is gone, and 1. */
    method Close() returns (r: int)
      requires Valid()
      modifies this
      ensures Valid() && !initialized && entries == []
      ensures r == (if old(initialized) then 1 else 0)
    {
      if !initialized {
        return 0;
      }
      entries := [];
      count := 0;
      initialized := false;
      return 1;
    }

    /** `find_entry`: walks the list from its head to the first entry with
        the key. */
    method FindEntry(key: string) returns (i: nat)
      requires Valid()
      ensures i == EntryIndex(entries, key)
    {
      i := 0;
      while i < |entries| && entries[i].key != key
        invariant i <= |entries|
        invariant forall k :: 0 <= k < i ==> entries[k].key != key
      {
        i := i + 1;
      }
      EntryIndexAt(entries, key, i);
    }

    /** `state_set`: 0 and no change when uninitialised or for a NULL key or
        value; otherwise an existing entry takes the new value in place, a
        new key is pushed at the front and counted, and 1. */
    method Set(key: Option<string>, value: Option<string>) returns (r: int)
      requires Valid()
      modifies this
      ensures Valid() && initialized == old(initialized)
      ensures autoPersist == old(autoPersist) && persistFile == old(persistFile)
      ensures r == (if old(initialized) && key.Some? && value.Some? then 1 else 0)
      ensures r == 1 ==> entries == SetEntries(old(entries), key.value, value.value)
      ensures r == 0 ==> entries == old(entries)
    {
      if !initialized || key.None? || value.None? {
        return 0;
      }
      var i := FindEntry(key.value);
      SetEntriesLookup(entries, key.value, value.value, key.value);
      if i == |entries| {
        entries := [StateEntry(key.value, Store(value.value))] + entries;
        count := count + 1;
      } else {
        entries := entries[i := StateEntry(key.value, Store(value.value))];
      }
      return 1;
    }

    /** `state_get`: the stored text, or "" when uninitialised, for a NULL
        key, or for an absent key. */
    function Get(key: Option<string>): (v: string)
      reads this
      requires Valid()
      ensures initialized && key.Some? && Lookup(entries, key.value).Some? ==>
        v == Lookup(entries, key.value).value
      ensures !initialized || key.None? || Lookup(entries, key.value).None? ==> v == ""
    {
      if !initialized || key.None? then ""
      else
        var i := EntryIndex(entries, key.value);
        if i < |entries| then entries[i].value.text else ""
    }

    /** `state_has`: 1 exactly when initialised and the key is present. */
    function Has(key: Option<string>): (r: int)
      reads this
      requires Valid()
      ensures r == (if initialized && key.Some? && Lookup(entries, key.value).Some? then 1 else 0)
    {
      if !initialized || key.None? then 0
      else if EntryIndex(entries, key.value) < |entries| then 1 else 0
    }

    /** `state_delete`: 0 and no change when uninitialised, for a NULL key or
        an absent key; otherwise the key's entry is unlinked, the count drops,
        and 1. */
    method Delete(key: Option<string>) returns (r: int)
      requires Valid()
      modifies this
      ensures Valid() && initialized == old(initialized)
      ensures autoPersist == old(autoPersist) && persistFile == old(persistFile)
      ensures r == (if old(initialized) && key.Some? && Lookup(old(entries), key.value).Some? then 1 else 0)
      ensures key.Some? && old(initialized) ==> entries == DeleteEntries(old(entries), key.value)
      ensures key.None? || !old(initialized) ==> entries == old(entries)
    {
      if !initialized || key.None? {
        return 0;
      }
      var i := 0;
      while i < |entries|
        invariant i <= |entries|
        invariant forall k :: 0 <= k < i ==> entries[k].key != key.value
      {
        if entries[i].key == key.value {
          EntryIndexAt(entries, key.value, i);
          DeleteEntriesShrinks(entries, key.value);
          entries := entries[..i] + entries[i + 1..];
          count := count - 1;
          return 1;
        }
        i := i + 1;
      }
      EntryIndexAt(entries, key.value, i);
      return 0;
    }

    /** `state_clear`: 0 when uninitialised; otherwise the store is emptied
        and 1. */
    method Clear() returns (r: int)
      requires Valid()
      modifies this
      ensures Valid() && initialized == old(initialized)
      ensures autoPersist == old(autoPersist) && persistFile == old(persistFile)
      ensures r == (if old(initialized) then 1 else 0)
      ensures old(initialized) ==> entries == [] && count == 0
      ensures !old(initialized) ==> entries == old(entries)
    {
      if !initialized {
        return 0;
      }
      entries := [];
      count := 0;
      return 1;
    }

    /** `state_config_set`: when initialised and both arguments are present,
        "auto_persist" takes `atoi(value)` and "persist_file" the value, each
        answering 1; every other key, a NULL argument or no manager gives 0
        with nothing changed. */
    method ConfigSet(key: Option<string>, value: Option<string>) returns (r: int)
      requires Valid()
      modifies this
      ensures Valid() && entries == old(entries) && initialized == old(initialized)
      ensures r == 1 <==> old(initialized) && key.Some? && value.Some? &&
                          (key.value == "auto_persist" || key.value == "persist_file")
      ensures r == 0 || r == 1
      ensures r == 1 && key.value == "auto_persist" ==>
        autoPersist == ParseInt64(value.value) && persistFile == old(persistFile)
      ensures r == 1 && key.value == "persist_file" ==>
        persistFile == value.value && autoPersist == old(autoPersist)
      ensures r == 0 ==> autoPersist == old(autoPersist) && persistFile == old(persistFile)
    {
      if !initialized || key.None? || value.None? {
        return 0;
      }
      if key.value == "auto_persist" {
        autoPersist := ParseInt64(value.value);
        return 1;
      }
      if key.value == "persist_file" {
        persistFile := value.value;
        return 1;
      }
      return 0;
    }

    /** The text `state_save` writes to the persist file; none when
        uninitialised. */
    function Save(): (text: Option<string>)
      reads this
      requires Valid()
      ensures text.Some? <==> initialized
      ensures text.Some? && (forall i :: 0 <= i < |entries| ==> Loadable(entries[i])) ==>
        ParseFrom(text.value) == Pairs(entries)
    {
      if !initialized then None
      else if forall i :: 0 <= i < |entries| ==> Loadable(entries[i]) then
        SaveThenParse(entries);
        Some(Serialize(entries))
      else Some(Serialize(entries))
    }

    /** `state_load` given the persist file's contents (none when it cannot
        be read): 0 when uninitialised or the text is missing or empty;
        otherwise each entry parsed from the text is set in turn, and 1. */
    method Load(json: Option<string>) returns (r: int)
      requires Valid()
      modifies this
      ensures Valid() && initialized == old(initialized)
      ensures autoPersist == old(autoPersist) && persistFile == old(persistFile)
      ensures r == (if old(initialized) && json.Some? && json.value != [] then 1 else 0)
      ensures r == 1 ==> entries == ApplyAll(old(entries), ParseFrom(json.value))
      ensures r == 0 ==> entries == old(entries)
    {
      if !initialized || json.None? || json.value == [] {
        return 0;
      }
      var pairs := ParseFrom(json.value);
      ghost var start := entries;
      for n := 0 to |pairs|
        invariant Valid() && initialized
        invariant autoPersist == old(autoPersist) && persistFile == old(persistFile)
        invariant ApplyAll(start, pairs) == ApplyAll(entries, pairs[n..])
      {
        assert pairs[n..][1..] == pairs[n + 1..];
        var _ := Set(Some(pairs[n].key), Some(pairs[n].value));
      }
      assert pairs[|pairs|..] == [];
      return 1;
    }
  }
}

=== FILE: mlp_string.dfy ===
/** The string operations of the MELP standard library
    (runtime/stdlib/mlp_string.c).  A C string argument that may be NULL is
    an `Option<string>`; every result is a fresh string, so the model returns
    values.  Allocation is assumed to succeed. */
module MlpString {
  import opened Wrappers
  import opened Machine
  import opened Text
  import opened Decimal

  type CString = Option<string>

  // ---------------------------------------------------------------------------
  // Concatenation, comparison, length
  // ---------------------------------------------------------------------------

  /** `mlp_string_concat`: a NULL operand counts as "". */
  function Concat(str1: CString, str2: CString): (r: string)
    ensures r == str1.GetOr("") + str2.GetOr("")
  {
    if str1.None? && str2.None? then ""
    else if str1.None? then str2.value
    else if str2.None? then str1.value
    else str1.value + str2.value
  }

  /** `mlp_string_concat3`. */
  function Concat3(str1: CString, str2: CString, str3: CString): (r: string)
    ensures r == Concat(Some(Concat(str1, str2)), str3)
  {
    str1.GetOr("") + str2.GetOr("") + str3.GetOr("")
  }

  /** The sign of `mlp_string_compare`: NULL equals NULL and precedes every
      string; two strings compare as `strcmp` does. */
  function Compare(str1: CString, str2: CString): (c: int)
    ensures -1 <= c <= 1
    ensures c == 0 <==> str1 == str2
    ensures str1.None? && str2.Some? ==> c == -1
    ensures str1.Some? && str2.Some? ==> c == LexCompare(str1.value, str2.value)
  {
    if str1.None? && str2.None? then 0
    else if str1.None? then -1
    else if str2.None? then 1
    else LexCompare(str1.value, str2.value)
  }

  /** Swapping the operands flips the sign of the comparison. */
  lemma CompareAntisymmetric(str1: CString, str2: CString)
    ensures Compare(str2, str1) == -Compare(str1, str2)
  {
    if str1.Some? && str2.Some? {
      LexCompareAntisymmetric(str1.value, str2.value);
    }
  }

  /** `mlp_string_equals`. */
  function Equals(str1: CString, str2: CString): (r: bool)
    ensures r <==> str1 == str2
  {
    Compare(str1, str2) == 0
  }

  /** `mlp_string_not_equals`. */
  function NotEquals(str1: CString, str2: CString): (r: bool)
    ensures r <==> str1 != str2
  {
    Compare(str1, str2) != 0
  }

  /** `mlp_string_length`: 0 for NULL. */
  function Length(str: CString): (n: nat)
    ensures n == |str.GetOr("")|
  {
    if str.Some? then |str.value| else 0
  }

  /** `mlp_string_is_empty`: NULL is empty too. */
  function IsEmpty(str: CString): (r: bool)
    ensures r <==> str.GetOr("") == ""
  {
    str.None? || |str.value| == 0
  }

  // ---------------------------------------------------------------------------
  // Substring, search, single characters
  // ---------------------------------------------------------------------------

  /** How many bytes `mlp_string_substring` copies, as written: the guard
      `start + length > str_len` is computed in 64-bit `size_t` and can wrap. */
  function SubstringCopyLengthAsWritten(strLen: nat, start: nat, length: nat): nat
    requires start < strLen < TWO_64 && length < TWO_64
  {
    if (start + length) % TWO_64 > strLen then strLen - start else length
  }

  /** A length near SIZE_MAX wraps the guard, so the copy runs past the end
      of the string. */
  lemma SubstringCopyOverrun()
    ensures SubstringCopyLengthAsWritten(3, 1, TWO_64 - 1) > 3 - 1
  {
    assert (1 + (TWO_64 - 1)) % TWO_64 == 0;
  }

  /** The intended copy length: what was asked for, clipped at the end of the string. */
  function SubstringCopyLength(strLen: nat, start: nat, length: nat): (n: nat)
    requires start < strLen
    ensures n <= length && start + n <= strLen
    ensures n == length || start + n == strLen
  {
    if length > strLen - start then strLen - start else length
  }

  /** `mlp_string_substring`: NULL gives NULL, a start at or past the end
      gives "", otherwise the text from `start`, at most `length` bytes. */
  function Substring(str: CString, start: nat, length: nat): (r: CString)
    ensures r.None? <==> str.None?
    ensures str.Some? && start >= |str.value| ==> r == Some("")
    ensures str.Some? && start < |str.value| ==>
      var s := str.value;
      r.Some? && |r.value| <= length && start + |r.value| <= |s| && s[start..start + |r.value|] == r.value &&
      (|r.value| == length || start + |r.value| == |s|)
  {
    if str.None? then None
    else if start >= |str.value| then Some("")
    else
      var n := SubstringCopyLength(|str.value|, start, length);
      Some(str.value[start..start + n])
  }

  /** `mlp_string_indexOf`: the index of the leftmost occurrence, or -1 when
      there is none or either argument is NULL. */
  function IndexOf(str: CString, substr: CString): (r: int)
    ensures r >= -1
    ensures r >= 0 ==> str.Some? && substr.Some? && OccursAt(str.value, substr.value, r)
    ensures r >= 0 ==> forall j :: 0 <= j < r ==> !OccursAt(str.value, substr.value, j)
    ensures r == -1 && str.Some? && substr.Some? ==> !Contains(str.value, substr.value)
  {
    if str.None? || substr.None? then -1
    else
      var f := Find(str.value, substr.value);
      if f.Some? then f.value else -1
  }

  /** The empty string is found at index 0. */
  lemma IndexOfEmpty(str: string)
    ensures IndexOf(Some(str), Some("")) == 0
  {
    FindEmpty(str);
  }

  /** `mlp_string_char_at`: the one-character string at `index`, or "" when
      the index is out of range or the string is NULL. */
  function CharAt(str: CString, index: nat): (r: string)
    ensures str.Some? && index < |str.value| ==> r == [str.value[index]]
    ensures str.None? || index >= |str.value| ==> r == ""
  {
    if str.None? || index >= |str.value| then "" else [str.value[index]]
  }

  /** `mlp_number_to_string`: `snprintf(buffer, 22, "%lld", num)`. */
  function NumberToString(num: Int64): (r: string)
    ensures 0 < |r| <= 20
    ensures ParseInt64(r) == num
  {
    ParseIntToString(num);
    Int64MagnitudeDigits(num);
    IntToString(num)
  }

  // ---------------------------------------------------------------------------
  // Case conversion
  // ---------------------------------------------------------------------------

  function UpperChar(c: char): char {
    if 'a' <= c <= 'z' then (c as int - 32) as char else c
  }

  function LowerChar(c: char): char {
    if 'A' <= c <= 'Z' then (c as int + 32) as char else c
  }

  /** The result `mlp_string_toUpperCase` computes, character by character. */
  function Upper(s: string): (r: string)
    ensures |r| == |s|
  {
    seq(|s|, i requires 0 <= i < |s| => UpperChar(s[i]))
  }

  function Lower(s: string): (r: string)
    ensures |r| == |s|
  {
    seq(|s|, i requires 0 <= i < |s| => LowerChar(s[i]))
  }

  /** `mlp_string_toUpperCase`: a fresh buffer filled by an index loop. */
  method ToUpperCase(str: CString) returns (r: CString)
    ensures r.None? <==> str.None?
    ensures str.Some? ==> r.value == Upper(str.value)
  {
    if str.None? {
      return None;
    }
    var s := str.value;
    var result := new char[|s|];
    var i := 0;
    while i < |s|
      invariant 0 <= i <= |s|
      invariant forall k :: 0 <= k < i ==> result[k] == UpperChar(s[k])
    {
      var c := s[i];
      if 'a' <= c <= 'z' {
        result[i] := (c as int - 32) as char;
      } else {
        result[i] := c;
      }
      i := i + 1;
    }
    return Some(result[..]);
  }

  /** `mlp_string_toLowerCase`. */
  method ToLowerCase(str: CString) returns (r: CString)
    ensures r.None? <==> str.None?
    ensures str.Some? ==> r.value == Lower(str.value)
  {
    if str.None? {
      return None;
    }
    var s := str.value;
    var result := new char[|s|];
    var i := 0;
    while i < |s|
      invariant 0 <= i <= |s|
      invariant forall k :: 0 <= k < i ==> result[k] == LowerChar(s[k])
    {
      var c := s[i];
      if 'A' <= c <= 'Z' {
        result[i] := (c as int + 32) as char;
      } else {
        result[i] := c;
      }
      i := i + 1;
    }
    return Some(result[..]);
  }

  /** Upper-casing changes exactly the ASCII lower-case letters, each by -32,
      and is idempotent; lower-casing afterwards is the same as lower-casing. */
  lemma UpperProperties(s: string)
    ensures forall i :: 0 <= i < |s| ==>
      (if 'a' <= s[i] <= 'z' then Upper(s)[i] as int == s[i] as int - 32 else Upper(s)[i] == s[i])
    ensures Upper(Upper(s)) == Upper(s)
    ensures Lower(Upper(s)) == Lower(s)
  {
  }

  lemma LowerProperties(s: string)
    ensures forall i :: 0 <= i < |s| ==>
      (if 'A' <= s[i] <= 'Z' then Lower(s)[i] as int == s[i] as int + 32 else Lower(s)[i] == s[i])
    ensures Lower(Lower(s)) == Lower(s)
    ensures Upper(Lower(s)) == Upper(s)
  {
  }

  // ---------------------------------------------------------------------------
  // Trimming
  // ---------------------------------------------------------------------------

  /** The white space the trim functions remove (no vertical tab or form feed). */
  predicate IsTrimSpace(c: char) {
    c == ' ' || c == '\t' || c == '\n' || c == '\r'
  }

  /** `s` without its leading white space: a suffix of `s` that starts with a
      non-space character, or is empty. */
  function TrimLeading(s: string): (r: string)
    ensures |r| <= |s| && r == s[|s| - |r|..]
    ensures r == [] || !IsTrimSpace(r[0])
    ensures forall k :: 0 <= k < |s| - |r| ==> IsTrimSpace(s[k])
  {
    if s != [] && IsTrimSpace(s[0]) then TrimLeading(s[1..]) else s
  }

  /** `s` without its trailing white space: a prefix of `s` that ends with a
      non-space character, or is empty. */
  function TrimTrailing(s: string): (r: string)
    ensures |r| <= |s| && r == s[..|r|]
    ensures r == [] || !IsTrimSpace(r[|r| - 1])
    ensures forall k :: |r| <= k < |s| ==> IsTrimSpace(s[k])
  {
    if s != [] && IsTrimSpace(s[|s| - 1]) then TrimTrailing(s[..|s| - 1]) else s
  }

  /** A string whose tail from `n` on is white space, with a non-space just
      before it, trims back to its first `n` characters. */
  lemma {:induction false} TrimTrailingSpaceSuffix(x: string, n: nat)
    requires n <= |x| && (n == 0 || !IsTrimSpace(x[n - 1]))
    requires forall k :: n <= k < |x| ==> IsTrimSpace(x[k])
    ensures TrimTrailing(x) == x[..n]
    decreases |x|
  {
    if n < |x| {
      var y := x[..|x| - 1];
      assert y[..n] == x[..n];
      TrimTrailingSpaceSuffix(y, n);
    } else {
      assert x[..n] == x;
    }
  }

  /** The same for the text from `lo` on, as `mlp_string_trim` sees it. */
  lemma TrimTrailingOfSlice(s: string, lo: nat, hi: nat)
    requires lo < hi <= |s| && !IsTrimSpace(s[hi - 1])
    requires forall k :: hi <= k < |s| ==> IsTrimSpace(s[k])
    ensures TrimTrailing(s[lo..]) == s[lo..hi]
  {
    var t := s[lo..];
    forall k | hi - lo <= k < |t| ensures IsTrimSpace(t[k]) {
      assert t[k] == s[lo + k];
    }
    assert t[hi - lo - 1] == s[hi - 1];
    TrimTrailingSpaceSuffix(t, hi - lo);
    assert t[..hi - lo] == s[lo..hi];
  }

  function Trimmed(s: string): string {
    TrimTrailing(TrimLeading(s))
  }

  /** The pointer walk over the leading white space that `mlp_string_trim`
      and `mlp_string_trimStart` both begin with. */
  method SkipLeadingSpace(s: string) returns (start: nat)
    ensures start <= |s| && s[start..] == TrimLeading(s)
  {
    start := 0;
    while start < |s| && IsTrimSpace(s[start])
      invariant 0 <= start <= |s|
      invariant TrimLeading(s[start..]) == TrimLeading(s)
    {
      assert s[start..][1..] == s[start + 1..];
      start := start + 1;
    }
  }

  /** `mlp_string_trimStart`: a pointer walks past the leading white space. */
  method TrimStart(str: CString) returns (r: CString)
    ensures r.None? <==> str.None?
    ensures str.Some? ==> r.value == TrimLeading(str.value)
  {
    if str.None? {
      return None;
    }
    var s := str.value;
    var start := SkipLeadingSpace(s);
    return Some(s[start..]);
  }

  /** `mlp_string_trimEnd`: a pointer walks back over the trailing white space. */
  method TrimEnd(str: CString) returns (r: CString)
    ensures r.None? <==> str.None?
    ensures str.Some? ==> r.value == TrimTrailing(str.value)
  {
    if str.None? {
      return None;
    }
    var s := str.value;
    if |s| == 0 {
      return Some("");
    }
    var end := |s| - 1;
    while end >= 0 && IsTrimSpace(s[end])
      invariant -1 <= end < |s|
      invariant forall k :: end < k < |s| ==> IsTrimSpace(s[k])
    {
      end := end - 1;
    }
    TrimTrailingSpaceSuffix(s, end + 1);
    return Some(s[..end + 1]);
  }

  /** `mlp_string_trim`: skip the leading white space; an all-space string
      gives ""; otherwise walk back from the end, never past the start. */
  method Trim(str: CString) returns (r: CString)
    ensures r.None? <==> str.None?
    ensures str.Some? ==> r.value == Trimmed(str.value)
  {
    if str.None? {
      return None;
    }
    var s := str.value;
    var start := SkipLeadingSpace(s);
    if start == |s| {
      TrimmedOf(s, start, start);
      return Some("");
    }
    var end := SkipTrailingSpace(s, start);
    TrimmedOf(s, start, end);
    return Some(s[start..end]);
  }

  /** The backward walk of `mlp_string_trim` from the last character, which
      stops at the first non-space and never passes `start`. */
  method SkipTrailingSpace(s: string, start: nat) returns (end: nat)
    requires start < |s| && !IsTrimSpace(s[start])
    ensures start < end <= |s| && TrimTrailing(s[start..]) == s[start..end]
  {
    var last := |s| - 1;
    while last > start && IsTrimSpace(s[last])
      invariant start <= last < |s|
      invariant forall k :: last < k < |s| ==> IsTrimSpace(s[k])
    {
      last := last - 1;
    }
    TrimTrailingOfSlice(s, start, last + 1);
    end := last + 1;
  }

  lemma TrimmedOf(s: string, start: nat, end: nat)
    requires start <= end <= |s| && s[start..] == TrimLeading(s)
    requires TrimTrailing(s[start..]) == s[start..end]
    ensures Trimmed(s) == s[start..end]
  {
  }

  /** `s[lo..hi]` is `s` with white space, and only white space, cut from
      both ends: everything outside is space, and the slice is empty or
      starts and ends with a non-space. */
  predicate TrimSlice(s: string, lo: nat, hi: nat) {
    lo <= hi <= |s| &&
    (forall k :: 0 <= k < |s| && (k < lo || hi <= k) ==> IsTrimSpace(s[k])) &&
    (lo == hi || (!IsTrimSpace(s[lo]) && !IsTrimSpace(s[hi - 1])))
  }

  /** The trimmed text is the contiguous slice of the input between the
      leading and the trailing white space; an all-space input gives "". */
  lemma TrimmedIsSlice(s: string)
    ensures exists lo: nat, hi: nat :: TrimSlice(s, lo, hi) && Trimmed(s) == s[lo..hi]
    ensures (forall k :: 0 <= k < |s| ==> IsTrimSpace(s[k])) ==> Trimmed(s) == ""
  {
    var lo, hi := TrimmedBounds(s);
    if lo < hi {
      assert !IsTrimSpace(s[lo]);
    }
  }

  lemma TrimmedBounds(s: string) returns (lo: nat, hi: nat)
    ensures TrimSlice(s, lo, hi) && Trimmed(s) == s[lo..hi]
  {
    var l := TrimLeading(s);
    lo := |s| - |l|;
    hi := TrailingPart(s, lo);
    if lo < hi {
      assert l[0] == s[lo];
    }
  }

  /** Trimming the end of `s[lo..]` keeps `s[lo..hi]` for some `hi`, with
      only white space after it. */
  lemma TrailingPart(s: string, lo: nat) returns (hi: nat)
    requires lo <= |s|
    ensures lo <= hi <= |s| && TrimTrailing(s[lo..]) == s[lo..hi]
    ensures forall k :: hi <= k < |s| ==> IsTrimSpace(s[k])
    ensures lo == hi || !IsTrimSpace(s[hi - 1])
  {
    var l := s[lo..];
    var t := TrimTrailing(l);
    hi := lo + |t|;
    assert t == l[..|t|];
    assert t == s[lo..hi];
    forall k | hi <= k < |s| ensures IsTrimSpace(s[k]) {
      var m := k - lo;
      assert |t| <= m < |l| && s[k] == l[m];
      assert IsTrimSpace(l[m]);
    }
    if t != [] {
      assert t[|t| - 1] == s[hi - 1];
    }
  }

  // ---------------------------------------------------------------------------
  // Replace and split
  // ---------------------------------------------------------------------------

  /** `mlp_string_replace`: the leftmost occurrence of `oldSubstr` replaced.
      A NULL or empty pattern gives a copy; a NULL replacement counts as "". */
  function Replace(str: CString, oldSubstr: CString, newSubstr: CString): (r: CString)
    ensures r.None? <==> str.None?
    ensures str.Some? && (oldSubstr.None? || oldSubstr.value == "") ==> r == str
    ensures str.Some? && oldSubstr.Some? && !Contains(str.value, oldSubstr.value) ==> r == str
  {
    if str.None? then None
    else if oldSubstr.None? || oldSubstr.value == "" then str
    else Some(ReplaceFirst(str.value, oldSubstr.value, newSubstr.GetOr("")))
  }

  /** Only the leftmost occurrence changes: no occurrence starts before it,
      and the text before and after it is kept; with no occurrence the
      result is a copy. */
  lemma ReplaceSpec(s: string, pat: string, rep: string)
    requires pat != ""
    ensures !Contains(s, pat) ==> Replace(Some(s), Some(pat), Some(rep)) == Some(s)
    ensures Contains(s, pat) ==> exists i ::
      0 <= i && i + |pat| <= |s| && OccursAt(s, pat, i) &&
      (forall j :: 0 <= j < i ==> !OccursAt(s, pat, j)) &&
      Replace(Some(s), Some(pat), Some(rep)) == Some(s[..i] + rep + s[i + |pat|..])
  {
    var f := Find(s, pat);
    if f.Some? {
      var i := f.value;
      GapHasNoOccurrence(s, pat, 0, i);
      assert s[0..i] == s[..i];
    }
  }

  /** `mlp_string_replaceAll`: a first loop counts the occurrences; with none
      the result is a copy; otherwise a second loop copies each gap and the
      replacement, and then the remainder. */
  method ReplaceAllOccurrences(str: CString, oldSubstr: CString, newSubstr: CString) returns (r: CString)
    ensures r.None? <==> str.None?
    ensures str.Some? && (oldSubstr.None? || oldSubstr.value == "") ==> r == str
    ensures str.Some? && oldSubstr.Some? && oldSubstr.value != "" ==>
      r.value == ReplaceAll(str.value, oldSubstr.value, newSubstr.GetOr(""))
  {
    if str.None? {
      return None;
    }
    if oldSubstr.None? || oldSubstr.value == "" {
      return str;
    }
    var s, p, n := str.value, oldSubstr.value, newSubstr.GetOr("");
    var count := CountOccurrences(s, p);
    if count == 0 {
      NoOccurrenceNoChange(s, p, n);
      return str;
    }
    var out := CopyReplacing(s, p, n);
    return Some(out);
  }

  /** With no occurrence counted the replacement is the text itself. */
  lemma NoOccurrenceNoChange(s: string, p: string, n: string)
    requires |p| > 0 && Count(s, p) == 0
    ensures ReplaceAll(s, p, n) == s
  {
    assert FindFrom(s, p, 0).None?;
    assert s[0..] == s;
  }

  /** The copying loop of `mlp_string_replaceAll`: each gap before an
      occurrence, then the replacement, then past the occurrence; finally the
      remainder. */
  method CopyReplacing(s: string, p: string, n: string) returns (r: string)
    requires |p| > 0
    ensures r == ReplaceAll(s, p, n)
  {
    var out := "";
    var src := 0;
    var f := FindFrom(s, p, src);
    while f.Some?
      invariant src <= |s| && f == FindFrom(s, p, src)
      invariant Replaced(s, p, n, out, src)
      decreases |s| - src
    {
      var i := f.value;
      ReplaceStep(s, p, n, out, src, i);
      out := out + s[src..i] + n;
      src := i + |p|;
      f := FindFrom(s, p, src);
    }
    ReplaceEnd(s, p, n, out, src);
    return out + s[src..];
  }

  /** What the copying loop of `mlp_string_replaceAll` keeps: the output so
      far followed by the replacement of the rest is the whole replacement. */
  ghost predicate Replaced(s: string, p: string, n: string, out: string, src: nat)
    requires |p| > 0 && src <= |s|
  {
    out + ReplaceAllFrom(s, p, n, src) == ReplaceAll(s, p, n)
  }

  lemma ReplaceStep(s: string, p: string, n: string, out: string, src: nat, i: nat)
    requires |p| > 0 && src <= |s| && FindFrom(s, p, src) == Some(i)
    requires Replaced(s, p, n, out, src)
    ensures i + |p| <= |s| && src <= i && Replaced(s, p, n, out + s[src..i] + n, i + |p|)
  {
    var rest := ReplaceAllFrom(s, p, n, i + |p|);
    ReplaceAllFromStep(s, p, n, src, i);
    AppendThree(out, s[src..i], n, rest);
  }

  lemma ReplaceEnd(s: string, p: string, n: string, out: string, src: nat)
    requires |p| > 0 && src <= |s| && FindFrom(s, p, src).None?
    requires Replaced(s, p, n, out, src)
    ensures out + s[src..] == ReplaceAll(s, p, n)
  {
  }

  lemma AppendThree(w: string, x: string, y: string, z: string)
    ensures w + x + y + z == w + (x + y + z)
  {
  }

  /** The counting loop shared by `mlp_string_replaceAll` and
      `mlp_string_split`: `strstr` from just past the previous occurrence. */
  method CountOccurrences(s: string, p: string) returns (count: nat)
    requires |p| > 0
    ensures count == Count(s, p)
  {
    count := 0;
    var pos := 0;
    var f := FindFrom(s, p, pos);
    while f.Some?
      invariant pos <= |s| && f == FindFrom(s, p, pos)
      invariant count + CountFrom(s, p, pos) == Count(s, p)
      decreases |s| - pos
    {
      count := count + 1;
      pos := f.value + |p|;
      f := FindFrom(s, p, pos);
    }
  }

  /** The full replacement changes the length by |rep| - |pat| per
      occurrence, and removes every occurrence when the replacement is
      non-empty and shares no character with the pattern. */
  lemma ReplaceAllSpec(s: string, pat: string, rep: string)
    requires pat != ""
    ensures |ReplaceAll(s, pat, rep)| == |s| + Count(s, pat) * (|rep| - |pat|)
    ensures !Contains(s, pat) ==> ReplaceAll(s, pat, rep) == s
    ensures rep != [] && (forall i, j :: 0 <= i < |rep| && 0 <= j < |pat| ==> rep[i] != pat[j]) ==>
      !Contains(ReplaceAll(s, pat, rep), pat)
  {
    ReplaceAllFromLength(s, pat, rep, 0);
    if !Contains(s, pat) {
      ReplaceAllAbsent(s, pat, rep);
    }
    if rep != [] && (forall i, j :: 0 <= i < |rep| && 0 <= j < |pat| ==> rep[i] != pat[j]) {
      ReplaceAllFromRemovesPattern(s, pat, rep, 0);
    }
  }

  /** `mlp_string_split`: NULL arguments give NULL and count 0; an empty
      delimiter gives the whole string as the one part; otherwise a first
      loop counts the parts and a second collects the text between
      delimiters, then the remainder. */
  method SplitParts(str: CString, delimiter: CString) returns (parts: Option<seq<string>>, count: nat)
    ensures parts.None? <==> str.None? || delimiter.None?
    ensures parts.None? ==> count == 0
    ensures parts.Some? ==> count == |parts.value|
    ensures parts.Some? && delimiter.value == "" ==> parts.value == [str.value]
    ensures parts.Some? && delimiter.value != "" ==> parts.value == Split(str.value, delimiter.value)
  {
    if str.None? || delimiter.None? {
      return None, 0;
    }
    var s, d := str.value, delimiter.value;
    if d == "" {
      return Some([s]), 1;
    }
    var occurrences := CountOccurrences(s, d);
    var n := occurrences + 1;
    var result: seq<string> := [];
    var start := 0;
    var f := FindFrom(s, d, start);
    while f.Some?
      invariant start <= |s| && f == FindFrom(s, d, start)
      invariant result + SplitFrom(s, d, start) == Split(s, d)
      decreases |s| - start
    {
      SplitStep(s, d, result, start, f.value);
      result := result + [s[start..f.value]];
      start := f.value + |d|;
      f := FindFrom(s, d, start);
    }
    SplitFromEnd(s, d, start);
    result := result + [s[start..]];
    SplitFromShape(s, d, 0);
    return Some(result), n;
  }

  /** One pass of the collecting loop of `mlp_string_split`: the part before
      the next delimiter moves from the pending pieces to the result. */
  lemma SplitStep(s: string, d: string, result: seq<string>, start: nat, i: nat)
    requires |d| > 0 && start <= |s| && FindFrom(s, d, start) == Some(i)
    requires result + SplitFrom(s, d, start) == Split(s, d)
    ensures start <= i && i + |d| <= |s|
    ensures (result + [s[start..i]]) + SplitFrom(s, d, i + |d|) == Split(s, d)
  {
    SplitFromStep(s, d, start, i);
    AppendAssociates(result, [s[start..i]], SplitFrom(s, d, i + |d|));
  }

  /** The parts of a split: one more than the delimiter occurrences, none
      containing the delimiter, and joined with the delimiter they give back
      the input. */
  lemma SplitSpec(s: string, d: string)
    requires d != ""
    ensures |Split(s, d)| == Count(s, d) + 1
    ensures forall k :: 0 <= k < |Split(s, d)| ==> !Contains(Split(s, d)[k], d)
    ensures Join(Split(s, d), d) == s
  {
    SplitFromShape(s, d, 0);
    JoinSplitFrom(s, d, 0);
  }
}

=== FILE: parse_helper.dfy ===
/** The bootstrap parser helper (scripts/parse_helper.py): two leftmost regular
    expression searches over MELP source text.  `\s` is Python's white space
    on ASCII text, `\w` ASCII letters, digits and '_', `\d` the digits '0'..'9'. */
module ParseHelper {
  import opened Wrappers
  import opened Decimal

  predicate IsWordChar(c: char) {
    'a' <= c <= 'z' || 'A' <= c <= 'Z' || '0' <= c <= '9' || c == '_'
  }

  /** Python's `\s` on ASCII text: the six characters C's `isspace` accepts
      and the four information separators 0x1c..0x1f. */
  predicate IsRegexSpace(c: char) {
    IsSpace(c) || 28 <= c as int <= 31
  }

  /** The first index at or after `i` that `\s` does not match. */
  function SkipRegexSpaces(s: string, i: nat): (j: nat)
    requires i <= |s|
    ensures i <= j <= |s| && (j < |s| ==> !IsRegexSpace(s[j]))
    ensures AllSpace(s[i..j])
    decreases |s| - i
  {
    if i < |s| && IsRegexSpace(s[i]) then
      var j := SkipRegexSpaces(s, i + 1);
      assert s[i..j] == [s[i]] + s[i + 1..j];
      j
    else i
  }

  predicate AllSpace(s: string) {
    forall i :: 0 <= i < |s| ==> IsRegexSpace(s[i])
  }

  predicate AllWord(s: string) {
    forall i :: 0 <= i < |s| ==> IsWordChar(s[i])
  }

  /** The end of the maximal run of word characters starting at `i`. */
  function WordRunEnd(s: string, i: nat): (j: nat)
    requires i <= |s|
    ensures i <= j <= |s| && (j < |s| ==> !IsWordChar(s[j]))
    ensures AllWord(s[i..j])
    decreases |s| - i
  {
    if i < |s| && IsWordChar(s[i]) then
      var j := WordRunEnd(s, i + 1);
      assert s[i..j] == [s[i]] + s[i + 1..j];
      j
    else i
  }

  /** A run of white space from `i` to `j` followed by a non-space is exactly
      what `SkipRegexSpaces` skips. */
  lemma SpaceRunIsMaximal(s: string, i: nat, j: nat)
    requires i <= j <= |s| && AllSpace(s[i..j]) && (j < |s| ==> !IsRegexSpace(s[j]))
    ensures SkipRegexSpaces(s, i) == j
  {
  }

  lemma WordRunIsMaximal(s: string, i: nat, j: nat)
    requires i <= j <= |s| && AllWord(s[i..j]) && (j < |s| ==> !IsWordChar(s[j]))
    ensures WordRunEnd(s, i) == j
  {
  }

  // ---------------------------------------------------------------------------
  // extract_function_name: re.search(r'function\s+(\w+)\s*\(', source)
  // ---------------------------------------------------------------------------

  /** The pattern `function\s+(\w+)\s*\(` matches starting at `i`, with the
      white space ending at `p1`, group 1 spanning `[p1, p2)`, the optional
      white space ending at `p3`, and "(" at `p3`. */
  predicate FunctionPatternAt(s: string, i: nat, p1: nat, p2: nat, p3: nat) {
    i + 8 < p1 < p2 <= p3 < |s| && s[i..i + 8] == "function" &&
    AllSpace(s[i + 8..p1]) && AllWord(s[p1..p2]) && AllSpace(s[p2..p3]) && s[p3] == '('
  }

  /** The match at `i` as the regex engine finds it: every quantifier is
      greedy, and since white space, word characters and "(" are disjoint
      classes no backtracking can change the split. */
  function MatchFunctionAt(s: string, i: nat): (r: Option<(nat, nat)>)
    ensures r.Some? ==> i + 8 < r.value.0 < r.value.1 <= |s|
  {
    if i + 8 <= |s| && s[i..i + 8] == "function" then
      var p1 := SkipRegexSpaces(s, i + 8);
      var p2 := WordRunEnd(s, p1);
      var p3 := SkipRegexSpaces(s, p2);
      if i + 8 < p1 < p2 && p3 < |s| && s[p3] == '(' then Some((p1, p2)) else None
    else None
  }

  /** A match found at `i` is a match of the pattern there, and group 1 is
      not followed by another word character. */
  lemma MatchFunctionAtSound(s: string, i: nat)
    requires MatchFunctionAt(s, i).Some?
    ensures var r := MatchFunctionAt(s, i).value;
      FunctionPatternAt(s, i, r.0, r.1, SkipRegexSpaces(s, r.1)) && (r.1 == |s| || !IsWordChar(s[r.1]))
  {
  }

  /** The pattern matches at `i` exactly when `MatchFunctionAt` finds a match,
      and every way the pattern can match at `i` captures the same name. */
  lemma MatchFunctionAtExact(s: string, i: nat, p1: nat, p2: nat, p3: nat)
    requires FunctionPatternAt(s, i, p1, p2, p3)
    ensures MatchFunctionAt(s, i) == Some((p1, p2))
  {
    SpaceRunIsMaximal(s, i + 8, p1);
    WordRunIsMaximal(s, p1, p2);
    SpaceRunIsMaximal(s, p2, p3);
  }

  /** The leftmost position at or after `from` where the pattern matches. */
  function FindFunctionFrom(s: string, from: nat): (r: Option<nat>)
    decreases |s| - from
    ensures r.Some? ==> from <= r.value && MatchFunctionAt(s, r.value).Some?
    ensures r.Some? ==> forall j :: from <= j < r.value ==> MatchFunctionAt(s, j).None?
    ensures r.None? ==> forall j :: from <= j ==> MatchFunctionAt(s, j).None?
  {
    if from + 8 > |s| then None
    else if MatchFunctionAt(s, from).Some? then Some(from)
    else FindFunctionFrom(s, from + 1)
  }

  /** `extract_function_name`: group 1 of the leftmost match, or "main".
      Either way the result is a non-empty run of word characters. */
  function ExtractFunctionName(source: string): (name: string)
    ensures name == "main" || (name != [] && AllWord(name))
  {
    var m := FindFunctionFrom(source, 0);
    if m.Some? then
      var span := MatchFunctionAt(source, m.value).value;
      source[span.0..span.1]
    else "main"
  }

  /** The name returned is group 1 of the leftmost position where the pattern
      matches, whichever way the pattern is split there. */
  lemma ExtractFunctionNameLeftmost(source: string, i: nat, p1: nat, p2: nat, p3: nat)
    requires FunctionPatternAt(source, i, p1, p2, p3)
    requires forall j: nat, q1: nat, q2: nat, q3: nat :: j < i ==> !FunctionPatternAt(source, j, q1, q2, q3)
    ensures ExtractFunctionName(source) == source[p1..p2]
  {
    MatchFunctionAtExact(source, i, p1, p2, p3);
    var pos := FindFunctionFrom(source, 0).value;
    MatchFunctionAtSound(source, pos);
    assert pos == i;
  }

  /** When the pattern matches nowhere the default "main" is returned. */
  lemma ExtractFunctionNameDefault(source: string)
    requires forall j: nat, q1: nat, q2: nat, q3: nat :: !FunctionPatternAt(source, j, q1, q2, q3)
    ensures ExtractFunctionName(source) == "main"
  {
    var m := FindFunctionFrom(source, 0);
    if m.Some? {
      MatchFunctionAtSound(source, m.value);
    }
  }

  /** A name that was found is a non-empty run of word characters that the
      next character does not extend. */
  lemma ExtractedNameIsWord(source: string)
    requires FindFunctionFrom(source, 0).Some?
    ensures var name := ExtractFunctionName(source);
      name != [] && AllWord(name)
    ensures var span := MatchFunctionAt(source, FindFunctionFrom(source, 0).value).value;
      span.1 == |source| || !IsWordChar(source[span.1])
  {
    MatchFunctionAtSound(source, FindFunctionFrom(source, 0).value);
  }

  /** In "myfunction foo(" the leftmost match is the keyword inside the word
      "myfunction", and its group 1 is "foo". */
  lemma KeywordInsideWordMatches(s: string)
    requires s == "myfunction foo("
    ensures FindFunctionFrom(s, 0) == Some(2) && MatchFunctionAt(s, 2) == Some((11, 14))
    ensures ExtractFunctionName(s) == s[11..14]
  {
    assert s[0..8][0] == 'm' && s[1..9][0] == 'y';
    assert s[2..10] == "function";
    assert AllSpace(s[10..11]) && AllWord(s[11..14]) && s[14..14] == [] && s[14] == '(';
    MatchFunctionAtExact(s, 2, 11, 14, 14);
  }

  /** The keyword is not anchored at a word boundary. */
  lemma ExtractFunctionNameInsideWord()
    ensures ExtractFunctionName("myfunction foo(") == "foo"
  {
    var s := "myfunction foo(";
    KeywordInsideWordMatches(s);
    assert s[11..14] == "foo";
  }

  // ---------------------------------------------------------------------------
  // extract_return_value: re.search(r'return\s+(\d+)', source)
  // ---------------------------------------------------------------------------

  /** The pattern `return\s+(\d+)` matches starting at `i`, with group 1
      spanning `[p1, p2)`. */
  predicate ReturnPatternAt(s: string, i: nat, p1: nat, p2: nat) {
    i + 6 < p1 < p2 <= |s| && s[i..i + 6] == "return" &&
    AllSpace(s[i + 6..p1]) && IsDigits(s[p1..p2])
  }

  /** The greedy match at `i`: all the white space, then all the digits. */
  function MatchReturnAt(s: string, i: nat): (r: Option<(nat, nat)>)
    ensures r.Some? ==> i + 6 < r.value.0 < r.value.1 <= |s| && IsDigits(s[r.value.0..r.value.1])
  {
    if i + 6 <= |s| && s[i..i + 6] == "return" then
      var p1 := SkipRegexSpaces(s, i + 6);
      var p2 := DigitRunEnd(s, p1);
      if i + 6 < p1 < p2 then Some((p1, p2)) else None
    else None
  }

  /** A match found at `i` is a match of the pattern there, and group 1 is
      not followed by another digit. */
  lemma MatchReturnAtSound(s: string, i: nat)
    requires MatchReturnAt(s, i).Some?
    ensures var r := MatchReturnAt(s, i).value;
      ReturnPatternAt(s, i, r.0, r.1) && (r.1 == |s| || !IsDigit(s[r.1]))
  {
  }

  /** The greedy `\d+` run from `i` reaches at least as far as any run of
      digits from `i`. */
  lemma {:induction false} DigitRunReaches(s: string, i: nat, j: nat)
    requires i <= j <= |s| && IsDigits(s[i..j])
    ensures j <= DigitRunEnd(s, i)
    decreases j - i
  {
    if i < j {
      assert s[i..j][0] == s[i];
      assert s[i + 1..j] == s[i..j][1..];
      DigitRunReaches(s, i + 1, j);
    }
  }

  /** Every way the pattern can match at `i` starts group 1 where the greedy
      match does and ends it no later: the greedy match takes the longest
      digit run. */
  lemma MatchReturnAtGreedy(s: string, i: nat, p1: nat, p2: nat)
    requires ReturnPatternAt(s, i, p1, p2)
    ensures MatchReturnAt(s, i).Some?
    ensures MatchReturnAt(s, i).value.0 == p1 && p2 <= MatchReturnAt(s, i).value.1
  {
    SpaceRunIsMaximal(s, i + 6, p1);
    DigitRunReaches(s, p1, p2);
  }

  /** A run of digits that the next character does not extend is the
      greedy `\d+` run. */
  lemma {:induction false} DigitRunIsMaximal(s: string, i: nat, j: nat)
    requires i <= j <= |s| && IsDigits(s[i..j]) && (j < |s| ==> !IsDigit(s[j]))
    ensures DigitRunEnd(s, i) == j
    decreases j - i
  {
    if i < j {
      assert s[i..j][0] == s[i];
      assert s[i + 1..j] == s[i..j][1..];
      DigitRunIsMaximal(s, i + 1, j);
    }
  }

  /** The leftmost position at or after `from` where the pattern matches. */
  function FindReturnFrom(s: string, from: nat): (r: Option<nat>)
    decreases |s| - from
    ensures r.Some? ==> from <= r.value && MatchReturnAt(s, r.value).Some?
    ensures r.Some? ==> forall j :: from <= j < r.value ==> MatchReturnAt(s, j).None?
    ensures r.None? ==> forall j :: from <= j ==> MatchReturnAt(s, j).None?
  {
    if from + 6 > |s| then None
    else if MatchReturnAt(s, from).Some? then Some(from)
    else FindReturnFrom(s, from + 1)
  }

  /** `extract_return_value`: the integer value of group 1 of the leftmost
      match, or 0.  A non-zero result is spelled by digits in the source. */
  function ExtractReturnValue(source: string): (v: nat)
    ensures v == 0 || exists i, j :: 0 <= i < j <= |source| && IsDigits(source[i..j]) && v == ValueOf(source[i..j])
  {
    var m := FindReturnFrom(source, 0);
    if m.Some? then
      var span := MatchReturnAt(source, m.value).value;
      ValueOf(source[span.0..span.1])
    else 0
  }

  /** With no match anywhere the default 0 is returned; otherwise the value of
      a non-empty run of digits that the next character does not extend. */
  lemma ExtractReturnValueSpec(source: string)
    ensures (forall j: nat, q1: nat, q2: nat :: !ReturnPatternAt(source, j, q1, q2)) ==>
      ExtractReturnValue(source) == 0
    ensures FindReturnFrom(source, 0).Some? ==>
      var span := MatchReturnAt(source, FindReturnFrom(source, 0).value).value;
      span.0 < span.1 <= |source| && IsDigits(source[span.0..span.1]) &&
      (span.1 == |source| || !IsDigit(source[span.1])) &&
      ExtractReturnValue(source) == ValueOf(source[span.0..span.1])
  {
    var m := FindReturnFrom(source, 0);
    if m.Some? {
      MatchReturnAtSound(source, m.value);
    }
  }

  /** The value returned is that of the longest digit run at the leftmost
      position where the pattern matches. */
  lemma ExtractReturnValueLeftmost(source: string, i: nat, p1: nat, p2: nat)
    requires ReturnPatternAt(source, i, p1, p2) && (p2 == |source| || !IsDigit(source[p2]))
    requires forall j: nat, q1: nat, q2: nat :: j < i ==> !ReturnPatternAt(source, j, q1, q2)
    ensures ExtractReturnValue(source) == ValueOf(source[p1..p2])
  {
    MatchReturnAtGreedy(source, i, p1, p2);
    var pos := FindReturnFrom(source, 0).value;
    MatchReturnAtSound(source, pos);
    assert pos == i;
    DigitRunIsMaximal(source, p1, p2);
  }

  /** In "return -5 return 7" the pattern matches nowhere before the second
      "return": the first is followed by a sign, the rest is not "return". */
  lemma NoReturnMatchBeforeSecond(s: string)
    requires s == "return -5 return 7"
    ensures forall j :: 0 <= j < 10 ==> MatchReturnAt(s, j).None?
  {
    forall j | 0 <= j < 10 ensures MatchReturnAt(s, j).None? {
      if j == 0 {
        assert SkipRegexSpaces(s, 6) == 7 && DigitRunEnd(s, 7) == 7;
      } else {
        assert s[j..j + 6][0] == s[j];
      }
    }
  }

  /** "return" followed by a sign or an identifier is passed over. */
  lemma ExtractReturnValueSkipsNegative()
    ensures ExtractReturnValue("return -5 return 7") == 7
  {
    var s := "return -5 return 7";
    NoReturnMatchBeforeSecond(s);
    assert s[10..16] == "return";
    assert SkipRegexSpaces(s, 16) == 17 && DigitRunEnd(s, 17) == 18;
    assert MatchReturnAt(s, 10) == Some((17, 18));
    assert FindReturnFrom(s, 0) == Some(10);
    assert s[17..18] == "7";
    assert ValueOf("7") == 7 by { assert "7"[..0] == []; }
  }
}

=== FILE: runtime_sto.dfy ===
/** The STO runtime of runtime/sto/runtime_sto.c: int64_t overflow checks
    used to decide promotion to big decimals, the big-decimal record with its
    text conversions and ordering, the small-string-optimised string record
    (inline when at most 23 bytes), and literal classification. */
module RuntimeSto {
  import opened Wrappers
  import opened Machine
  import opened Text
  import opened Decimal

  // ---------------------------------------------------------------------------
  // Overflow detection
  // ---------------------------------------------------------------------------

  /** `sto_runtime_add_will_overflow`: exact for every pair of int64_t values. */
  function AddWillOverflow(a: Int64, b: Int64): (r: bool)
    ensures r <==> !InRange(a + b)
  {
    if b > 0 && a > INT64_MAX - b then true
    else if b < 0 && a < INT64_MIN - b then true
    else false
  }

  /** `sto_runtime_sub_will_overflow` as written: `INT64_MIN` as subtrahend is
      special-cased to `a > 0`, otherwise `a + (-b)` is checked. */
  function SubWillOverflow(a: Int64, b: Int64): (r: bool)
    ensures b != INT64_MIN ==> (r <==> !InRange(a - b))
    ensures b == INT64_MIN ==> (r <==> a > 0)
  {
    if b == INT64_MIN then a > 0
    else AddWillOverflow(a, -b)
  }

  /** The special case misses zero: `0 - INT64_MIN` is 2^63, one past
      `INT64_MAX`, yet no overflow is reported. */
  lemma SubWillOverflowMissesZero()
    ensures !SubWillOverflow(0, INT64_MIN) && !InRange(0 - INT64_MIN)
  {
  }

  /** The intended check: the special case must also catch `a == 0`. */
  function SubWillOverflowFixed(a: Int64, b: Int64): (r: bool)
    ensures r <==> !InRange(a - b)
  {
    if b == INT64_MIN then a >= 0
    else AddWillOverflow(a, -b)
  }

  /** `sto_runtime_mul_will_overflow`: the trivial factors first, then the
      hardware's wrapped product divided back by `a` (C division). */
  function MulWillOverflow(a: Int64, b: Int64): (r: bool)
    ensures r <==> !InRange(a * b)
  {
    if a == 0 || b == 0 then false
    else if a == 1 || b == 1 then false
    else if a == -1 then b == INT64_MIN
    else if b == -1 then a == INT64_MIN
    else
      MulCheckExact(a, b);
      CDiv(Wrap(a * b), a) != b
  }

  /** Dividing the wrapped product back by a non-zero factor recovers the
      other factor exactly when the product did not wrap. */
  lemma MulCheckExact(a: Int64, b: Int64)
    requires a != 0
    ensures (CDiv(Wrap(a * b), a) != b) <==> !InRange(a * b)
  {
    var p := a * b;
    if InRange(p) {
      DivideBackInRange(a, b, p);
    } else {
      DivideBackWrapped(a, b, p);
    }
  }

  lemma DivideBackInRange(a: Int64, b: Int64, p: int)
    requires a != 0 && p == a * b && InRange(p)
    ensures CDiv(Wrap(p), a) == b
  {
    var q := CDiv(p, a);
    CDivBounds(p, a);
    if q != b {
      var d := b - q;
      assert p - q * a == d * a;
      AbsProductAtLeast(d, a);
    }
  }

  lemma DivideBackWrapped(a: Int64, b: Int64, p: int)
    requires a != 0 && p == a * b && !InRange(p)
    ensures CDiv(Wrap(p), a) != b
  {
    var w := Wrap(p);
    CDivBounds(w, a);
    NonzeroMultipleOfTwo64(w - p);
  }

  lemma AbsProductAtLeast(d: int, a: int)
    requires d != 0
    ensures Abs(d * a) >= Abs(a)
  {
    var x, y := Abs(d), Abs(a);
    AbsOfProduct(d, a);
    MulAtLeast(y, x);
  }

  lemma AbsOfProduct(d: int, a: int)
    ensures Abs(d * a) == Abs(d) * Abs(a)
  {
    if d < 0 && a < 0 { assert d * a == (-d) * (-a); }
    else if d < 0 { assert d * a == -((-d) * a); }
    else if a < 0 { assert d * a == -(d * (-a)); }
  }

  lemma MulAtLeast(x: nat, p: nat)
    requires p >= 1
    ensures x * p >= x
  {
    assert x * p == x * (p - 1) + x;
  }

  lemma NonzeroMultipleOfTwo64(x: int)
    requires x % TWO_64 == 0 && x != 0
    ensures Abs(x) >= TWO_64
  {
    var k := x / TWO_64;
    assert x == k * TWO_64;
  }

  /** `sto_runtime_safe_add`: on overflow the result is 0 and true is returned,
      otherwise the exact sum and false. */
  method SafeAdd(a: Int64, b: Int64) returns (overflow: bool, result: Int64)
    ensures overflow <==> !InRange(a + b)
    ensures overflow ==> result == 0
    ensures !overflow ==> result == a + b
  {
    if AddWillOverflow(a, b) {
      return true, 0;
    }
    return false, a + b;
  }

  /** `sto_runtime_safe_sub`: built on the check as written, so the missed
      case `0 - INT64_MIN` comes back as "no overflow" with the wrapped
      difference; everywhere else it is exact. */
  method SafeSub(a: Int64, b: Int64) returns (overflow: bool, result: Int64)
    ensures overflow ==> !InRange(a - b) && result == 0
    ensures !overflow ==> result == Wrap(a - b)
    ensures !(a == 0 && b == INT64_MIN) ==> (overflow <==> !InRange(a - b))
    ensures a == 0 && b == INT64_MIN ==> !overflow && result == INT64_MIN
  {
    if SubWillOverflow(a, b) {
      return true, 0;
    }
    return false, Wrap(a - b);
  }

  /** `sto_runtime_safe_sub` on the intended check: exact everywhere. */
  method SafeSubFixed(a: Int64, b: Int64) returns (overflow: bool, result: Int64)
    ensures overflow <==> !InRange(a - b)
    ensures overflow ==> result == 0
    ensures !overflow ==> result == a - b
  {
    if SubWillOverflowFixed(a, b) {
      return true, 0;
    }
    return false, a - b;
  }

  /** `sto_runtime_safe_mul`: on overflow the result is 0 and true is returned,
      otherwise the exact product and false. */
  method SafeMul(a: Int64, b: Int64) returns (overflow: bool, result: Int64)
    ensures overflow <==> !InRange(a * b)
    ensures overflow ==> result == 0
    ensures !overflow ==> result == a * b
  {
    if MulWillOverflow(a, b) {
      return true, 0;
    }
    return false, a * b;
  }

  // ---------------------------------------------------------------------------
  // BigDecimal: a sign and a string of decimal digits
  // ---------------------------------------------------------------------------

  /** The `BigDecimal` record: magnitude digits (most significant first), the
      `length` field, the sign flag and the reference count. */
  datatype BigDecimal = BigDecimal(digits: string, length: int, negative: bool, refcount: int)

  /** The signed number a record with a digit magnitude denotes. */
  function Value(bd: BigDecimal): int
    requires IsDigits(bd.digits)
  {
    var magnitude: int := ValueOf(bd.digits);
    if bd.negative then -magnitude else magnitude
  }

  /** A record as the arithmetic produces it: canonical digits, a `length`
      that matches them, and no negative zero. */
  predicate WellFormed(bd: BigDecimal) {
    Canonical(bd.digits) && bd.length == |bd.digits| && !(bd.negative && bd.digits == "0")
  }

  /** `sto_bigdec_from_int64`: the magnitude is computed as `-(v + 1) + 1`
      so that `INT64_MIN` is not negated, then printed with "%llu". */
  function FromInt64(value: Int64): (bd: BigDecimal)
    ensures WellFormed(bd) && Value(bd) == value
    ensures bd.negative <==> value < 0
    ensures bd.refcount == 1
  {
    var absValue: nat := if value < 0 then -(value + 1) + 1 else value;
    assert absValue == Abs(value);
    var digits := NatToDigits(absValue);
    BigDecimal(digits, |digits|, value < 0, 1)
  }

  /** `sto_bigdec_from_string`: a leading '-' sets the sign and the rest is
      taken as the digits, unchecked; NULL gives NULL. */
  function FromString(str: Option<string>): (r: Option<BigDecimal>)
    ensures r.Some? <==> str.Some?
    ensures r.Some? ==> r.value.refcount == 1 && r.value.length == |r.value.digits|
    ensures r.Some? ==> (r.value.negative <==> |str.value| > 0 && str.value[0] == '-')
    ensures r.Some? ==> str.value == (if r.value.negative then "-" else "") + r.value.digits
  {
    if str.None? then None
    else
      var s := str.value;
      var negative := |s| > 0 && s[0] == '-';
      var digits := if negative then s[1..] else s;
      assert negative ==> s == "-" + digits;
      Some(BigDecimal(digits, |digits|, negative, 1))
  }

  /** `sto_bigdec_to_string`: '-' before the digits when negative. */
  function ToString(bd: Option<BigDecimal>): (r: Option<string>)
    ensures r.Some? <==> bd.Some?
    ensures r.Some? ==> |r.value| == |bd.value.digits| + (if bd.value.negative then 1 else 0)
    ensures r.Some? ==> (bd.value.negative <==> r.value[..|r.value| - |bd.value.digits|] == "-")
  {
    if bd.None? then None
    else if bd.value.negative then Some("-" + bd.value.digits)
    else Some(bd.value.digits)
  }

  /** Parsing text and printing it again gives back the text. */
  lemma StringRoundTrip(s: string)
    ensures ToString(FromString(Some(s))) == Some(s)
  {
  }

  /** A record built from an int64_t prints as `printf("%lld")` would, and
      reading that text back gives an equal record. */
  lemma FromInt64Text(v: Int64)
    ensures ToString(Some(FromInt64(v))) == Some(IntToString(v))
    ensures FromString(Some(IntToString(v))) == Some(FromInt64(v))
  {
    var s := IntToString(v);
    var digits := NatToDigits(Abs(v));
    assert FromInt64(v).digits == digits;
    if v < 0 {
      assert s == "-" + digits && s[1..] == digits;
    } else {
      assert s == digits && IsDigit(s[0]);
    }
  }

  /** `sto_bigdec_compare`: NULL on either side compares equal; otherwise
      the sign, then the `length` fields, then `strcmp` of the digits, with
      the magnitude order reversed for two negatives. */
  function Compare(a: Option<BigDecimal>, b: Option<BigDecimal>): (c: int)
    ensures -1 <= c <= 1
    ensures a.None? || b.None? ==> c == 0
    ensures a.Some? && b.Some? && a.value.negative != b.value.negative ==>
      c == (if a.value.negative then -1 else 1)
  {
    if a.None? || b.None? then 0
    else
      var x, y := a.value, b.value;
      if x.negative && !y.negative then -1
      else if !x.negative && y.negative then 1
      else
        var lenCmp := x.length - y.length;
        if lenCmp != 0 then
          if x.negative then (if lenCmp > 0 then -1 else 1)
          else (if lenCmp > 0 then 1 else -1)
        else
          var digitCmp := LexCompare(x.digits, y.digits);
          if x.negative then (if digitCmp > 0 then -1 else if digitCmp < 0 then 1 else 0)
          else (if digitCmp > 0 then 1 else if digitCmp < 0 then -1 else 0)
  }

  /** The sign of `x - y` as -1, 0 or 1. */
  function Sign(x: int): int {
    if x < 0 then -1 else if x > 0 then 1 else 0
  }

  /** On well-formed records the comparison is the order of the signed values. */
  lemma CompareIsNumericOrder(a: BigDecimal, b: BigDecimal)
    requires WellFormed(a) && WellFormed(b)
    ensures Compare(Some(a), Some(b)) == Sign(Value(a) - Value(b))
  {
    var da, db := a.digits, b.digits;
    if |da| < |db| {
      CanonicalLengthOrder(da, db);
    } else if |db| < |da| {
      CanonicalLengthOrder(db, da);
    } else {
      LexCompareIsNumericOrder(da, db);
    }
    if a.negative != b.negative {
      assert ValueOf(da) > 0 || ValueOf(db) > 0 by {
        if a.negative { DigitsRoundTrip(da); } else { DigitsRoundTrip(db); }
      }
    }
  }

  /** A record behind a pointer: `sto_bigdec_free` decrements its count and
      releases it once the count is no longer positive. */
  class BigDecimalRef {
    var value: BigDecimal
    var released: bool

    constructor (bd: BigDecimal)
      ensures value == bd && !released
    {
      value := bd;
      released := false;
    }

    /** `sto_bigdec_free` on a non-NULL record. */
    method Free()
      requires !released
      modifies this
      ensures value == old(value).(refcount := old(value.refcount) - 1)
      ensures released <==> value.refcount <= 0
    {
      value := value.(refcount := value.refcount - 1);
      released := value.refcount <= 0;
    }
  }

  // ---------------------------------------------------------------------------
  // SSO string: inline when at most 23 bytes, flags bit 0 marks heap storage
  // ---------------------------------------------------------------------------

  const SsoInlineMax: nat := 23

  /** The `SSOString` record.  The C union overlays `inline_data` with the
      heap triple; here both halves are fields and `flags` selects which one
      is meaningful. */
  datatype SsoString = SsoString(flags: nat, inlineData: string, heapPtr: string, heapLength: nat, heapCapacity: nat)

  predicate IsHeap(s: SsoString) {
    s.flags % 2 == 1
  }

  /** The representation invariant every constructor establishes: an inline
      string keeps its length in `flags >> 1` and fits in 23 bytes, a heap
      string has `flags == 1`, a matching length and one byte of capacity
      for the NUL. */
  predicate Valid(s: SsoString) {
    s.flags < 256 &&
    (IsHeap(s) ==> s.flags == 1 && |s.heapPtr| == s.heapLength && s.heapLength > SsoInlineMax &&
                   s.heapCapacity == s.heapLength + 1) &&
    (!IsHeap(s) ==> |s.inlineData| <= SsoInlineMax && s.flags == 2 * |s.inlineData|)
  }

  /** `sto_sso_data`: the heap pointer when bit 0 of `flags` is set, the
      inline buffer otherwise; NULL gives NULL. */
  function Data(s: Option<SsoString>): (r: Option<string>)
    ensures r.Some? <==> s.Some?
  {
    if s.None? then None
    else if IsHeap(s.value) then Some(s.value.heapPtr)
    else Some(s.value.inlineData)
  }

  /** The record `sto_sso_create` builds for a text of a known length. */
  function MakeSso(text: string): (s: SsoString)
    ensures Valid(s) && Data(Some(s)) == Some(text)
    ensures IsHeap(s) <==> |text| > SsoInlineMax
  {
    if |text| <= SsoInlineMax then SsoString(|text| * 2, text, "", 0, 0)
    else SsoString(1, "", text, |text|, |text| + 1)
  }

  /** `sto_sso_create`: NULL gives NULL; otherwise the text is stored inline
      iff it has at most 23 bytes, and `sto_sso_data` gives it back. */
  function Create(str: Option<string>): (r: Option<SsoString>)
    ensures r.Some? <==> str.Some?
    ensures Data(r) == str
    ensures r.Some? ==> Valid(r.value) && (IsHeap(r.value) <==> |str.value| > SsoInlineMax)
    ensures r.Some? && !IsHeap(r.value) ==> r.value.flags == 2 * |str.value|
  {
    if str.None? then None else Some(MakeSso(str.value))
  }

  // ---------------------------------------------------------------------------
  // Literal classification
  // ---------------------------------------------------------------------------

  /** The digit characters of `s`, in order. */
  function DigitsOf(s: string): (d: string)
    ensures IsDigits(d) && |d| <= |s|
  {
    if s == [] then []
    else if IsDigit(s[|s| - 1]) then DigitsOf(s[..|s| - 1]) + [s[|s| - 1]]
    else DigitsOf(s[..|s| - 1])
  }

  lemma {:induction false} DigitsOfConcat(x: string, y: string)
    ensures DigitsOf(x + y) == DigitsOf(x) + DigitsOf(y)
    decreases |y|
  {
    if y == [] {
      assert x + y == x;
    } else {
      var init := y[..|y| - 1];
      assert (x + y)[..|x + y| - 1] == x + init;
      DigitsOfConcat(x, init);
    }
  }

  /** The classification `sto_infer_numeric_type` aims at: a big decimal is
      needed when there are more than 19 digits or their value exceeds
      `INT64_MAX`; the sign is not looked at. */
  function NumericKind(s: string): int {
    var d := DigitsOf(s);
    if |d| > 19 || ValueOf(d) > INT64_MAX then 1 else 0
  }

  /** `sto_infer_numeric_type`: count the digits; over 19 means big decimal,
      exactly 19 means accumulate them after an optional '-' and report
      whether the accumulation would pass `INT64_MAX`. */
  method InferNumericType(literal: Option<string>) returns (r: int)
    ensures literal.None? ==> r == 0
    ensures literal.Some? ==> r == NumericKind(literal.value)
  {
    if literal.None? {
      return 0;
    }
    var s := literal.value;
    var digitCount := CountDigits(s);
    if digitCount > 19 {
      return 1;
    }
    if digitCount == 19 {
      var negative := |s| > 0 && s[0] == '-';
      var start := if negative then s[1..] else s;
      SignSkipped(s, negative, start);
      r := AccumulateFits(start);
      return;
    }
    FewDigitsFit(DigitsOf(s));
    return 0;
  }

  /** Skipping a leading '-' leaves the same digits. */
  lemma SignSkipped(s: string, negative: bool, start: string)
    requires negative == (|s| > 0 && s[0] == '-')
    requires start == if negative then s[1..] else s
    ensures DigitsOf(start) == DigitsOf(s)
  {
    if negative {
      assert s == [s[0]] + start;
      DigitsOfConcat([s[0]], start);
      assert DigitsOf([s[0]]) == [] by { assert [s[0]][..0] == []; }
    }
  }

  /** Fewer than 19 digits always fit in an int64_t. */
  lemma FewDigitsFit(d: string)
    requires IsDigits(d) && |d| < 19
    ensures ValueOf(d) <= INT64_MAX
  {
    Pow10Monotone(|d|, 18);
    assert Pow10(6) == 1_000_000;
    assert Pow10(12) == 1_000_000_000_000;
    assert Pow10(18) == 1_000_000_000_000_000_000;
  }

  /** The first loop of `sto_infer_numeric_type`. */
  method CountDigits(s: string) returns (count: nat)
    ensures count == |DigitsOf(s)|
  {
    count := 0;
    for i := 0 to |s|
      invariant count == |DigitsOf(s[..i])|
    {
      assert s[..i + 1][..i] == s[..i];
      if IsDigit(s[i]) {
        count := count + 1;
      }
    }
    assert s[..|s|] == s;
  }

  /** The second loop: accumulate the digits of `start` in an int64_t,
      stopping with 1 as soon as `value * 10` or `value + digit` would pass
      `INT64_MAX`. */
  method AccumulateFits(start: string) returns (r: int)
    ensures r == (if ValueOf(DigitsOf(start)) > INT64_MAX then 1 else 0)
  {
    var value: int := 0;
    for i := 0 to |start|
      invariant value == ValueOf(DigitsOf(start[..i])) && 0 <= value <= INT64_MAX
    {
      var prefix := start[..i + 1];
      assert prefix[..i] == start[..i];
      if IsDigit(start[i]) {
        var digit := DigitValue(start[i]);
        assert DigitsOf(prefix) == DigitsOf(start[..i]) + [start[i]];
        ValueSnoc(DigitsOf(start[..i]), start[i]);
        if value > INT64_MAX / 10 {
          PrefixValueBound(start, i + 1);
          return 1;
        }
        value := value * 10;
        if value > INT64_MAX - digit {
          PrefixValueBound(start, i + 1);
          return 1;
        }
        value := value + digit;
      }
    }
    assert start[..|start|] == start;
    return 0;
  }

  /** Later characters never decrease the value of the digits seen so far. */
  lemma PrefixValueBound(s: string, n: nat)
    requires n <= |s|
    ensures ValueOf(DigitsOf(s[..n])) <= ValueOf(DigitsOf(s))
  {
    assert s == s[..n] + s[n..];
    var x, y := DigitsOf(s[..n]), DigitsOf(s[n..]);
    DigitsOfConcat(s[..n], s[n..]);
    ValueConcat(x, y);
    MulAtLeast(ValueOf(x), Pow10(|y|));
  }

  /** The decimal text of every int64_t fits in an int64_t except that of
      `INT64_MIN`, whose magnitude 2^63 is one too many. */
  lemma NumericKindOfInt64Text(v: Int64)
    ensures NumericKind(IntToString(v)) == (if v == INT64_MIN then 1 else 0)
  {
    var digits := NatToDigits(Abs(v));
    Int64MagnitudeDigits(v);
    var s := IntToString(v);
    if v < 0 {
      assert s == "-" + digits;
      DigitsOfConcat("-", digits);
      assert DigitsOf("-") == [] by { assert "-"[..0] == []; }
    } else {
      assert s == digits;
    }
    DigitsOfAllDigits(digits);
    assert DigitsOf(s) == digits;
    assert ValueOf(digits) == Abs(v);
  }

  lemma {:induction false} DigitsOfAllDigits(s: string)
    requires IsDigits(s)
    ensures DigitsOf(s) == s
    decreases |s|
  {
    if s != [] {
      DigitsOfAllDigits(s[..|s| - 1]);
    }
  }

  /** `sto_infer_string_type`: 1 (heap) for more than 23 bytes, else 0;
      NULL gives 0. */
  function InferStringType(literal: Option<string>): (r: int)
    ensures r == 0 || r == 1
    ensures literal.None? ==> r == 0
  {
    if literal.None? then 0
    else if |literal.value| > SsoInlineMax then 1 else 0
  }

  /** The inferred storage class is the one `sto_sso_create` picks. */
  lemma InferStringTypeMatchesCreate(s: string)
    ensures InferStringType(Some(s)) == 1 <==> IsHeap(Create(Some(s)).value)
  {
  }
}

=== FILE: sso_string.dfy ===
/** The string API of runtime/sto/sso_string.c over the small-string record
    of runtime_sto.c: every operation reads the text through `sto_sso_data`
    and builds a fresh record with the same inline/heap rule as
    `sto_sso_create` (inline when at most 23 bytes). */
module SsoStrings {
  import opened Wrappers
  import opened Machine
  import opened Text
  import opened Decimal
  import opened RuntimeSto
  import MlpString

  /** `sto_sso_length`: the stored length for a heap string, `flags >> 1`
      for an inline one; NULL gives 0. */
  function Length(s: Option<SsoString>): (n: nat)
    ensures s.None? ==> n == 0
    ensures s.Some? && Valid(s.value) ==> n == |Data(s).value|
  {
    if s.None? then 0
    else if IsHeap(s.value) then s.value.heapLength
    else s.value.flags / 2
  }

  /** On every record the constructors build, the length is the length of the text. */
  lemma LengthMatchesData(s: SsoString)
    requires Valid(s)
    ensures Length(Some(s)) == |Data(Some(s)).value|
  {
  }

  /** `sto_sso_concat`: NULL gives NULL; the text is `a ++ b`, stored inline
      iff the total length is at most 23. */
  function Concat(a: Option<SsoString>, b: Option<SsoString>): (r: Option<SsoString>)
    requires a.Some? ==> Valid(a.value)
    requires b.Some? ==> Valid(b.value)
    ensures r.Some? <==> a.Some? && b.Some?
    ensures r.Some? ==> Valid(r.value) && Data(r).value == Data(a).value + Data(b).value
    ensures r.Some? ==> Length(r) == Length(a) + Length(b)
    ensures r.Some? ==> (IsHeap(r.value) <==> Length(a) + Length(b) > SsoInlineMax)
  {
    if a.None? || b.None? then None
    else Some(MakeSso(Data(a).value + Data(b).value))
  }

  /** `sto_sso_compare`: the sign of `strcmp` on the two texts; a NULL
      operand gives 0. */
  function Compare(a: Option<SsoString>, b: Option<SsoString>): (c: int)
    ensures -1 <= c <= 1
    ensures a.Some? && b.Some? ==> (c == 0 <==> Data(a) == Data(b))
    ensures a.None? || b.None? ==> c == 0
  {
    if a.None? || b.None? then 0 else LexCompare(Data(a).value, Data(b).value)
  }

  /** Comparing the other way round flips the sign. */
  lemma CompareAntisymmetric(a: Option<SsoString>, b: Option<SsoString>)
    ensures Compare(b, a) == -Compare(a, b)
  {
    if a.Some? && b.Some? {
      LexCompareAntisymmetric(Data(a).value, Data(b).value);
    }
  }

  /** `sto_sso_equals`: `compare == 0`, so a NULL operand counts as equal to anything. */
  function Equals(a: Option<SsoString>, b: Option<SsoString>): (r: bool)
    ensures a.Some? && b.Some? ==> (r <==> Data(a) == Data(b))
    ensures a.None? || b.None? ==> r
  {
    Compare(a, b) == 0
  }

  /** `sto_sso_substring`: NULL or a start at or past the end gives NULL;
      otherwise the text from `start`, at most `length` bytes, in a fresh
      record (inline iff at most 23 bytes).  The clipping is the intended
      one; the wrapping `size_t` guard of the source is
      `MlpString.SubstringCopyLengthAsWritten`. */
  function Substring(str: Option<SsoString>, start: nat, length: nat): (r: Option<SsoString>)
    requires str.Some? ==> Valid(str.value)
    ensures r.Some? <==> str.Some? && start < Length(str)
    ensures r.Some? ==>
      var s := Data(str).value;
      var t := Data(r).value;
      Valid(r.value) && start + |t| <= |s| && t == s[start..start + |t|] &&
      |t| <= length && (|t| == length || start + |t| == |s|)
  {
    if str.None? || start >= Length(str) then None
    else
      var s := Data(str).value;
      var n := MlpString.SubstringCopyLength(|s|, start, length);
      Some(MakeSso(s[start..start + n]))
  }

  /** `sto_sso_to_int64`: `atoll` on the text; NULL gives 0. */
  function ToInt64(str: Option<SsoString>): (v: Int64)
    ensures str.None? ==> v == 0
    ensures str.Some? ==> v == ParseInt64(Data(str).value)
  {
    if str.None? then 0 else ParseInt64(Data(str).value)
  }

  /** `sto_sso_from_int64`: the "%lld" rendering, which always fits inline. */
  function FromInt64(value: Int64): (r: Option<SsoString>)
    ensures r.Some? && Valid(r.value) && !IsHeap(r.value)
    ensures Data(r) == Some(IntToString(value))
  {
    Int64MagnitudeDigits(value);
    Create(Some(IntToString(value)))
  }

  /** Reading back the rendering of a value gives the value. */
  lemma Int64RoundTrip(value: Int64)
    ensures ToInt64(FromInt64(value)) == value
  {
    ParseIntToString(value);
  }

  /** `sto_sso_find`: the index of the leftmost occurrence of the needle,
      or -1 when there is none or an argument is NULL. */
  function Find(haystack: Option<SsoString>, needle: Option<string>): (r: int)
    ensures r >= -1
    ensures r >= 0 ==> haystack.Some? && needle.Some? && OccursAt(Data(haystack).value, needle.value, r)
    ensures r >= 0 ==> forall j :: 0 <= j < r ==> !OccursAt(Data(haystack).value, needle.value, j)
    ensures r == -1 && haystack.Some? && needle.Some? ==> !Contains(Data(haystack).value, needle.value)
  {
    if haystack.None? || needle.None? then -1
    else
      var f := Text.Find(Data(haystack).value, needle.value);
      if f.Some? then f.value else -1
  }

  /** `sto_sso_copy`: a fresh record built from the same text. */
  function Copy(str: Option<SsoString>): (r: Option<SsoString>)
    ensures Data(r) == Data(str)
    ensures r.Some? ==> Valid(r.value)
  {
    Create(Data(str))
  }

  /** `sto_sso_to_cstring`: a NUL-terminated copy of the text. */
  function ToCString(str: Option<SsoString>): (r: Option<string>)
    requires str.Some? ==> Valid(str.value)
    ensures r == Data(str)
    ensures r.Some? ==> |r.value| == Length(str)
  {
    if str.None? then None else Some(Data(str).value)
  }

  /** `sto_sso_starts_with`: false for a NULL argument or a prefix longer
      than the string, otherwise whether the first bytes match. */
  function StartsWith(str: Option<SsoString>, prefix: Option<string>): (r: bool)
    requires str.Some? ==> Valid(str.value)
    ensures r <==> (str.Some? && prefix.Some? && |prefix.value| <= |Data(str).value| &&
                    Data(str).value[..|prefix.value|] == prefix.value)
  {
    if str.None? || prefix.None? then false
    else if |prefix.value| > Length(str) then false
    else Data(str).value[..|prefix.value|] == prefix.value
  }

  /** `sto_sso_ends_with`: false for a NULL argument or a suffix longer than
      the string, otherwise whether the last bytes match. */
  function EndsWith(str: Option<SsoString>, suffix: Option<string>): (r: bool)
    requires str.Some? ==> Valid(str.value)
    ensures r <==> (str.Some? && suffix.Some? && |suffix.value| <= |Data(str).value| &&
                    Data(str).value[|Data(str).value| - |suffix.value|..] == suffix.value)
  {
    if str.None? || suffix.None? then false
    else if |suffix.value| > Length(str) then false
    else Data(str).value[Length(str) - |suffix.value|..] == suffix.value
  }

  /** A concatenation starts with its left operand's text and ends with its
      right operand's text. */
  lemma ConcatAffixes(a: SsoString, b: SsoString)
    requires Valid(a) && Valid(b)
    ensures StartsWith(Concat(Some(a), Some(b)), Data(Some(a)))
    ensures EndsWith(Concat(Some(a), Some(b)), Data(Some(b)))
  {
    var x, y := Data(Some(a)).value, Data(Some(b)).value;
    assert (x + y)[..|x|] == x;
    assert (x + y)[|x + y| - |y|..] == y;
  }

  /** The substring from 0 with the full length is the whole text, and a
      copy compares equal to its source. */
  lemma SubstringWholeAndCopy(s: SsoString)
    requires Valid(s) && Length(Some(s)) > 0
    ensures Data(Substring(Some(s), 0, Length(Some(s)))) == Data(Some(s))
    ensures Equals(Copy(Some(s)), Some(s))
  {
    var t := Data(Some(s)).value;
    assert t[0..|t|] == t;
  }
}

=== FILE: sto_runtime.dfy ===
/** The second STO runtime, runtime/sto/sto_runtime.c: its own int64_t
    overflow checks, a small-string record that is inline only below 23
    bytes, reference counts, and the array, list and tuple containers that
    generated code stores 8-byte values in. */
module StoRuntime {
  import opened Wrappers
  import opened Machine

  // ---------------------------------------------------------------------------
  // Overflow detection
  // ---------------------------------------------------------------------------

  /** `sto_would_overflow_add`: exact. */
  function WouldOverflowAdd(a: Int64, b: Int64): (r: bool)
    ensures r <==> !InRange(a + b)
  {
    (b > 0 && a > INT64_MAX - b) || (b < 0 && a < INT64_MIN - b)
  }

  /** `sto_would_overflow_sub`: exact, `INT64_MIN` as subtrahend included. */
  function WouldOverflowSub(a: Int64, b: Int64): (r: bool)
    ensures r <==> !InRange(a - b)
  {
    (b < 0 && a > INT64_MAX + b) || (b > 0 && a < INT64_MIN + b)
  }

  /** `sto_would_overflow_mul`: one division test per sign combination,
      each bound computed with C's truncating division. */
  function WouldOverflowMul(a: Int64, b: Int64): (r: bool)
    ensures r <==> !InRange(a * b)
  {
    MulTestsExact(a, b);
    if a == 0 || b == 0 then false
    else if a > 0 && b > 0 && a > CDiv(INT64_MAX, b) then true
    else if a > 0 && b < 0 && b < CDiv(INT64_MIN, a) then true
    else if a < 0 && b > 0 && a < CDiv(INT64_MIN, b) then true
    else if a < 0 && b < 0 && a < CDiv(INT64_MAX, b) then true
    else false
  }

  /** For a positive divisor, exceeding the truncated quotient is exceeding
      the bound after multiplication. */
  lemma AboveQuotient(x: int, d: int, c: int)
    requires d > 0 && c >= 0
    ensures x > c / d <==> x * d > c
  {
    var q := c / d;
    assert c == q * d + c % d;
    if x > q {
      assert x * d == q * d + (x - q) * d;
      MulPositive(x - q, d);
    } else {
      assert q * d == x * d + (q - x) * d;
      MulPositive(q - x + 1, d);
    }
  }

  lemma MulPositive(x: int, d: int)
    requires x >= 1 && d >= 1
    ensures x * d >= d
  {
    assert x * d == (x - 1) * d + d;
    assert (x - 1) * d >= 0;
  }

  /** Each of the four tests decides overflow for its sign combination, and
      the product of two non-zero factors can only leave the range on the
      side their signs point to. */
  lemma MulTestsExact(a: Int64, b: Int64)
    ensures a > 0 && b > 0 ==> (a > CDiv(INT64_MAX, b) <==> !InRange(a * b))
    ensures a > 0 && b < 0 ==> (b < CDiv(INT64_MIN, a) <==> !InRange(a * b))
    ensures a < 0 && b > 0 ==> (a < CDiv(INT64_MIN, b) <==> !InRange(a * b))
    ensures a < 0 && b < 0 ==> (a < CDiv(INT64_MAX, b) <==> !InRange(a * b))
  {
    if a > 0 && b > 0 {
      MulTestPositive(a, b);
    } else if a > 0 && b < 0 {
      MulTestMixed(a, b);
    } else if a < 0 && b > 0 {
      MulTestMixed(b, a);
    } else if a < 0 && b < 0 {
      MulTestNegative(a, b);
    }
  }

  lemma MulTestPositive(a: Int64, b: Int64)
    requires a > 0 && b > 0
    ensures a > CDiv(INT64_MAX, b) <==> !InRange(a * b)
  {
    assert CDiv(INT64_MAX, b) == INT64_MAX / b;
    AboveQuotient(a, b, INT64_MAX);
    MulPositive(a, b);
  }

  /** One factor positive (`p`), the other negative (`n`): the test divides
      INT64_MIN by the positive one. */
  lemma MulTestMixed(p: Int64, n: Int64)
    requires p > 0 && n < 0
    ensures n < CDiv(INT64_MIN, p) <==> !InRange(p * n)
    ensures p * n == n * p
  {
    var half := -INT64_MIN;
    var m: int := -(n as int);
    assert CDiv(INT64_MIN, p) == -(half / p);
    AboveQuotient(m, p, half);
    MulPositive(p, m);
    assert p * n == -(m * p);
  }

  lemma MulTestNegative(a: Int64, b: Int64)
    requires a < 0 && b < 0
    ensures a < CDiv(INT64_MAX, b) <==> !InRange(a * b)
  {
    var na: int, nb: int := -(a as int), -(b as int);
    assert CDiv(INT64_MAX, b) == -(INT64_MAX / nb);
    AboveQuotient(na, nb, INT64_MAX);
    MulPositive(na, nb);
    assert a * b == na * nb;
  }

  /** `sto_safe_add_i64`: true and 0 on overflow, else false and the sum. */
  method SafeAdd(a: Int64, b: Int64) returns (overflow: bool, result: Int64)
    ensures overflow <==> !InRange(a + b)
    ensures result == if overflow then 0 else a + b
  {
    if WouldOverflowAdd(a, b) {
      return true, 0;
    }
    return false, a + b;
  }

  /** `sto_safe_sub_i64`: true and 0 on overflow, else false and the difference. */
  method SafeSub(a: Int64, b: Int64) returns (overflow: bool, result: Int64)
    ensures overflow <==> !InRange(a - b)
    ensures result == if overflow then 0 else a - b
  {
    if WouldOverflowSub(a, b) {
      return true, 0;
    }
    return false, a - b;
  }

  /** `sto_safe_mul_i64`: true and 0 on overflow, else false and the product. */
  method SafeMul(a: Int64, b: Int64) returns (overflow: bool, result: Int64)
    ensures overflow <==> !InRange(a * b)
    ensures result == if overflow then 0 else a * b
  {
    if WouldOverflowMul(a, b) {
      return true, 0;
    }
    return false, a * b;
  }

  // ---------------------------------------------------------------------------
  // Reference counts
  // ---------------------------------------------------------------------------

  /** The reference count of a `BigDecimal` of this runtime; `freed` records
      that `bigdec_release` handed it to `bigdec_free`. */
  class BigDecimalCell {
    var refcount: int
    var freed: bool

    constructor ()
      ensures refcount == 1 && !freed
    {
      refcount := 1;
      freed := false;
    }
  }

  /** `bigdec_retain`: one more reference; NULL is ignored. */
  method BigDecimalRetain(bd: BigDecimalCell?)
    requires bd != null ==> !bd.freed
    modifies bd
    ensures bd != null ==> bd.refcount == old(bd.refcount) + 1 && !bd.freed
  {
    if bd != null {
      bd.refcount := bd.refcount + 1;
    }
  }

  /** `bigdec_release`: one reference fewer; freed exactly when the count
      reaches zero. NULL is ignored. */
  method BigDecimalRelease(bd: BigDecimalCell?)
    requires bd != null ==> !bd.freed
    modifies bd
    ensures bd != null ==> bd.refcount == old(bd.refcount) - 1 && (bd.freed <==> bd.refcount == 0)
  {
    if bd != null {
      bd.refcount := bd.refcount - 1;
      if bd.refcount == 0 {
        bd.freed := true;
      }
    }
  }

  // ---------------------------------------------------------------------------
  // SSOString: inline below SSO_MAX_SIZE bytes, a flag selects the storage
  // ---------------------------------------------------------------------------

  /** `SSO_MAX_SIZE` of sto_runtime.h: the inline buffer's size, NUL included. */
  const SsoMaxSize: nat := 23

  /** The `SSOString` of sto_runtime.h.  The union's two halves are separate
      fields; `isHeap` says which one holds the text. */
  class SsoStr {
    var isHeap: bool
    var inlineData: string
    var inlineLength: nat
    var heapPtr: string
    var heapLength: nat
    var heapCapacity: nat
    var refcount: int
    var freed: bool

    /** What the constructors establish: inline text below 23 bytes with its
        length in the length byte, or heap text of at least 23 bytes with one
        byte of spare capacity. */
    predicate Valid()
      reads this
    {
      if isHeap then |heapPtr| == heapLength >= SsoMaxSize && heapCapacity == heapLength + 1
      else |inlineData| == inlineLength < SsoMaxSize
    }

    /** `sso_data`. */
    function Data(): (d: string)
      reads this
      ensures Valid() ==> (isHeap <==> |d| >= SsoMaxSize)
    {
      if isHeap then heapPtr else inlineData
    }

    /** `sso_length`. */
    function Length(): (n: nat)
      reads this
      ensures Valid() ==> n == |Data()|
    {
      if isHeap then heapLength else inlineLength
    }

    /** `sso_create`: inline iff the text is shorter than `SSO_MAX_SIZE`;
        a heap string starts with one reference. */
    constructor (text: string)
      ensures Valid() && Data() == text && Length() == |text| && !freed
      ensures isHeap <==> |text| >= SsoMaxSize
      ensures isHeap ==> refcount == 1
    {
      if |text| < SsoMaxSize {
        isHeap, inlineData, inlineLength := false, text, |text|;
        heapPtr, heapLength, heapCapacity, refcount := "", 0, 0, 0;
      } else {
        isHeap, inlineData, inlineLength := true, "", 0;
        heapPtr, heapLength, heapCapacity, refcount := text, |text|, |text| + 1, 1;
      }
      freed := false;
    }
  }

  /** On a valid record the length is the length of the text. */
  lemma SsoLengthMatchesData(s: SsoStr)
    requires s.Valid()
    ensures s.Length() == |s.Data()|
  {
  }

  /** `sso_concat`: a fresh record holding `a ++ b`, inline iff the total is
      below `SSO_MAX_SIZE`. */
  method SsoConcat(a: SsoStr, b: SsoStr) returns (r: SsoStr)
    requires a.Valid() && b.Valid()
    ensures fresh(r) && r.Valid() && !r.freed
    ensures r.Data() == a.Data() + b.Data() && r.Length() == a.Length() + b.Length()
    ensures r.isHeap <==> a.Length() + b.Length() >= SsoMaxSize
  {
    r := new SsoStr(a.Data() + b.Data());
  }

  /** `sso_retain`: only a heap string counts references; NULL is ignored,
      and nothing but the count changes. */
  method SsoRetain(s: SsoStr?)
    requires s != null ==> !s.freed
    modifies s
    ensures s != null ==> s.refcount == old(s.refcount) + (if s.isHeap then 1 else 0)
    ensures s != null ==> s.isHeap == old(s.isHeap) && s.Data() == old(s.Data()) && !s.freed
    ensures s != null ==>
      s.inlineData == old(s.inlineData) && s.inlineLength == old(s.inlineLength) &&
      s.heapPtr == old(s.heapPtr) && s.heapLength == old(s.heapLength) && s.heapCapacity == old(s.heapCapacity)
    ensures s != null ==> s.Valid() == old(s.Valid()) && s.Length() == old(s.Length())
  {
    if s != null && s.isHeap {
      s.refcount := s.refcount + 1;
    }
  }

  /** `sso_release`: a heap string loses a reference and is freed exactly
      when the count reaches zero; an inline string is never freed here, and
      the text, its length and its storage are kept. */
  method SsoRelease(s: SsoStr?)
    requires s != null ==> !s.freed
    modifies s
    ensures s != null ==> s.refcount == old(s.refcount) - (if s.isHeap then 1 else 0)
    ensures s != null ==> s.isHeap == old(s.isHeap) && s.Data() == old(s.Data())
    ensures s != null ==> (s.freed <==> s.isHeap && s.refcount == 0)
    ensures s != null ==>
      s.inlineData == old(s.inlineData) && s.inlineLength == old(s.inlineLength) &&
      s.heapPtr == old(s.heapPtr) && s.heapLength == old(s.heapLength) && s.heapCapacity == old(s.heapCapacity)
    ensures s != null ==> s.Valid() == old(s.Valid()) && s.Length() == old(s.Length())
  {
    if s != null && s.isHeap {
      s.refcount := s.refcount - 1;
      if s.refcount == 0 {
        s.freed := true;
      }
    }
  }

  // ---------------------------------------------------------------------------
  // STOArray: fixed count, bounds-checked
  // ---------------------------------------------------------------------------

  /** `STOArray`: `count` elements of `elemSize` bytes each; an element's
      bytes are one abstract value. */
  class StoArray {
    var elements: seq<int>
    var count: nat
    var elemSize: nat

    predicate Valid()
      reads this
    {
      |elements| == count && count > 0 && elemSize > 0
    }

    constructor (count0: nat, elemSize0: nat)
      requires count0 > 0 && elemSize0 > 0
      ensures Valid() && count == count0 && elemSize == elemSize0
      ensures forall i :: 0 <= i < count ==> elements[i] == 0
    {
      elements := seq(count0, _ => 0);
      count, elemSize := count0, elemSize0;
    }
  }

  /** `sto_array_alloc`: NULL when the count or the element size is zero;
      otherwise a header with `count` zeroed elements is allocated and what
      comes back is its element block, not the header. */
  method ArrayAlloc(count: nat, elemSize: nat) returns (block: Option<seq<int>>)
    ensures block.None? <==> count == 0 || elemSize == 0
    ensures block.Some? ==> |block.value| == count && forall i :: 0 <= i < count ==> block.value[i] == 0
  {
    if count == 0 || elemSize == 0 {
      return None;
    }
    var header := new StoArray(count, elemSize);
    return Some(header.elements);
  }

  /** `sto_array_set`: a NULL array or value returns quietly; an index at or
      past the count is fatal; otherwise only that element changes. */
  method ArraySet(a: StoArray?, index: nat, value: Option<int>) returns (r: Result<()>)
    requires a != null ==> a.Valid()
    modifies a
    ensures a != null ==> a.Valid() && a.count == old(a.count) && a.elemSize == old(a.elemSize)
    ensures r.Fatal? <==> a != null && value.Some? && index >= a.count
    ensures a != null && value.Some? && index < a.count ==> a.elements == old(a.elements)[index := value.value]
    ensures a != null && (value.None? || index >= a.count) ==> a.elements == old(a.elements)
  {
    if a == null || value.None? {
      return Ok(());
    }
    if index >= a.count {
      return Fatal("Array index out of bounds");
    }
    a.elements := a.elements[index := value.value];
    return Ok(());
  }

  /** `sto_array_get`: NULL for a NULL array, fatal past the count,
      otherwise the element. */
  method ArrayGet(a: StoArray?, index: nat) returns (r: Result<Option<int>>)
    requires a != null ==> a.Valid()
    ensures a == null ==> r == Ok(None)
    ensures a != null ==> (r.Fatal? <==> index >= a.count)
    ensures a != null && index < a.count ==> r == Ok(Some(a.elements[index]))
  {
    if a == null {
      return Ok(None);
    }
    if index >= a.count {
      return Fatal("Array index out of bounds");
    }
    return Ok(Some(a.elements[index]));
  }

  // ---------------------------------------------------------------------------
  // STOList: grows on demand, every slot typed
  // ---------------------------------------------------------------------------

  /** `STOList`: `capacity` slots, each either empty (a NULL pointer) or a
      value, with a type tag per slot; `count` is one past the highest slot
      ever set. */
  class StoList {
    var elements: seq<Option<int>>
    var types: seq<nat>
    var count: nat
    var capacity: nat

    predicate Valid()
      reads this
    {
      |elements| == capacity && |types| == capacity && count <= capacity && capacity > 0
    }

    /** `sto_list_alloc`: a requested capacity of 0 means 4; every slot empty. */
    constructor (requested: nat)
      ensures Valid() && count == 0 && capacity == (if requested == 0 then 4 else requested)
      ensures forall i :: 0 <= i < capacity ==> elements[i].None? && types[i] == 0
    {
      var cap := if requested == 0 then 4 else requested;
      elements := seq(cap, _ => None);
      types := seq(cap, _ => 0);
      count, capacity := 0, cap;
    }
  }

  /** The capacity `sto_list_set` leaves: `(index + 1) * 2` when the index
      does not fit, the old capacity otherwise. */
  function GrownCapacity(capacity: nat, index: nat): (c: nat)
    ensures c > index && c >= capacity
    ensures index < capacity ==> c == capacity
  {
    if index >= capacity then (index + 1) * 2 else capacity
  }

  /** `sto_list_set`: a NULL list or value returns quietly.  Otherwise the
      slots grow to `GrownCapacity` (new ones empty), slot `index` takes the
      value and its type, and the count covers the index. */
  method ListSet(list: StoList?, index: nat, value: Option<int>, tag: nat)
    requires list != null ==> list.Valid()
    modifies list
    ensures list != null ==> list.Valid()
    ensures list != null && value.None? ==>
      list.elements == old(list.elements) && list.types == old(list.types) &&
      list.count == old(list.count) && list.capacity == old(list.capacity)
    ensures list != null && value.Some? ==>
      list.capacity == GrownCapacity(old(list.capacity), index) &&
      list.count == (if index >= old(list.count) then index + 1 else old(list.count)) &&
      list.elements[index] == value && list.types[index] == tag &&
      (forall i :: 0 <= i < old(list.capacity) && i != index ==>
        list.elements[i] == old(list.elements[i]) && list.types[i] == old(list.types[i])) &&
      (forall i :: old(list.capacity) <= i < list.capacity && i != index ==>
        list.elements[i].None? && list.types[i] == 0)
  {
    if list == null || value.None? {
      return;
    }
    if index >= list.capacity {
      var newCapacity := (index + 1) * 2;
      var extra := newCapacity - list.capacity;
      list.elements := list.elements + seq(extra, _ => None);
      list.types := list.types + seq(extra, _ => 0);
      list.capacity := newCapacity;
    }
    list.elements := list.elements[index := value];
    list.types := list.types[index := tag];
    if index >= list.count {
      list.count := index + 1;
    }
  }

  /** `sto_list_get`: fatal for a NULL list or an index at or past the
      count, otherwise the slot. */
  method ListGet(list: StoList?, index: nat) returns (r: Result<Option<int>>)
    requires list != null ==> list.Valid()
    ensures r.Fatal? <==> list == null || index >= list.count
    ensures r.Ok? ==> r.value == list.elements[index]
  {
    if list == null || index >= list.count {
      return Fatal("List index out of bounds");
    }
    return Ok(list.elements[index]);
  }

  /** `sto_list_append`: set at the current count, so a NULL value is
      ignored and anything else lands after the existing elements. */
  method ListAppend(list: StoList, value: Option<int>, tag: nat)
    requires list.Valid()
    modifies list
    ensures list.Valid()
    ensures value.None? ==>
      list.elements == old(list.elements) && list.types == old(list.types) &&
      list.count == old(list.count) && list.capacity == old(list.capacity)
    ensures value.Some? ==> list.count == old(list.count) + 1
    ensures value.Some? ==> list.elements[old(list.count)] == value && list.types[old(list.count)] == tag
    ensures forall i :: 0 <= i < old(list.count) ==>
      list.elements[i] == old(list.elements[i]) && list.types[i] == old(list.types[i])
    ensures value.Some? ==> list.capacity == GrownCapacity(old(list.capacity), old(list.count))
    ensures value.Some? ==> forall i :: old(list.count) < i < list.capacity ==>
      list.elements[i] == (if i < old(list.capacity) then old(list.elements[i]) else None) &&
      list.types[i] == (if i < old(list.capacity) then old(list.types[i]) else 0)
  {
    ListSet(list, list.count, value, tag);
  }

  // ---------------------------------------------------------------------------
  // STOTuple: fixed count, writes out of range are ignored
  // ---------------------------------------------------------------------------

  class StoTuple {
    var elements: seq<Option<int>>
    var types: seq<nat>
    var count: nat

    predicate Valid()
      reads this
    {
      |elements| == count && |types| == count && count > 0
    }

    constructor (count0: nat)
      requires count0 > 0
      ensures Valid() && count == count0
      ensures forall i :: 0 <= i < count ==> elements[i].None? && types[i] == 0
    {
      elements := seq(count0, _ => None);
      types := seq(count0, _ => 0);
      count := count0;
    }
  }

  /** `sto_tuple_alloc`: NULL for a count of 0, otherwise empty slots. */
  method TupleAlloc(count: nat) returns (t: StoTuple?)
    ensures t == null <==> count == 0
    ensures t != null ==> fresh(t) && t.Valid() && t.count == count
    ensures t != null ==> forall i :: 0 <= i < count ==> t.elements[i].None?
  {
    if count == 0 {
      return null;
    }
    t := new StoTuple(count);
  }

  /** `sto_tuple_set`: a NULL tuple or value, or an index past the count,
      is ignored; otherwise only that slot changes. */
  method TupleSet(t: StoTuple?, index: nat, value: Option<int>, tag: nat)
    requires t != null ==> t.Valid()
    modifies t
    ensures t != null ==> t.Valid() && t.count == old(t.count)
    ensures t != null && value.Some? && index < t.count ==>
      t.elements == old(t.elements)[index := value] && t.types == old(t.types)[index := tag]
    ensures t != null && (value.None? || index >= t.count) ==>
      t.elements == old(t.elements) && t.types == old(t.types)
  {
    if t == null || value.None? || index >= t.count {
      return;
    }
    t.elements := t.elements[index := value];
    t.types := t.types[index := tag];
  }

  /** `sto_tuple_get`: fatal for a NULL tuple or an index at or past the
      count, otherwise the slot. */
  method TupleGet(t: StoTuple?, index: nat) returns (r: Result<Option<int>>)
    requires t != null ==> t.Valid()
    ensures r.Fatal? <==> t == null || index >= t.count
    ensures r.Ok? ==> r.value == t.elements[index]
  {
    if t == null || index >= t.count {
      return Fatal("Tuple index out of bounds");
    }
    return Ok(t.elements[index]);
  }
}

=== FILE: text.dfy ===
/** Byte strings as C and Python see them: a string is a `seq<char>`, one
    character per byte, without the terminating NUL.  This module holds the
    search primitive shared by `strstr`, Python's `str.find`/`str.replace` and
    every loop built on them, and `strcmp`'s ordering. */
module Text {
  import opened Wrappers

  /** `p` occurs in `s` starting at index `i`. */
  predicate OccursAt(s: string, p: string, i: int) {
    0 <= i && i + |p| <= |s| && s[i..i + |p|] == p
  }

  /** `s` has an occurrence of `p` anywhere. */
  predicate Contains(s: string, p: string) {
    exists i :: 0 <= i <= |s| && OccursAt(s, p, i)
  }

  /** The leftmost occurrence of `p` in `s` at index `from` or later: what
      `strstr(s + from, p)` finds. */
  function FindFrom(s: string, p: string, from: nat): (r: Option<nat>)
    decreases |s| - from
    ensures r.Some? ==> from <= r.value && OccursAt(s, p, r.value)
    ensures r.Some? ==> forall j :: from <= j < r.value ==> !OccursAt(s, p, j)
    ensures r.None? ==> forall j :: from <= j ==> !OccursAt(s, p, j)
  {
    if from + |p| > |s| then None
    else if s[from..from + |p|] == p then Some(from)
    else FindFrom(s, p, from + 1)
  }

  /** The leftmost occurrence of `p` in `s`. */
  function Find(s: string, p: string): Option<nat> {
    FindFrom(s, p, 0)
  }

  lemma FindEmpty(s: string)
    ensures Find(s, "") == Some(0)
  {
  }

  /** An occurrence inside the slice `s[lo..hi]` is an occurrence in `s`. */
  lemma OccursInSlice(s: string, p: string, lo: nat, hi: nat, j: nat)
    requires lo <= hi <= |s|
    ensures OccursAt(s[lo..hi], p, j) <==> (OccursAt(s, p, lo + j) && lo + j + |p| <= hi)
  {
    if j + |p| <= hi - lo {
      var u, v := s[lo..hi][j..j + |p|], s[lo + j..lo + j + |p|];
      assert |u| == |v|;
      forall k | 0 <= k < |u| ensures u[k] == v[k] {
      }
      assert u == v;
    }
  }

  // ---------------------------------------------------------------------------
  // Non-overlapping, left-to-right occurrences: counting, replacing, splitting
  // ---------------------------------------------------------------------------

  /** Number of non-overlapping occurrences of `p` in `s[from..]`, scanned left to right. */
  function CountFrom(s: string, p: string, from: nat): nat
    requires |p| > 0 && from <= |s|
    decreases |s| - from
  {
    match FindFrom(s, p, from)
    case None => 0
    case Some(i) => 1 + CountFrom(s, p, i + |p|)
  }

  function Count(s: string, p: string): nat
    requires |p| > 0
  {
    CountFrom(s, p, 0)
  }

  /** `s[from..]` with every non-overlapping occurrence of `p`, left to right,
      replaced by `r`; the replacement text is never rescanned. */
  function ReplaceAllFrom(s: string, p: string, r: string, from: nat): string
    requires |p| > 0 && from <= |s|
    decreases |s| - from
  {
    match FindFrom(s, p, from)
    case None => s[from..]
    case Some(i) => s[from..i] + r + ReplaceAllFrom(s, p, r, i + |p|)
  }

  function ReplaceAll(s: string, p: string, r: string): string
    requires |p| > 0
  {
    ReplaceAllFrom(s, p, r, 0)
  }

  /** `s` with only the leftmost occurrence of `p` replaced by `r`. */
  function ReplaceFirst(s: string, p: string, r: string): string {
    match Find(s, p)
    case None => s
    case Some(i) => s[..i] + r + s[i + |p|..]
  }

  /** The pieces of `s[from..]` between non-overlapping occurrences of `d`. */
  function SplitFrom(s: string, d: string, from: nat): seq<string>
    requires |d| > 0 && from <= |s|
    decreases |s| - from
  {
    match FindFrom(s, d, from)
    case None => [s[from..]]
    case Some(i) => [s[from..i]] + SplitFrom(s, d, i + |d|)
  }

  function Split(s: string, d: string): seq<string>
    requires |d| > 0
  {
    SplitFrom(s, d, 0)
  }

  /** The parts glued back together with `d` between consecutive parts. */
  function Join(parts: seq<string>, d: string): string {
    if |parts| == 0 then ""
    else if |parts| == 1 then parts[0]
    else parts[0] + d + Join(parts[1..], d)
  }

  /** One occurrence of the replacement: the gap before it, the new text, the rest. */
  lemma ReplaceAllFromStep(s: string, p: string, r: string, from: nat, i: nat)
    requires |p| > 0 && from <= |s| && FindFrom(s, p, from) == Some(i)
    ensures from <= i && i + |p| <= |s|
    ensures ReplaceAllFrom(s, p, r, from) == s[from..i] + r + ReplaceAllFrom(s, p, r, i + |p|)
  {
    assert OccursAt(s, p, i);
  }

  /** One piece of a split: the gap before the next delimiter, then the rest. */
  lemma SplitFromStep(s: string, d: string, from: nat, i: nat)
    requires |d| > 0 && from <= |s| && FindFrom(s, d, from) == Some(i)
    ensures from <= i && i + |d| <= |s|
    ensures SplitFrom(s, d, from) == [s[from..i]] + SplitFrom(s, d, i + |d|)
  {
  }

  /** Without a further delimiter the rest is the last piece. */
  lemma SplitFromEnd(s: string, d: string, from: nat)
    requires |d| > 0 && from <= |s| && FindFrom(s, d, from).None?
    ensures SplitFrom(s, d, from) == [s[from..]]
  {
  }

  lemma AppendAssociates<T>(a: seq<T>, b: seq<T>, c: seq<T>)
    ensures (a + b) + c == a + (b + c)
  {
  }

  /** The length of a full replacement grows by |r| - |p| per occurrence. */
  lemma {:induction false} ReplaceAllFromLength(s: string, p: string, r: string, from: nat)
    requires |p| > 0 && from <= |s|
    ensures |ReplaceAllFrom(s, p, r, from)| == |s| - from + CountFrom(s, p, from) * (|r| - |p|)
    decreases |s| - from
  {
    var f := FindFrom(s, p, from);
    if f.Some? {
      var i := f.value;
      var rest := ReplaceAllFrom(s, p, r, i + |p|);
      ReplaceAllFromLength(s, p, r, i + |p|);
      assert CountFrom(s, p, from) == 1 + CountFrom(s, p, i + |p|);
      assert ReplaceAllFrom(s, p, r, from) == s[from..i] + r + rest;
      LengthStep(|s|, from, i, |p|, |r|, CountFrom(s, p, i + |p|), |rest|);
    }
  }

  /** The arithmetic of one step of `ReplaceAllFromLength`. */
  lemma LengthStep(n: int, from: int, i: int, lp: int, lr: int, c: int, lrest: int)
    requires lrest == n - (i + lp) + c * (lr - lp)
    ensures (i - from) + lr + lrest == n - from + (1 + c) * (lr - lp)
  {
    assert (1 + c) * (lr - lp) == (lr - lp) + c * (lr - lp);
  }

  /** Replacing occurrences that do not exist changes nothing. */
  lemma ReplaceAllAbsent(s: string, p: string, r: string)
    requires |p| > 0 && !Contains(s, p)
    ensures ReplaceAll(s, p, r) == s
  {
  }

  /** The part of `s` before the leftmost occurrence at or after `from` contains no `p`. */
  lemma GapHasNoOccurrence(s: string, p: string, from: nat, hi: nat)
    requires |p| > 0 && from <= hi <= |s|
    requires forall j :: from <= j < hi ==> !OccursAt(s, p, j)
    ensures !Contains(s[from..hi], p)
  {
    if Contains(s[from..hi], p) {
      var x :| 0 <= x <= hi - from && OccursAt(s[from..hi], p, x);
      OccursInSlice(s, p, from, hi, x);
    }
  }

  /** An occurrence in `a + b + c` that avoids the middle lies in `a` or in `c`. */
  lemma OccursInConcat(a: string, b: string, c: string, p: string, x: int)
    requires OccursAt(a + b + c, p, x)
    ensures x + |p| <= |a| ==> OccursAt(a, p, x)
    ensures x >= |a| + |b| ==> OccursAt(c, p, x - |a| - |b|)
  {
    var t := a + b + c;
    if x + |p| <= |a| {
      assert t[x..x + |p|] == a[x..x + |p|];
    }
    if x >= |a| + |b| {
      var y := x - |a| - |b|;
      assert t[x..x + |p|] == c[y..y + |p|];
    }
  }

  /** An occurrence that overlaps the middle part shares a character with it. */
  lemma SharedCharacter(a: string, b: string, c: string, p: string, x: int) returns (i: nat, j: nat)
    requires |b| > 0 && |p| > 0
    requires OccursAt(a + b + c, p, x) && |a| < x + |p| && x < |a| + |b|
    ensures i < |b| && j < |p| && b[i] == p[j]
  {
    var t := a + b + c;
    var k := if x >= |a| then x else |a|;
    i, j := k - |a|, k - x;
    assert t[k] == b[i];
    assert t[x..x + |p|][j] == t[k];
  }

  /** When the replacement is non-empty and shares no character with the
      pattern, no occurrence of the pattern survives a full replacement: an
      occurrence would have to overlap the inserted text or lie in a gap
      that the leftmost search already passed over. */
  lemma {:induction false} ReplaceAllFromRemovesPattern(s: string, p: string, r: string, from: nat)
    requires |p| > 0 && |r| > 0 && from <= |s|
    requires forall i, j :: 0 <= i < |r| && 0 <= j < |p| ==> r[i] != p[j]
    ensures !Contains(ReplaceAllFrom(s, p, r, from), p)
    decreases |s| - from
  {
    match FindFrom(s, p, from)
    case None =>
      GapHasNoOccurrence(s, p, from, |s|);
      assert s[from..|s|] == s[from..];
    case Some(i) =>
      var a, c := s[from..i], ReplaceAllFrom(s, p, r, i + |p|);
      assert ReplaceAllFrom(s, p, r, from) == a + r + c;
      ReplaceAllFromRemovesPattern(s, p, r, i + |p|);
      GapHasNoOccurrence(s, p, from, i);
      if Contains(a + r + c, p) {
        var x :| OccursAt(a + r + c, p, x);
        OccursInConcat(a, r, c, p, x);
        if x + |p| <= |a| {
          assert Contains(a, p);
        } else if x < |a| + |r| {
          var ri, pj := SharedCharacter(a, r, c, p, x);
        }
      }
  }

  /** Gluing the pieces back together with the delimiter restores the text. */
  lemma {:induction false} JoinSplitFrom(s: string, d: string, from: nat)
    requires |d| > 0 && from <= |s|
    ensures Join(SplitFrom(s, d, from), d) == s[from..]
    decreases |s| - from
  {
    var f := FindFrom(s, d, from);
    if f.Some? {
      var i := f.value;
      JoinSplitFrom(s, d, i + |d|);
      var rest := SplitFrom(s, d, i + |d|);
      var parts := SplitFrom(s, d, from);
      assert parts == [s[from..i]] + rest;
      assert parts[1..] == rest;
      assert Join(parts, d) == s[from..i] + d + s[i + |d|..];
      assert s[from..] == s[from..i] + s[i..i + |d|] + s[i + |d|..];
    }
  }

  /** There is one more piece than there are delimiter occurrences, and no
      piece contains the delimiter. */
  lemma {:induction false} SplitFromShape(s: string, d: string, from: nat)
    requires |d| > 0 && from <= |s|
    ensures |SplitFrom(s, d, from)| == CountFrom(s, d, from) + 1
    ensures forall k :: 0 <= k < |SplitFrom(s, d, from)| ==> !Contains(SplitFrom(s, d, from)[k], d)
    decreases |s| - from
  {
    match FindFrom(s, d, from)
    case None =>
      GapHasNoOccurrence(s, d, from, |s|);
      assert s[from..|s|] == s[from..];
    case Some(i) =>
      SplitFromShape(s, d, i + |d|);
      GapHasNoOccurrence(s, d, from, i);
      var parts := SplitFrom(s, d, from);
      assert parts[1..] == SplitFrom(s, d, i + |d|);
      forall k | 0 <= k < |parts| ensures !Contains(parts[k], d) {
        if k > 0 { assert parts[k] == SplitFrom(s, d, i + |d|)[k - 1]; }
      }
  }

  // ---------------------------------------------------------------------------
  // strcmp ordering
  // ---------------------------------------------------------------------------

  /** The sign of `strcmp(a, b)`: bytes compared as unsigned values, a proper
      prefix ordered first. */
  function LexCompare(a: string, b: string): (c: int)
    ensures -1 <= c <= 1
    ensures c == 0 <==> a == b
  {
    if a == [] then (if b == [] then 0 else -1)
    else if b == [] then 1
    else if a[0] < b[0] then -1
    else if a[0] > b[0] then 1
    else
      var c := LexCompare(a[1..], b[1..]);
      assert c == 0 ==> a == [a[0]] + a[1..] == [b[0]] + b[1..] == b;
      c
  }

  /** Swapping the arguments flips the sign. */
  lemma {:induction false} LexCompareAntisymmetric(a: string, b: string)
    ensures LexCompare(b, a) == -LexCompare(a, b)
  {
    if a != [] && b != [] && a[0] == b[0] {
      LexCompareAntisymmetric(a[1..], b[1..]);
    }
  }

  /** The order is decided at the first index where the strings differ. */
  lemma {:induction false} LexCompareFirstDifference(a: string, b: string, k: nat)
    requires k < |a| && k < |b| && a[..k] == b[..k] && a[k] != b[k]
    ensures LexCompare(a, b) == (if a[k] < b[k] then -1 else 1)
  {
    if k > 0 {
      assert a[0] == a[..k][0] == b[..k][0] == b[0];
      assert a[1..][..k - 1] == a[1..k] == a[..k][1..];
      assert b[1..][..k - 1] == b[1..k] == b[..k][1..];
      LexCompareFirstDifference(a[1..], b[1..], k - 1);
    }
  }

  /** A proper prefix comes first. */
  lemma {:induction false} LexComparePrefix(a: string, b: string)
    requires |a| < |b| && b[..|a|] == a
    ensures LexCompare(a, b) == -1
  {
    if a != [] {
      assert a[0] == b[0];
      assert b[1..][..|a| - 1] == a[1..];
      LexComparePrefix(a[1..], b[1..]);
    }
  }
}

=== FILE: wrappers.dfy ===
/** Small failure-carrying datatypes shared by every module of the model.
    A C pointer that may be NULL is an `Option`; an operation that may end the
    process through a fatal runtime error returns a `Result`. */
module Wrappers {

  datatype Option<+T> = None | Some(value: T) {
    function GetOr(default: T): T {
      match this
      case Some(v) => v
      case None => default
    }
  }

  /** `Fatal(message)` stands for a call that prints `message` and exits the process. */
  datatype Result<+T> = Ok(value: T) | Fatal(message: string)
}
